=== FILE: README.md ===
# XMLParsing value-tree pipeline, modelled in Dafny

This project models the core of the XMLParsing Swift library, which encodes `Codable`
values to XML and decodes XML into an untyped dictionary. It covers both variants in the
repository:

- **XMLCoding** (the current one):
  - the encoder's container storage;
  - the encoder's keyed, unkeyed and single-value container rules, with the key, attribute
    and list strategies;
  - the projection of an encoded container tree onto `_XMLElement`s;
  - the element renderer and the XML declaration header;
  - the escaping table;
  - `flatten()`;
  - the event-driven stack parser.
- **XMLParsing** (the legacy one):
  - the element tree, whose children are kept in a `CHOrderedDictionary`;
  - the projection of an `NSDictionary`/`NSArray` value onto elements;
  - the formatting-aware renderer;
  - the structure-first `flatten()`;
  - the namespace-aware stack parser with its `xsi:nil` marker.
- **CHOrderedDictionary**: the insertion-ordered dictionary, as its header documents it.

Modules:

- `Wrappers`: `Option` and `Result`.
- `Primitives`: number text, character classes, and an arbitrary fixed key order that
  stands for a Swift dictionary's iteration order.
- `XMLText`: trimming, escaping, CDATA and the XML declaration.
- `SnakeCase`: the `convertToSnakeCase` key strategy.
- `EncodingStorage`: the `MutableContainer` tree, its immutable `Container` snapshot and the
  container stack.
- `XMLEncoder`: the XMLCoding encoder.
- `EncoderProperties`: properties of the encoder as a whole.
- `FlatValue`: the untyped values `flatten()` returns, and the loop that merges the children
  sharing a tag. Both variants use this loop.
- `CodingTree`: the XMLCoding `_XMLElement`.
- `CodingParser`: the XMLCoding `_XMLStackParser`.
- `OrderedDictionary`: `CHOrderedDictionary`.
- `LegacyTree`: the legacy `_XMLElement`.
- `LegacyParser`: the legacy `_XMLStackParser`.

Modelling choices:

- Reference semantics become values:
  - Every container carries an identity, handed out by the storage when the container is
    made.
  - A container is addressed by a handle: the index of a stack entry, a path of keys and
    indexes below it, and the identity of the container it was made for.
  - A handle designates something only while its path still leads to the container with
    that identity. Storing a new container or a value under the same key detaches the old
    container, and writing through its handle changes nothing. In the source such a write
    goes into an object that the stack no longer holds.
- A value's `encode(to:)` becomes a callback from encoder state to encoder state.
- Both parsers are driven by a sequence of tokenizer events.
- A double's text is a parameter, since floating-point formatting is not modelled.
- Where the source iterates a Swift `Dictionary`, the model uses an arbitrary but fixed key
  order (`Primitives.KeyOrder`). No property depends on which order that is. `flatten()` is
  proved to give the same result in every order.
- Both parsers are modelled as attaching a finished child to its parent when the child's
  end-element arrives, rather than when its start-element arrives. The source attaches at
  start. The trees are the same, and so is the insertion order of keys in the legacy ordered
  dictionary, because sibling elements occupy disjoint stretches of the event stream.

Where the code and the library's prose description differ, the model follows the code:

- The legacy parser removes the `nil` attribute in the schema-instance namespace whatever
  its value. Only the value `"true"` makes the element's text absent.
- After trimming, an element with no text gives different results:
  - XMLCoding makes the text absent.
  - The legacy variant makes it the empty string.
  - Both make whitespace-only text empty in their own way.
- The XMLCoding renderer always pretty-prints. Only the legacy renderer reads the output
  formatting.
- The two `flatten()`s give different precedence:
  - XMLCoding looks at a child's text first.
  - The legacy variant looks at children and attributes first.
  - In XMLCoding an empty child is kept as an empty dictionary only while the tag has no
    entry yet.
  - In the legacy variant an empty child contributes nothing.
- The legacy namespace table is scoped to the document, not to element nesting. When two
  prefixes share one URI, ending the inner prefix unbinds the URI even though the outer
  prefix is still live.
- The escaping table maps `&` to `&amp`, without the semicolon. The model keeps this. The
  table is still a prefix-free code, so escaping remains invertible (`XMLText.UnescapeEscape`).
- A CDATA section does not split a `]]>` inside its text.

## Model

| member | source | states |
|---|---|---|
| EncodingStorage.Get | Sources/XMLCoding/Encoder/XMLEncodingStorage.swift:17-20 | the subscript finds a container exactly for the keys present, and returns the stored one |
| EncodingStorage.Set | Sources/XMLCoding/Encoder/XMLEncodingStorage.swift:21-23 | assigning through the subscript (nil removes) changes the entry under that key only |
| EncodingStorage.SetTwiceLastWins | Sources/XMLCoding/Encoder/XMLEncodingStorage.swift:21-23 | a second assignment to the same key overrides the first completely |
| EncodingStorage.At | Sources/XMLCoding/Encoder/XMLEncodingStorage.swift:38-42 | indexing an array returns one of its elements |
| EncodingStorage.ReadAfterWrite | Sources/XMLCoding/Encoder/XMLEncodingStorage.swift:38-54 | reading back reads what was written: the appended or inserted element at its index, and every other element at its old or shifted index |
| EncodingStorage.Append | Sources/XMLCoding/Encoder/XMLEncodingStorage.swift:48-50 | append adds one element at the end and keeps the earlier ones |
| EncodingStorage.Insert | Sources/XMLCoding/Encoder/XMLEncodingStorage.swift:52-54 | insert puts the element at the index and shifts the later ones up by one |
| EncodingStorage.InsertAtEndIsAppend | Sources/XMLCoding/Encoder/XMLEncodingStorage.swift:48-54 | inserting at the count is appending |
| EncodingStorage.AsContainer | Sources/XMLCoding/Encoder/XMLEncodingStorage.swift:65-94 | the snapshot keeps each node's kind, its scalar, its item count and its key set |
| EncodingStorage.DictionaryAsContainer | Sources/XMLCoding/Encoder/XMLEncodingStorage.swift:26-32 | a dictionary snapshots to a dictionary with the same keys |
| EncodingStorage.ArrayAsContainer | Sources/XMLCoding/Encoder/XMLEncodingStorage.swift:56-62 | an array snapshots to an array of the same length |
| EncodingStorage.SnapshotItemsAt | Sources/XMLCoding/Encoder/XMLEncodingStorage.swift:56-62 | item i of an array's snapshot is the snapshot of item i |
| EncodingStorage.ThawAsContainer | Sources/XMLCoding/Encoder/XMLEncodingStorage.swift:26-94 | the snapshot loses nothing: rebuilding the mutable tree from it gives the original |
| EncodingStorage.AsContainerThaw | Sources/XMLCoding/Encoder/XMLEncodingStorage.swift:26-94 | every snapshot is the snapshot of some mutable tree, the one rebuilt from it |
| EncodingStorage.PushKeyedContainer | Sources/XMLCoding/Encoder/XMLEncodingStorage.swift:129-133 | the stack grows by one empty dictionary, the entries below unchanged |
| EncodingStorage.PushUnkeyedContainer | Sources/XMLCoding/Encoder/XMLEncodingStorage.swift:135-139 | the stack grows by one empty array, the entries below unchanged |
| EncodingStorage.Push | Sources/XMLCoding/Encoder/XMLEncodingStorage.swift:141-143 | the stack grows by the given container, the entries below unchanged |
| EncodingStorage.Count | Sources/XMLCoding/Encoder/XMLEncodingStorage.swift:125-127 | the depth of the container stack, zero exactly when no container is on it; each push adds one and a pop removes one, as the push and pop rows state |
| EncodingStorage.PushNull | Sources/XMLCoding/Encoder/XMLEncodingStorage.swift:145-147 | the stack grows by a null, the entries below unchanged |
| EncodingStorage.PopContainer | Sources/XMLCoding/Encoder/XMLEncodingStorage.swift:149-152 | popping a non-empty stack returns its top and leaves the rest |
| EncodingStorage.PushThenPop | Sources/XMLCoding/Encoder/XMLEncodingStorage.swift:141-152 | a pop undoes a push and returns what was pushed |
| EncodingStorage.PopThenPush | Sources/XMLCoding/Encoder/XMLEncodingStorage.swift:141-152 | pushing back what was popped restores the stack |
| EncodingStorage.ReplaceHandle | Sources/XMLCoding/Encoder/XMLEncodingStorage.swift:17-54 | a write through a live reference changes the referenced container only, and the reference still finds the new content when it keeps its identity; other stack entries stay; a reference whose container was replaced or removed changes nothing |
| EncodingStorage.OverwrittenIsDetached | Sources/XMLCoding/Encoder/XMLEncodingStorage.swift:21-23 | after a second container is stored under the same key, the first one's reference designates nothing and writes through it change nothing |
| EncodingStorage.WriteKey | Sources/XMLCoding/Encoder/XMLEncodingStorage.swift:21-23 | assigning a key in a dictionary held by reference updates it in place and nothing else |
| EncodingStorage.AppendItem | Sources/XMLCoding/Encoder/XMLEncodingStorage.swift:48-50 | appending to an array held by reference updates it in place and nothing else |
| EncodingStorage.WriteKeyThenResolve | Sources/XMLCoding/Encoder/XMLEncodingStorage.swift:21-23 | a container stored under a key stays reachable through the parent |
| EncodingStorage.AppendItemThenResolve | Sources/XMLCoding/Encoder/XMLEncodingStorage.swift:48-50 | a container appended to an array stays reachable at its index |
| Primitives.NatDigitsValue | Sources/XMLCoding/XMLStackParser.swift:150-153 | the decimal text of a number reads back as that number |
| Primitives.Lowercased | Sources/XMLCoding/Encoder/XMLEncoder.swift:161-163 | lowercasing maps every character and keeps the length |
| SnakeCase.FirstUpper | Sources/XMLCoding/Encoder/XMLEncoder.swift:132 | the search finds the first upper-case letter in the range, or reports there is none |
| SnakeCase.FirstLower | Sources/XMLCoding/Encoder/XMLEncoder.swift:136-138 | the search finds the first lower-case letter in the range, or reports there is none |
| SnakeCase.WordsFrom | Sources/XMLCoding/Encoder/XMLEncoder.swift:128-160 | the word ranges tile the rest of the key without gaps or overlaps |
| SnakeCase.Words | Sources/XMLCoding/Encoder/XMLEncoder.swift:128-160 | the word ranges tile the whole key; a word starts at every capital after a lower-case letter and at the last capital of a run followed by a lower-case letter; no word but the first starts with a lower-case letter |
| SnakeCase.CaseChangeStartsWord | Sources/XMLCoding/Encoder/XMLEncoder.swift:132-149 | the word loop splits the key before every capital that follows a lower-case letter |
| SnakeCase.AcronymEndStartsWord | Sources/XMLCoding/Encoder/XMLEncoder.swift:144-157 | the word loop splits a run of capitals before its last capital when a lower-case letter follows |
| SnakeCase.NoWordStartsLower | Sources/XMLCoding/Encoder/XMLEncoder.swift:132-158 | no word after the first starts at a lower-case letter: a later word starts at a capital found by the search, or at the character before a lower-case letter, which need not be a letter |
| SnakeCase.JoinLoweredLayout | Sources/XMLCoding/Encoder/XMLEncoder.swift:160-163 | the result is as long as the key plus one separator between each two words; each word appears lowercased at its shifted position, with `_` right after it |
| SnakeCase.JoinLoweredEnds | Sources/XMLCoding/Encoder/XMLEncoder.swift:160-163 | the result starts and ends with the key's first and last characters lowercased, so a leading or trailing `_` is kept and none is added |
| SnakeCase.WordsCoverKey | Sources/XMLCoding/Encoder/XMLEncoder.swift:128-163 | the lowercased words, put together without separators, are the lowercased stretch of the key they tile |
| SnakeCase.SnakeCaseKeepsLetters | Sources/XMLCoding/Encoder/XMLEncoder.swift:118-164 | removing the separators from the result gives back the whole key lowercased |
| SnakeCase.ConvertToSnakeCase | Sources/XMLCoding/Encoder/XMLEncoder.swift:118-164 | the empty key is kept; otherwise the words are lowercased and joined with `_`, leaving no upper-case letter; the result's length, word layout and ends are those of the key |
| SnakeCase.NoUpperIsFixed | Sources/XMLCoding/Encoder/XMLEncoder.swift:118-164 | a key without upper-case letters is unchanged |
| SnakeCase.ConvertIdempotent | Sources/XMLCoding/Encoder/XMLEncoder.swift:118-164 | converting twice is converting once |
| SnakeCase.ConvertExampleOneTwoThree | Sources/XMLCoding/Encoder/XMLEncoder.swift:108 | `oneTwoThree` becomes `one_two_three` |
| SnakeCase.ConvertExampleUnderscores | Sources/XMLCoding/Encoder/XMLEncoder.swift:108 | `_oneTwoThree_` becomes `_one_two_three_` |
| SnakeCase.ConvertExampleAcronym | Sources/XMLCoding/Encoder/XMLEncoder.swift:124-125 | `myURLProperty` becomes `my_url_property` |
| XMLEncoder.IndexKey | Sources/XMLCoding/Encoder/XMLEncoder.swift:737-741 | the key pushed for an unkeyed position carries that position as its integer value |
| XMLEncoder.ContainerKeyedBy | Sources/XMLCoding/Encoder/XMLEncoder.swift:304-321 | a fresh level gets a new dictionary on the stack; otherwise the dictionary on top is shared; the coding path is kept |
| XMLEncoder.UnkeyedContainerOf | Sources/XMLCoding/Encoder/XMLEncoder.swift:323-349 | a fresh level gets a new array, or under the item-tag strategy a dictionary whose one entry holds the array; otherwise the array on top is shared |
| XMLEncoder.WriteAttribute | Sources/XMLCoding/Encoder/XMLEncoder.swift:405-412 | the value goes into the attributes dictionary under the key, created if missing, and nothing else changes |
| XMLEncoder.KeyedEncodeNil | Sources/XMLCoding/Encoder/XMLEncoder.swift:397-399 | nil is stored as null under the converted key |
| XMLEncoder.KeyedEncode | Sources/XMLCoding/Encoder/XMLEncoder.swift:401-416 | a scalar goes into the attributes when the strategy says so, else under the converted key; other stack entries and the coding path are unchanged |
| XMLEncoder.Converted | Sources/XMLCoding/Encoder/XMLEncoder.swift:383-394 | default keys are kept; snake case rewrites the text, keeps the integer value and leaves no capital; a custom converter is called with the container's own coding path followed by the key |
| XMLEncoder.KeyedEncodeFloat | Sources/XMLCoding/Encoder/XMLEncoder.swift:605-610 | a float is widened and always stored as an element, never routed to the attributes |
| XMLEncoder.KeyedEncodeValue | Sources/XMLCoding/Encoder/XMLEncoder.swift:630-650 | a value is boxed with the key on the coding path, stored under the converted key, and the path restored; a boxing error propagates |
| XMLEncoder.NestedContainer | Sources/XMLCoding/Encoder/XMLEncoder.swift:652-661 | a new empty dictionary, with an identity not used before, is stored under the key and returned, with the key appended to the path |
| XMLEncoder.NestedUnkeyedContainer | Sources/XMLCoding/Encoder/XMLEncoder.swift:663-670 | a new empty array, with an identity not used before, is stored under the key and returned, with the key appended to the path |
| XMLEncoder.UnkeyedEncode | Sources/XMLCoding/Encoder/XMLEncoder.swift:709-735 | a scalar or null is appended to the shared array and nothing else changes |
| XMLEncoder.UnkeyedCount | Sources/XMLCoding/Encoder/XMLEncoder.swift:693-696 | the number of items in the container's array; a container the stack no longer holds counts zero |
| EncoderProperties.UnkeyedCountCountsAppends | Sources/XMLCoding/Encoder/XMLEncoder.swift:693-696 | each append through a live container, scalar or nested, raises the count by one, so the next index key is the item's position; a detached container stays at zero |
| XMLEncoder.UnkeyedEncodeValue | Sources/XMLCoding/Encoder/XMLEncoder.swift:737-741 | a value is boxed under its index key and appended; a boxing error propagates |
| XMLEncoder.UnkeyedNestedContainer | Sources/XMLCoding/Encoder/XMLEncoder.swift:743-752 | an empty dictionary is appended and returned, keyed by its index |
| XMLEncoder.UnkeyedNestedUnkeyedContainer | Sources/XMLCoding/Encoder/XMLEncoder.swift:754-761 | an empty array is appended and returned, keyed by its index |
| XMLEncoder.SingleEncode | Sources/XMLCoding/Encoder/XMLEncoder.swift:771-848 | on a fresh level a single value is pushed, after which the level is no longer fresh |
| XMLEncoder.SingleEncodeValue | Sources/XMLCoding/Encoder/XMLEncoder.swift:850-853 | a single value is boxed and the result pushed; a boxing error propagates |
| XMLEncoder.Box_ | Sources/XMLCoding/Encoder/XMLEncoder.swift:906-932 | a primitive boxes to itself; otherwise the value encodes itself and, if it pushed a container, that container is popped and returned |
| XMLEncoder.Box | Sources/XMLCoding/Encoder/XMLEncoder.swift:901-903 | like `box_`, with an empty dictionary when nothing was encoded |
| XMLEncoder.EncodeValue | Sources/XMLCoding/Encoder/XMLEncoder.swift:253-258 | top-level boxing yields the snapshot of what was encoded; nothing encoded is an error; errors propagate |
| XMLEncoder.Encode | Sources/XMLCoding/Encoder/XMLEncoder.swift:253-261 | encoding produces text exactly when the top-level value is a dictionary or an array |
| EncoderProperties.KeyedReacquired | Sources/XMLCoding/Encoder/XMLEncoder.swift:304-321 | asking again for a keyed container at the same level returns the same one |
| EncoderProperties.UnkeyedReacquired | Sources/XMLCoding/Encoder/XMLEncoder.swift:323-349 | asking again for an unkeyed container returns the same array |
| EncoderProperties.ExpandedReacquireTraps | Sources/XMLCoding/Encoder/XMLEncoder.swift:323-349 | under the item-tag strategy a second unkeyed request traps, but a keyed request sees the wrapper dictionary |
| EncoderProperties.KeyedThenUnkeyedTraps | Sources/XMLCoding/Encoder/XMLEncoder.swift:335-345 | after a keyed container, an unkeyed request at the same level traps |
| EncoderProperties.UnkeyedThenKeyedTraps | Sources/XMLCoding/Encoder/XMLEncoder.swift:309-316 | after an unkeyed container, a keyed request at the same level traps |
| EncoderProperties.SingleThenContainerTraps | Sources/XMLCoding/Encoder/XMLEncoder.swift:771-773 | after a single value, neither kind of container can be requested |
| EncoderProperties.RoutedWriteGoesToAttributes | Sources/XMLCoding/Encoder/XMLEncoder.swift:401-416 | a routed scalar lands in the attributes dictionary, existing attributes kept, and the element entry under the key is untouched |
| EncoderProperties.DirectWriteLeavesAttributes | Sources/XMLCoding/Encoder/XMLEncoder.swift:401-416 | an unrouted scalar lands under its key and the attributes are untouched |
| EncoderProperties.FloatNeverRouted | Sources/XMLCoding/Encoder/XMLEncoder.swift:605-610 | a float is written as the attribute strategy's default would write a double |
| EncoderProperties.SnakeCaseNames | Sources/XMLCoding/Encoder/XMLEncoder.swift:383-389 | under snake case the stored name is the converted key, and converting it again changes nothing |
| EncoderProperties.CustomKeySeesContainerPath | Sources/XMLCoding/Encoder/XMLEncoder.swift:383-394 | for a container nested under a key, the custom converter receives that key and then the written key, while the encoder's path is unchanged; a direct write lands under the converter's text |
| EncoderProperties.ItemsIntoArray | Sources/XMLCoding/Encoder/XMLEncoder.swift:737-741 | encoding scalars one by one into an array appends them all, in order |
| EncoderProperties.ItemsIntoExpandedList | Sources/XMLCoding/Encoder/XMLEncoder.swift:323-338 | under the item-tag strategy the items all land in the array under the tag, in order |
| EncoderProperties.BoxArrayLayout | Sources/XMLCoding/Encoder/XMLEncoder.swift:323-338 | an array of scalars boxes to an array of leaves, or to a tag-keyed wrapper around it, and the stack returns to where it was |
| EncoderProperties.NothingEncoded | Sources/XMLCoding/Encoder/XMLEncoder.swift:253-258 | a value that encodes nothing boxes to an empty dictionary and is rejected at top level |
| EncoderProperties.ErrorsPropagate | Sources/XMLCoding/Encoder/XMLEncoder.swift:253-258 | an error thrown by a value's own encoding reaches the caller unchanged |
| EncoderProperties.BoxRestoresStack | Sources/XMLCoding/Encoder/XMLEncoder.swift:906-932 | boxing a value that pushed one container returns it and leaves the stack as before |
| EncoderProperties.TopLevelPrimitiveIsNotARoot | Sources/XMLCoding/XMLStackParser.swift:82-95 | a bare scalar encodes to a leaf, which cannot become the document root |
| EncoderProperties.OneValuePerPath | Sources/XMLCoding/Encoder/XMLEncoder.swift:293-301 | `canEncodeNewValue` holds on a fresh encoder, is used up by a container request or a single value, and holds again once the path is extended by a nested key |
| EncoderProperties.RenestingDetaches | Sources/XMLCoding/Encoder/XMLEncoder.swift:652-661 | asking twice for a nested container under one key stores a second new dictionary; the first is detached, and writes or nested requests through it change no stack entry |
| EncoderProperties.OverwriteDetaches | Sources/XMLCoding/Encoder/XMLEncoder.swift:401-416 | writing a scalar under a nested container's key detaches that container, and writes through it change nothing |
| EncoderProperties.OneFieldRecord | Sources/XMLCoding/Encoder/XMLEncoder.swift:401-416 | a one-field record encodes to a one-entry dictionary, or to an attribute of the root when routed |
| XMLText.Trim | Sources/XMLCoding/XMLStackParser.swift:310 | trimming keeps a contiguous middle slice that neither starts nor ends with a trimmed character |
| XMLText.TrimEmptyIffAllTrimmed | Sources/XMLCoding/XMLStackParser.swift:310-312 | text trims to nothing exactly when every character is trimmed |
| XMLText.Escape | Sources/XMLCoding/XMLStackParser.swift:242-250 | escaping with the element's table is replacing each character by its own entity, independently of its neighbours |
| XMLText.PassesArePerCharacter | Sources/XMLCoding/XMLStackParser.swift:242-250 | the table's five replacement passes, ampersand first, never rewrite an entity an earlier pass introduced |
| XMLText.EscapedHasNoMarkup | Sources/XMLCoding/XMLStackParser.swift:60 | escaped text contains no `<`, `>`, `'` or `"` |
| XMLText.EscapePlainText | Sources/XMLCoding/XMLStackParser.swift:242-250 | text without special characters is left as it is |
| XMLText.UnescapeEscape | Sources/XMLCoding/XMLStackParser.swift:60 | the table as written, `&amp` included, can be decoded back to the original text |
| XMLText.CDataEarlyTerminator | Sources/XMLCoding/XMLStackParser.swift:216 | a `]]>` inside the text appears inside the CDATA section as written |
| XMLText.ToXML | Sources/XMLCoding/XMLStackParser.swift:33-55 | a header with no field renders to nothing; otherwise to the set fields, trimmed, wrapped in `<?xml … ?>` and a newline |
| XMLText.RawDeclarationTrims | Sources/XMLCoding/XMLStackParser.swift:40-54 | trimming the raw declaration removes only its trailing space |
| XMLText.RawDeclarationShape | Sources/XMLCoding/XMLStackParser.swift:40-54 | the raw declaration ends in one space unless standalone is set |
| CodingTree.Project | Sources/XMLCoding/XMLStackParser.swift:103-122 | a scalar becomes a text element, a null an empty element, a dictionary an element of its entries, an array one element per item; all under the key |
| CodingTree.ProjectItems | Sources/XMLCoding/XMLStackParser.swift:144-148 | every element made from an array's items carries the array's key |
| CodingTree.ElementOf | Sources/XMLCoding/XMLStackParser.swift:124-142 | the attribute entry becomes the attributes; every other entry that yields elements becomes a child group of exactly those elements |
| CodingTree.CreateRootElement | Sources/XMLCoding/XMLStackParser.swift:82-95 | only a dictionary or an array makes a root; an array's items become children under the root key |
| CodingTree.Contribute | Sources/XMLCoding/XMLStackParser.swift:165-190 | a child with text merges its text; an empty child is a placeholder kept only while the tag has no entry |
| CodingTree.Flatten | Sources/XMLCoding/XMLStackParser.swift:160-195 | the result has exactly the keys whose entry is defined, with that entry |
| CodingTree.FlattenInAnyOrder | Sources/XMLCoding/XMLStackParser.swift:160-195 | the loop gives the same result whatever order the child tags are visited in |
| CodingTree.FlattenRecordOfScalars | Sources/XMLCoding/XMLStackParser.swift:103-195 | a dictionary of scalars projects and flattens back to the text of each scalar |
| CodingTree.FlattenNullField | Sources/XMLCoding/XMLStackParser.swift:186-190 | a null field flattens to an empty dictionary |
| CodingTree.FlattenScalarArrayField | Sources/XMLCoding/XMLStackParser.swift:144-185 | an array of scalars flattens to its texts: bare for one item, a list for more |
| CodingTree.FlattenDropsNullInArray | Sources/XMLCoding/XMLStackParser.swift:144-190 | a null between two scalars of an array is lost in the flattened list |
| CodingTree.Indent | Sources/XMLCoding/XMLStackParser.swift:206 | indentation is four spaces per level |
| CodingTree.RenderTagCount | Sources/XMLCoding/XMLStackParser.swift:205-238 | rendering emits one `<` per opening and per closing tag, none from escaped content |
| CodingTree.RenderNull | Sources/XMLCoding/XMLStackParser.swift:232-234 | an element with neither text nor children renders self-closing |
| CodingTree.RenderScalar | Sources/XMLCoding/XMLStackParser.swift:213-220 | a scalar renders as its escaped text between tags, and the text is recoverable |
| CodingTree.Render | Sources/XMLCoding/XMLStackParser.swift:205-238 | an element renders as its indentation, `<` and tag, and ends with its end tag when it has text or children, else with ` />` |
| CodingTree.RenderChildren | Sources/XMLCoding/XMLStackParser.swift:205-232 | an element with children and no text renders as its start tag, `>` and a line break, then every child one level deeper, group by group, each followed by a line break, then four spaces per level and its end tag |
| CodingTree.GroupsAreLines | Sources/XMLCoding/XMLStackParser.swift:224-229 | the groups' text is the children of all groups, in group order, each rendered one level deeper and followed by a line break |
| CodingTree.SiblingsAreLines | Sources/XMLCoding/XMLStackParser.swift:225-228 | one group's text is its children, in order, each rendered one level deeper and followed by a line break |
| CodingTree.RenderedAtIndex | Sources/XMLCoding/XMLStackParser.swift:226 | the i-th rendered child is the i-th child rendered at that level |
| CodingTree.ToXMLString | Sources/XMLCoding/XMLStackParser.swift:197-203 | the document ends with the rendered root; without a header, or with an empty one, it is just the root; with a non-empty one it starts with `<?xml` |
| CodingTree.EncodeDocument | Sources/XMLCoding/XMLStackParser.swift:82-95 | a document is produced exactly for a dictionary or an array |
| CodingParser.AppendText | Sources/XMLCoding/XMLStackParser.swift:327-329 | character data is appended to the current text, absent text counting as empty |
| CodingParser.Attach | Sources/XMLCoding/XMLStackParser.swift:298-304 | a child joins the end of its tag's group and no other group changes |
| CodingParser.Settle | Sources/XMLCoding/XMLStackParser.swift:308-316 | text is trimmed, and text that trims to nothing becomes absent |
| CodingParser.Finish | Sources/XMLCoding/XMLStackParser.swift:306-316 | a closing element keeps its tag, attributes and children; its text is settled and never grows, and is absent when none arrived |
| CodingParser.Deliver | Sources/XMLCoding/XMLStackParser.swift:318-323 | a finished element becomes the root when the stack is empty, else a child of the new top |
| CodingParser.Step | Sources/XMLCoding/XMLStackParser.swift:293-335 | a start pushes one element, an end pops one, other events keep the depth |
| CodingParser.RunConcat | Sources/XMLCoding/XMLStackParser.swift:288-335 | processing two event runs one after the other is processing their concatenation |
| CodingParser.Parse | Sources/XMLCoding/XMLStackParser.swift:261-286 | a tokenizer error is reported as such; success exactly when a root was built, and the result is its flattening; a stream that builds no root, or an abort without an error, is reported as corrupted data |
| CodingParser.Normalized | Sources/XMLCoding/XMLStackParser.swift:308-316 | normalising keeps key and attributes and settles the text |
| CodingParser.AttachAllSameKey | Sources/XMLCoding/XMLStackParser.swift:298-304 | attaching several same-tag children appends them all to that group, in order |
| CodingParser.ParseRoundTrip | Sources/XMLCoding/XMLStackParser.swift:288-335 | the events of a tree parse back to that tree, text settled |
| CodingParser.ParseFlattens | Sources/XMLCoding/XMLStackParser.swift:261-335 | parsing a tree's events returns the flattening of the settled tree |
| CodingParser.CharactersAccumulate | Sources/XMLCoding/XMLStackParser.swift:327-329 | two character events act as one with the concatenated text |
| CodingParser.NoElementIsCorrupt | Sources/XMLCoding/XMLStackParser.swift:264-269 | a stream without a start-element is reported as corrupted |
| CodingParser.BlankTextDropped | Sources/XMLCoding/XMLStackParser.swift:310-312 | whitespace-only text becomes absent |
| FlatValue.Fold | Sources/XMLCoding/XMLStackParser.swift:163-191 | once an entry exists it never disappears |
| FlatValue.FoldFresh | Sources/XMLCoding/XMLStackParser.swift:165-172 | one value is stored bare; two or more become a list of all of them, in order |
| FlatValue.FoldOntoBare | Sources/XMLCoding/XMLStackParser.swift:168-171 | a second value pairs with the existing bare one, later values append |
| FlatValue.FoldIgnoresIfAbsentOnceSet | Sources/XMLCoding/XMLStackParser.swift:186-190 | once the entry exists, empty children change nothing |
| FlatValue.FoldAbsentIff | Sources/XMLParsing/XMLStackParser.swift:164-187 | an entry stays absent exactly when it was absent and every child contributed nothing |
| FlatValue.IfAbsentThenMerge | Tests/XMLCodingTests/XMLParsingTests.swift:51-71 | an empty child followed by a text child gives a list of both |
| FlatValue.MergeThenIfAbsent | Tests/XMLCodingTests/XMLParsingTests.swift:51-71 | an empty child after a text child leaves the text as it was |
| FlatValue.FoldAllGroups | Sources/XMLCoding/XMLStackParser.swift:160-195 | visiting every tag once, in any order, settles each tag's entry independently |
| OrderedDictionary.Empty | Sources/XMLParsing/CHDataStructures/CHOrderedDictionary.h:21-28 | a new dictionary has no keys |
| OrderedDictionary.ObjectForKey | Sources/XMLParsing/CHDataStructures/CHOrderedDictionary.h:38 | lookup finds a value exactly for present keys |
| OrderedDictionary.SetObject | Sources/XMLParsing/CHDataStructures/CHOrderedDictionary.h:231-240 | the key's value is replaced; a new key goes to the end of the ordering, an existing key keeps its place |
| OrderedDictionary.FirstKey | Sources/XMLParsing/CHDataStructures/CHOrderedDictionary.h:50-58 | the first key in the ordering, none when empty |
| OrderedDictionary.LastKey | Sources/XMLParsing/CHDataStructures/CHOrderedDictionary.h:60-68 | the last key in the ordering, none when empty |
| OrderedDictionary.IndexOfKey | Sources/XMLParsing/CHDataStructures/CHOrderedDictionary.h:70-80 | the position of a present key, not-found for an absent one |
| OrderedDictionary.KeyAtIndex | Sources/XMLParsing/CHDataStructures/CHOrderedDictionary.h:82-95 | the key at an index, or a range exception past the end |
| OrderedDictionary.ObjectForKeyAtIndex | Sources/XMLParsing/CHDataStructures/CHOrderedDictionary.h:111-124 | the value of the key at an index, or a range exception past the end |
| OrderedDictionary.ExchangeKeys | Sources/XMLParsing/CHDataStructures/CHOrderedDictionary.h:175-186 | swaps the two keys' positions and keeps every value and every other position; a range exception when either index is out of range |
| OrderedDictionary.InsertObject | Sources/XMLParsing/CHDataStructures/CHOrderedDictionary.h:188-202 | places a new key at the index; a range exception past the end; an invalid-argument exception for a nil key or value |
| OrderedDictionary.RemoveObjectForKeyAtIndex | Sources/XMLParsing/CHDataStructures/CHOrderedDictionary.h:204-216 | removes the key at the index and its value, later keys shifting down; a range exception past the end |
| OrderedDictionary.SetObjectForKeyAtIndex | Sources/XMLParsing/CHDataStructures/CHOrderedDictionary.h:242-254 | replaces the value of the key at the index, ordering unchanged; an invalid-argument exception for nil, a range exception past the end |
| OrderedDictionary.ReverseKeyEnumerator | Sources/XMLParsing/CHDataStructures/CHOrderedDictionary.h:154-168 | the enumerator yields every key exactly once, its i-th key being the one at index count-1-i |
| OrderedDictionary.RemovedAt | Sources/XMLParsing/CHDataStructures/CHOrderedDictionary.h:204-216 | removing one position keeps the other keys, still each once |
| OrderedDictionary.ReverseKeys | Sources/XMLParsing/CHDataStructures/CHOrderedDictionary.h:154-168 | the reverse enumerator yields the keys last to first |
| OrderedDictionary.IndexOfKeyKeyAtIndex | Sources/XMLParsing/CHDataStructures/CHOrderedDictionary.h:70-95 | key-at-index and index-of-key are inverse on present keys and valid indexes |
| OrderedDictionary.ObjectAtIndexIsObjectForKey | Sources/XMLParsing/CHDataStructures/CHOrderedDictionary.h:111-124 | the value at an index is the value of the key at that index |
| OrderedDictionary.SetObjectKeepsOthers | Sources/XMLParsing/CHDataStructures/CHOrderedDictionary.h:231-240 | setting one key changes no other key's value or position |
| OrderedDictionary.SetObjectTwiceLastWins | Sources/XMLParsing/CHDataStructures/CHOrderedDictionary.h:28 | setting a key twice is setting it once to the second value |
| OrderedDictionary.RemoveUndoesInsert | Sources/XMLParsing/CHDataStructures/CHOrderedDictionary.h:188-216 | removing at the index of a fresh insertion restores the dictionary |
| OrderedDictionary.ExchangeTwiceIdentity | Sources/XMLParsing/CHDataStructures/CHOrderedDictionary.h:175-186 | exchanging the same two positions twice restores the dictionary |
| OrderedDictionary.ReverseReverse | Sources/XMLParsing/CHDataStructures/CHOrderedDictionary.h:154-168 | reversing the key order twice gives the original order |
| LegacyTree.Attach | Sources/XMLParsing/XMLStackParser.swift:316-321 | a child joins the end of its tag's group; a new tag goes to the end of the ordering; no other group changes |
| LegacyTree.AttachAllSameKey | Sources/XMLParsing/XMLStackParser.swift:121 | attaching several same-tag children appends them all to one group |
| LegacyTree.Project | Sources/XMLParsing/XMLStackParser.swift:97-155 | a string or number becomes a text element, a dictionary an element of its entries, an array one element per item, anything else a bare element |
| LegacyTree.ChildKeys | Sources/XMLParsing/XMLStackParser.swift:100-104 | the child keys are the dictionary's keys except the attributes key, each once |
| LegacyTree.ChildrenFromContents | Sources/XMLParsing/XMLStackParser.swift:106-118 | each key that yields elements gets a group of exactly those elements, in first-insertion order |
| LegacyTree.ElementOf | Sources/XMLParsing/XMLStackParser.swift:97-123 | the attribute entry becomes the attributes; every other entry that yields elements becomes a child group |
| LegacyTree.CreateRootElement | Sources/XMLParsing/XMLStackParser.swift:79-89 | a dictionary makes the root from its entries, an array makes one child per item, anything else a bare root |
| LegacyTree.SpliceOne | Sources/XMLParsing/XMLStackParser.swift:125-140 | an array's elements form one group under the array's key |
| LegacyTree.Contribute | Sources/XMLParsing/XMLStackParser.swift:164-187 | a child contributes nothing exactly when it has no children, no attributes and no text |
| LegacyTree.Flatten | Sources/XMLParsing/XMLStackParser.swift:157-192 | the result has exactly the keys whose entry is defined, with that entry |
| LegacyTree.FlattenLoopIsFlatten | Sources/XMLParsing/XMLStackParser.swift:157-192 | the loop in the ordering's key order gives the key-wise result |
| LegacyTree.FlattenEntryAbsentIff | Sources/XMLParsing/XMLStackParser.swift:164-187 | a key is missing exactly when it is no attribute and every child under it is empty |
| LegacyTree.StructureBeforeText | Sources/XMLParsing/XMLStackParser.swift:164-187 | a child with text and attributes flattens to its attributes here, but to its text in the XMLCoding variant |
| LegacyTree.Indentation | Sources/XMLParsing/XMLStackParser.swift:203-204 | four spaces per level when pretty-printing, none otherwise |
| LegacyTree.CompactIgnoresLevel | Sources/XMLParsing/XMLStackParser.swift:202-237 | without pretty-printing the nesting level does not affect the output |
| LegacyTree.CompactIsOneLine | Sources/XMLParsing/XMLStackParser.swift:202-237 | without pretty-printing, newline-free content renders on one line |
| LegacyTree.Render | Sources/XMLParsing/XMLStackParser.swift:202-237 | an element renders as its indentation, `<` and tag, and ends with its end tag when it has text or children, else with ` />` |
| LegacyTree.RenderChildren | Sources/XMLParsing/XMLStackParser.swift:202-231 | an element with children and no text renders as its start tag and `>` (with a line break when pretty-printing), then every child one level deeper in insertion order, each followed by a line break only when pretty-printing, then its indentation, none when compact, and its end tag |
| LegacyTree.GroupsAreLines | Sources/XMLParsing/XMLStackParser.swift:223-228 | the groups' text is the children of all groups, in insertion order, each rendered one level deeper and followed by the separator |
| LegacyTree.SiblingsAreLines | Sources/XMLParsing/XMLStackParser.swift:224-227 | one group's text is its children, in order, each rendered one level deeper and followed by the separator |
| LegacyTree.RenderedAtIndex | Sources/XMLParsing/XMLStackParser.swift:225 | the i-th rendered child is the i-th child rendered at that level |
| LegacyTree.ToXMLString | Sources/XMLParsing/XMLStackParser.swift:194-200 | the document ends with the rendered root; without a header, or with an empty one, it is just the root; with a non-empty one it starts with `<?xml` |
| LegacyTree.RenderEmptyText | Sources/XMLParsing/XMLStackParser.swift:212-219 | an element whose text is empty renders as its start tag directly followed by its end tag, after the indentation |
| LegacyTree.RenderBare | Sources/XMLParsing/XMLStackParser.swift:230-232 | an element with no text and no children renders self-closed as `<key />` |
| LegacyTree.SiblingsOfOne | Sources/XMLParsing/XMLStackParser.swift:220-227 | a tag with a single child contributes that child rendered one level deeper, followed by a newline only when pretty-printing |
| LegacyParser.QualifiedName | Sources/XMLParsing/XMLStackParser.swift:300-303 | the qualified name is the namespace's prefix, a colon and the local name, each readable back from it |
| LegacyParser.QualifiedNamesDiffer | Sources/XMLParsing/XMLStackParser.swift:300-303 | distinct local names under one namespace, or distinct colon-free prefixes, give distinct qualified names |
| LegacyParser.NilMarked | Sources/XMLParsing/XMLStackParser.swift:328 | an element counts as nil exactly when popping the schema-instance `nil` attribute yields `"true"` |
| LegacyParser.PopValueOf | Sources/XMLParsing/XMLStackParser.swift:300-303 | the prefixed attribute is found through the namespace's live prefix and removed; nothing else changes |
| LegacyParser.Settle | Sources/XMLParsing/XMLStackParser.swift:330-335 | text is trimmed, and absent text becomes the empty string |
| LegacyParser.Finish | Sources/XMLParsing/XMLStackParser.swift:326-336 | the nil attribute is removed; text is absent exactly when it was `"true"`, otherwise settled |
| LegacyParser.AppendText | Sources/XMLParsing/XMLStackParser.swift:357-359 | character data is appended to the current text |
| LegacyParser.Deliver | Sources/XMLParsing/XMLStackParser.swift:337-342 | a finished element becomes the root when the stack is empty, else a child of the new top |
| LegacyParser.Step | Sources/XMLParsing/XMLStackParser.swift:305-365 | a start pushes, an end pops, prefix events touch only the namespace tables |
| LegacyParser.RunConcat | Sources/XMLParsing/XMLStackParser.swift:305-365 | processing two event runs one after the other is processing their concatenation |
| LegacyParser.Parse | Sources/XMLParsing/XMLStackParser.swift:271-298 | a tokenizer error is reported as such; success exactly when a root was built, and the result is its flattening; a stream that builds no root, or an abort without an error, is reported as corrupted data |
| LegacyParser.Normalized | Sources/XMLParsing/XMLStackParser.swift:326-336 | normalising keeps key, attributes and child order and settles the text |
| LegacyParser.PrefixScopeRestores | Sources/XMLParsing/XMLStackParser.swift:346-355 | starting and ending a fresh prefix mapping leaves the tables as they were |
| LegacyParser.InnerPrefixEndUnbindsNamespace | Sources/XMLParsing/XMLStackParser.swift:346-355 | ending an inner prefix for a shared URI unbinds the URI while the outer prefix stays mapped |
| LegacyParser.NilMarkedClosesEmpty | Sources/XMLParsing/XMLStackParser.swift:328-329 | an element marked nil closes with absent text and without the marker |
| LegacyParser.NoNamespaceClosesPlainly | Sources/XMLParsing/XMLStackParser.swift:326-336 | without the schema-instance namespace an element only has its text settled |
| LegacyParser.CharactersAccumulate | Sources/XMLParsing/XMLStackParser.swift:357-359 | two character events act as one with the concatenated text |
| LegacyParser.NoElementIsCorrupt | Sources/XMLParsing/XMLStackParser.swift:275-279 | a stream without a start-element is reported as corrupted |
| LegacyParser.ParseRoundTrip | Sources/XMLParsing/XMLStackParser.swift:305-365 | the events of a tree parse back to that tree, text settled, child order kept |
| LegacyParser.ParseFlattens | Sources/XMLParsing/XMLStackParser.swift:271-365 | parsing a tree's events returns the flattening of the settled tree |
| LegacyParser.NilDocumentTree | Tests/XMLParsingTests/XMLParsingTests.swift:151-156 | the test document parses to a root with an empty-text child and a nil child, in that order |
| LegacyParser.NilDocumentDecodes | Tests/XMLParsingTests/XMLParsingTests.swift:194-207 | the test document decodes to an empty string for the empty element and no entry for the nil one |

## Left out

- The XML tokenizer (Foundation's `XMLParser`) is not modelled. The parsers take its events
  as input, and a tokenizer failure is an outcome carrying an optional error.
- The `print` of a parse error is left out because it is output only.
- Date, data and non-conforming-float strategies, and the text of floating-point numbers,
  are left out. Floating point is not modelled: a double is an opaque value whose text is a
  parameter. The widening of a float to a double is taken as given.
- Unicode character classes are not modelled. Upper case, lower case and whitespace are
  their ASCII members.
- Codable reflection and the per-type `box` overloads are left out. A value is either one of
  the scalars `box_` recognises or a callback standing for its `encode(to:)`.
- `superEncoder` and `_XMLReferencingEncoder` are not part of this model.
- XMLEncoder.IndexKey: the `_XMLKey` text is not part of this model. Only the index it
  carries is stated.
- The `keysAtIndexes:`, `objectsForKeysAtIndexes:`, `orderedDictionaryWithKeysAtIndexes:`
  and `removeObjectsForKeysAtIndexes:` family is left out. The element tree never uses it.
- `Util.h`, `CHCircularBuffer.h` and `CHMutableDictionary.h` are not part of this model.
- Swift dictionary iteration order is not modelled. The model uses an arbitrary fixed order
  (`Primitives.KeyOrder`), and no stated property depends on it.
- Object identity and aliasing are modelled with handles that carry the container's
  identity. A write through a container that the stack no longer holds is a no-op, where
  the source writes into an object nothing reads. Reads through such a container see
  nothing either: its `count` is zero here, where the source keeps counting the items
  appended to the detached array, so the `Index n` keys on its coding path can differ.
  Neither difference reaches the output.
- The coding path's `append`/`removeLast` pairs are modelled as the path being restored
  after each write.
- These are left out:
  - `ignoreEscaping`;
  - `userInfo` and `outputFormatting` on the XMLCoding side;
  - the conversion of the rendered string to UTF-8 data.
- The legacy encoder is outside the modelled core. Only the legacy element tree, renderer,
  flatten and parser are modelled.
- Non-string keys of an `NSDictionary` are not modelled. The legacy projection takes string
  keys only.
- The text of the top-level encoding errors is not modelled, only their kind.
- OrderedDictionary.InsertObject: the header does not say what happens for a key already
  present. The model replaces its value and keeps its position. It checks the index before
  the nil arguments.
- CodingTree.RenderTagCount: the rendered text is described by its layout lemmas (text,
  self-closed and children forms) and its tag count, not by a parser of the output. The
  attribute order follows an arbitrary key order.
- LegacyParser.ParseRoundTrip is stated for trees whose ordered children are well formed
  and have no empty group, as every tree the legacy parser builds does. Its events declare
  no namespace, so the nil marker is covered by the concrete test document instead.

=== FILE: coding_parser.dfy ===
/** `_XMLStackParser` of the current variant (Sources/XMLCoding/XMLStackParser.swift): the
    `XMLParserDelegate` that rebuilds an element tree from the tokenizer's callbacks, and
    `XMLHeader.parse(with:)`, which flattens that tree for the decoder. The tokenizer
    itself (Foundation's `XMLParser`) is not modelled: its callbacks are the input. */
module CodingParser {
  import opened Wrappers
  import opened XMLText
  import opened Primitives
  import opened FlatValue
  import opened CodingTree

  /** The delegate callbacks the parser reacts to. */
  datatype Event =
    | StartElement(name: string, attributes: map<string, string>)
    | EndElement(name: string)
    | Characters(text: string)
    /** a CDATA block, `None` when its bytes are not valid UTF-8 */
    | CDATA(block: Option<string>)

  /** The finished root (if any) and the stack of open elements, innermost last. The
      source's `currentNode` is always the stack's last element (or nil when it is
      empty), so it is not kept separately. */
  datatype ParserState = ParserState(root: Option<Element>, stack: seq<Element>)

  /** `parserDidStartDocument`. */
  const StartDocument: ParserState := ParserState(None, [])

  /** Characters are appended to the open element's text. */
  function AppendText(e: Element, s: string): (r: Element)
    ensures r.value == Some(e.value.GetOr("") + s)
    ensures r.key == e.key && r.attributes == e.attributes && r.children == e.children
  {
    e.(value := Some(e.value.GetOr("") + s))
  }

  /** The children of `e` with tag `k` (none when the tag is absent). */
  function Group(e: Element, k: string): seq<Element> {
    if k in e.children then e.children[k].items else []
  }

  /** A finished child is appended to its parent's group for its tag. */
  function Attach(parent: Element, child: Element): (r: Element)
    ensures Group(r, child.key) == Group(parent, child.key) + [child]
    ensures forall k | k != child.key :: Group(r, k) == Group(parent, k)
    ensures r.key == parent.key && r.value == parent.value && r.attributes == parent.attributes
  {
    parent.(children := parent.children[child.key := Siblings(Group(parent, child.key) + [child])])
  }

  /** An element's text when it closes: trimmed of whitespace and newlines, and dropped
      when nothing is left. */
  function Settle(v: Option<string>): (r: Option<string>)
    ensures v.None? ==> r.None?
    ensures v.Some? ==> (r.None? <==> Trim(v.value, WhitespacesAndNewlines) == [])
    ensures r.Some? ==> r.value == Trim(v.value, WhitespacesAndNewlines)
  {
    match v
    case None => None
    case Some(s) =>
      var t := Trim(s, WhitespacesAndNewlines);
      if t == [] then None else Some(t)
  }

  /** `didEndElement`: the closing element keeps its tag, attributes and children; only
      its text is settled, and whitespace-only text is dropped. */
  function Finish(e: Element): (r: Element)
    ensures r.key == e.key && r.attributes == e.attributes && r.children == e.children
    ensures r.value == Settle(e.value)
    ensures r.value.Some? ==> e.value.Some? && |r.value.value| <= |e.value.value|
  {
    e.(value := Settle(e.value))
  }

  function ReplaceTop(stack: seq<Element>, top: Element): (r: seq<Element>)
    requires |stack| > 0
    ensures |r| == |stack| && r[..|r| - 1] == stack[..|stack| - 1] && r[|r| - 1] == top
  {
    stack[..|stack| - 1] + [top]
  }

  /** Where a finished element goes: it becomes the root when no element is open,
      otherwise a child of the innermost open one. */
  function Deliver(st: ParserState, x: Element): (r: ParserState)
    ensures |st.stack| == 0 ==> r == ParserState(Some(x), [])
    ensures |st.stack| > 0 ==> r.root == st.root && r.stack == ReplaceTop(st.stack, Attach(st.stack[|st.stack| - 1], x))
  {
    if |st.stack| == 0 then ParserState(Some(x), [])
    else ParserState(st.root, ReplaceTop(st.stack, Attach(st.stack[|st.stack| - 1], x)))
  }

  /** One callback. An end tag closes the innermost open element whatever its name;
      text outside any element is dropped. */
  function Step(st: ParserState, ev: Event): (r: ParserState)
    ensures ev.StartElement? ==> r.root == st.root && |r.stack| == |st.stack| + 1
    ensures ev.EndElement? && |st.stack| > 0 ==> |r.stack| == |st.stack| - 1
    ensures !ev.StartElement? && !ev.EndElement? ==> r.root == st.root && |r.stack| == |st.stack|
  {
    match ev
    case StartElement(name, attributes) =>
      ParserState(st.root, st.stack + [Element(name, None, attributes, map[])])
    case EndElement(_) =>
      if |st.stack| == 0 then st
      else Deliver(ParserState(st.root, st.stack[..|st.stack| - 1]), Finish(st.stack[|st.stack| - 1]))
    case Characters(text) =>
      if |st.stack| == 0 then st
      else ParserState(st.root, ReplaceTop(st.stack, AppendText(st.stack[|st.stack| - 1], text)))
    case CDATA(block) =>
      if |st.stack| == 0 || block.None? then st
      else ParserState(st.root, ReplaceTop(st.stack, AppendText(st.stack[|st.stack| - 1], block.value)))
  }

  function Run(st: ParserState, evs: seq<Event>): ParserState
    decreases |evs|
  {
    if |evs| == 0 then st else Run(Step(st, evs[0]), evs[1..])
  }

  lemma {:induction false} RunConcat(st: ParserState, a: seq<Event>, b: seq<Event>)
    ensures Run(st, a + b) == Run(Run(st, a), b)
    decreases |a|
  {
    if |a| > 0 {
      assert (a + b)[0] == a[0];
      assert (a + b)[1..] == a[1..] + b;
      RunConcat(Step(st, a[0]), a[1..], b);
    } else {
      assert a + b == b;
    }
  }

  /** The root the callbacks leave behind, when the tokenizer finished. */
  function ParseEvents(evs: seq<Event>): Option<Element> {
    Run(StartDocument, evs).root
  }

  /** How the tokenizer ended: it finished the document, or it stopped with or without
      an error of its own. */
  datatype TokenizerOutcome =
    | Finished(events: seq<Event>)
    | Aborted(error: Option<nat>)

  datatype DecodingError =
    | DataCorrupted(debugDescription: string)
    /** the tokenizer's own error, rethrown */
    | ParserError(code: nat)

  /** `XMLHeader.parse(with:)`: the flattened root, the tokenizer's error, or a
      data-corrupted error when no root element came out. */
  function Parse(outcome: TokenizerOutcome): (r: Result<map<string, AnyValue>, DecodingError>)
    ensures outcome.Aborted? && outcome.error.Some? ==> r == Failure(ParserError(outcome.error.value))
    ensures r.Success? <==> outcome.Finished? && ParseEvents(outcome.events).Some?
    ensures r.Success? ==> r.value == Flatten(ParseEvents(outcome.events).value)
    ensures outcome.Finished? && ParseEvents(outcome.events).None? ==> r.Failure? && r.error.DataCorrupted?
    ensures outcome.Aborted? && outcome.error.None? ==> r.Failure? && r.error.DataCorrupted?
  {
    match outcome
    case Finished(evs) =>
      (match ParseEvents(evs)
       case Some(root) => Success(Flatten(root))
       case None => Failure(DataCorrupted("The given data could not be parsed into XML.")))
    case Aborted(Some(code)) => Failure(ParserError(code))
    case Aborted(None) => Failure(DataCorrupted("The given data could not be parsed into XML."))
  }

  // ---------------------------------------------------------------------------
  // Partner: the callbacks of a tree, and the tree they rebuild

  /** The children of each group carry the group's tag, at every depth, as every tree
      the library builds does. */
  ghost predicate Grouped(e: Element)
    decreases e
  {
    forall k, i | k in e.children && 0 <= i < |e.children[k].items| ::
      (assert e.children[k] in e.children.Values;
       e.children[k].items[i].key == k && Grouped(e.children[k].items[i]))
  }

  /** The callbacks a tokenizer reports for the document of `e`: start tag, text, each
      child group in the dictionary's iteration order, end tag. */
  ghost function Events(e: Element): seq<Event>
    decreases e, 2
  {
    [StartElement(e.key, e.attributes)]
    + (if e.value.Some? then [Characters(e.value.value)] else [])
    + GroupEvents(e, KeyOrder(e.children.Keys))
    + [EndElement(e.key)]
  }

  ghost function GroupEvents(e: Element, keys: seq<string>): seq<Event>
    requires forall i | 0 <= i < |keys| :: keys[i] in e.children
    decreases e, 1, |keys|
  {
    if |keys| == 0 then [] else SiblingEvents(e, keys[0], 0) + GroupEvents(e, keys[1..])
  }

  ghost function SiblingEvents(e: Element, k: string, from: nat): seq<Event>
    requires k in e.children && from <= |e.children[k].items|
    decreases e, 0, |e.children[k].items| - from
  {
    assert e.children[k] in e.children.Values;
    if from == |e.children[k].items| then []
    else Events(e.children[k].items[from]) + SiblingEvents(e, k, from + 1)
  }

  /** The tree the parser gives back: every text settled, empty groups gone. */
  function Normalized(e: Element): (r: Element)
    ensures r.key == e.key && r.value == Settle(e.value) && r.attributes == e.attributes
    decreases e, 2
  {
    Element(e.key, Settle(e.value), e.attributes, NormalChildren(e))
  }

  function NormalChildren(e: Element): map<string, Siblings>
    decreases e, 1
  {
    map k | k in e.children && |e.children[k].items| > 0 :: Siblings(NormalItems(e, k, 0))
  }

  function NormalItems(e: Element, k: string, from: nat): (r: seq<Element>)
    requires k in e.children && from <= |e.children[k].items|
    ensures |r| == |e.children[k].items| - from
    ensures forall i | 0 <= i < |r| :: r[i] == Normalized(e.children[k].items[from + i])
    decreases e, 0, |e.children[k].items| - from
  {
    assert e.children[k] in e.children.Values;
    if from == |e.children[k].items| then []
    else [Normalized(e.children[k].items[from])] + NormalItems(e, k, from + 1)
  }

  function AttachAll(t: Element, xs: seq<Element>): Element
    decreases |xs|
  {
    if |xs| == 0 then t else AttachAll(Attach(t, xs[0]), xs[1..])
  }

  lemma {:induction false} AttachAllSameKey(t: Element, k: string, xs: seq<Element>)
    requires forall i | 0 <= i < |xs| :: xs[i].key == k
    ensures |xs| > 0 ==> AttachAll(t, xs) == t.(children := t.children[k := Siblings(Group(t, k) + xs)])
    ensures |xs| == 0 ==> AttachAll(t, xs) == t
    decreases |xs|
  {
    if |xs| > 0 {
      var t' := Attach(t, xs[0]);
      assert t' == t.(children := t.children[k := Siblings(Group(t, k) + [xs[0]])]);
      AttachAllSameKey(t', k, xs[1..]);
      if |xs| > 1 {
        assert Group(t', k) == Group(t, k) + [xs[0]];
        assert Group(t', k) + xs[1..] == Group(t, k) + xs;
        assert t'.children[k := Siblings(Group(t', k) + xs[1..])] == t.children[k := Siblings(Group(t, k) + xs)];
      } else {
        assert xs == [xs[0]];
      }
    }
  }

  lemma {:induction false} RunSiblings(r: Option<Element>, s: seq<Element>, t: Element, e: Element, k: string, from: nat)
    requires Grouped(e)
    requires k in e.children && from <= |e.children[k].items|
    ensures Run(ParserState(r, s + [t]), SiblingEvents(e, k, from))
      == ParserState(r, s + [AttachAll(t, NormalItems(e, k, from))])
    decreases e, 0, |e.children[k].items| - from
  {
    assert e.children[k] in e.children.Values;
    if from < |e.children[k].items| {
      var child := e.children[k].items[from];
      var st := ParserState(r, s + [t]);
      RunConcat(st, Events(child), SiblingEvents(e, k, from + 1));
      RunElement(st, child);
      assert (s + [t])[..|s|] == s;
      var t' := Attach(t, Normalized(child));
      assert Run(st, Events(child)) == ParserState(r, s + [t']);
      RunSiblings(r, s, t', e, k, from + 1);
      assert NormalItems(e, k, from) == [Normalized(child)] + NormalItems(e, k, from + 1);
    }
  }

  /** The groups for `keys`, added to an element that has none of them yet. */
  function GroupMap(e: Element, keys: seq<string>): (m: map<string, Siblings>)
    requires forall i | 0 <= i < |keys| :: keys[i] in e.children
    ensures forall k :: k in m <==> k in keys && |e.children[k].items| > 0
    ensures forall k | k in m :: m[k] == Siblings(NormalItems(e, k, 0))
    decreases |keys|
  {
    if |keys| == 0 then map[]
    else
      var rest := GroupMap(e, keys[1..]);
      assert forall k :: k in keys <==> k == keys[0] || k in keys[1..];
      if |e.children[keys[0]].items| > 0 then rest[keys[0] := Siblings(NormalItems(e, keys[0], 0))]
      else rest
  }

  lemma {:induction false} RunGroups(r: Option<Element>, s: seq<Element>, t: Element, e: Element, keys: seq<string>)
    requires Grouped(e)
    requires forall i | 0 <= i < |keys| :: keys[i] in e.children && keys[i] !in t.children
    requires forall i, j | 0 <= i < j < |keys| :: keys[i] != keys[j]
    ensures Run(ParserState(r, s + [t]), GroupEvents(e, keys))
      == ParserState(r, s + [t.(children := t.children + GroupMap(e, keys))])
    decreases e, 1, |keys|
  {
    if |keys| == 0 {
      assert GroupMap(e, keys) == map[];
      assert t.children + map[] == t.children;
    } else {
      var k0 := keys[0];
      var st := ParserState(r, s + [t]);
      RunConcat(st, SiblingEvents(e, k0, 0), GroupEvents(e, keys[1..]));
      RunSiblings(r, s, t, e, k0, 0);
      var xs := NormalItems(e, k0, 0);
      assert forall i | 0 <= i < |xs| :: xs[i].key == k0 by {
        assert e.children[k0] in e.children.Values;
      }
      AttachAllSameKey(t, k0, xs);
      var t' := AttachAll(t, xs);
      assert Group(t, k0) == [];
      assert forall i | 0 <= i < |keys[1..]| :: keys[1..][i] !in t'.children by {
        forall i | 0 <= i < |keys[1..]| ensures keys[1..][i] !in t'.children {
          assert keys[1..][i] == keys[i + 1];
        }
      }
      DistinctTail(keys);
      RunGroups(r, s, t', e, keys[1..]);
      GroupMapStep(t, e, keys, xs);
    }
  }

  /** The keys after the first are still distinct, and the first is not among them. */
  lemma DistinctTail(keys: seq<string>)
    requires |keys| > 0
    requires forall i, j | 0 <= i < j < |keys| :: keys[i] != keys[j]
    ensures forall i, j | 0 <= i < j < |keys[1..]| :: keys[1..][i] != keys[1..][j]
    ensures keys[0] !in keys[1..]
  {
    forall i, j | 0 <= i < j < |keys[1..]| ensures keys[1..][i] != keys[1..][j] {
      assert keys[1..][i] == keys[i + 1] && keys[1..][j] == keys[j + 1];
    }
    forall i | 0 <= i < |keys[1..]| ensures keys[1..][i] != keys[0] {
      assert keys[1..][i] == keys[i + 1];
    }
  }

  lemma GroupMapStep(t: Element, e: Element, keys: seq<string>, xs: seq<Element>)
    requires |keys| > 0
    requires forall i | 0 <= i < |keys| :: keys[i] in e.children
    requires keys[0] !in keys[1..]
    requires xs == NormalItems(e, keys[0], 0)
    ensures var c' := if |xs| > 0 then t.children[keys[0] := Siblings([] + xs)] else t.children;
      c' + GroupMap(e, keys[1..]) == t.children + GroupMap(e, keys)
  {
    assert [] + xs == xs;
    var g := GroupMap(e, keys[1..]);
    if |xs| > 0 {
      UpdateThenUnion(t.children, g, keys[0], Siblings(xs));
    }
  }

  lemma UpdateThenUnion(c: map<string, Siblings>, g: map<string, Siblings>, k: string, x: Siblings)
    requires k !in g
    ensures c[k := x] + g == c + g[k := x]
  {
  }

  /** The callbacks of one element, fed to a parser in any state, deliver the element,
      normalized, where `Deliver` puts it. */
  lemma {:induction false} RunElement(st: ParserState, e: Element)
    requires Grouped(e)
    ensures Run(st, Events(e)) == Deliver(st, Normalized(e))
    decreases e, 2
  {
    var head := [StartElement(e.key, e.attributes)] + (if e.value.Some? then [Characters(e.value.value)] else []);
    var keys := KeyOrder(e.children.Keys);
    var groups := GroupEvents(e, keys);
    var close := [EndElement(e.key)];
    assert Events(e) == head + groups + close;
    RunConcat(st, head + groups, close);
    RunConcat(st, head, groups);
    var e1 := Element(e.key, e.value, e.attributes, map[]);
    RunHead(st, e);
    RunGroups(st.root, st.stack, e1, e, keys);
    NormalChildrenAreGroups(e);
    var g := NormalChildren(e);
    var e2 := Element(e.key, e.value, e.attributes, map[] + g);
    FinishGroups(e, g, e2);
    RunClose(st, e2);
  }

  lemma FinishGroups(e: Element, g: map<string, Siblings>, e2: Element)
    requires g == NormalChildren(e)
    requires e2 == Element(e.key, e.value, e.attributes, map[] + g)
    ensures Finish(e2) == Normalized(e) && e2.key == e.key
  {
    assert map[] + g == g;
  }

  /** The start tag and the text open the element with its attributes and raw text. */
  lemma RunHead(st: ParserState, e: Element)
    ensures Run(st, [StartElement(e.key, e.attributes)] + (if e.value.Some? then [Characters(e.value.value)] else []))
      == ParserState(st.root, st.stack + [Element(e.key, e.value, e.attributes, map[])])
  {
    var open := [StartElement(e.key, e.attributes)];
    var text := if e.value.Some? then [Characters(e.value.value)] else [];
    RunConcat(st, open, text);
    var e0 := Element(e.key, None, e.attributes, map[]);
    var st1 := ParserState(st.root, st.stack + [e0]);
    assert Run(st, open) == Run(st1, []);
    if e.value.Some? {
      assert (st.stack + [e0])[..|st.stack|] == st.stack;
      assert "" + e.value.value == e.value.value;
      assert Run(st1, text) == Run(Step(st1, text[0]), []);
    }
  }

  /** The end tag closes the open element and delivers it. */
  lemma RunClose(st: ParserState, top: Element)
    ensures Run(ParserState(st.root, st.stack + [top]), [EndElement(top.key)]) == Deliver(st, Finish(top))
  {
    var st1 := ParserState(st.root, st.stack + [top]);
    assert (st.stack + [top])[..|st.stack|] == st.stack;
    assert Run(st1, [EndElement(top.key)]) == Run(Step(st1, EndElement(top.key)), []);
  }

  lemma NormalChildrenAreGroups(e: Element)
    ensures GroupMap(e, KeyOrder(e.children.Keys)) == NormalChildren(e)
  {
    AllGroups(e, KeyOrder(e.children.Keys));
  }

  lemma AllGroups(e: Element, keys: seq<string>)
    requires forall i | 0 <= i < |keys| :: keys[i] in e.children
    requires forall k | k in e.children :: k in keys
    ensures GroupMap(e, keys) == NormalChildren(e)
  {
    var g := GroupMap(e, keys);
    var n := NormalChildren(e);
    forall k | k in g ensures k in n && g[k] == n[k] {
    }
    forall k | k in n ensures k in g {
      assert k in keys;
    }
  }

  /** The parser rebuilds any tree from its callbacks, up to settled text and empty
      groups. */
  lemma ParseRoundTrip(e: Element)
    requires Grouped(e)
    ensures ParseEvents(Events(e)) == Some(Normalized(e))
  {
    RunElement(StartDocument, e);
  }

  /** Decoding the callbacks of a tree gives the flattening of its normalized form. */
  lemma ParseFlattens(e: Element)
    requires Grouped(e)
    ensures Parse(Finished(Events(e))) == Success(Flatten(Normalized(e)))
  {
    ParseRoundTrip(e);
  }

  /** Text split across several callbacks is the same as text in one. */
  lemma CharactersAccumulate(st: ParserState, a: string, b: string)
    ensures Run(st, [Characters(a), Characters(b)]) == Run(st, [Characters(a + b)])
  {
    var one := [Characters(a + b)];
    var two := [Characters(a), Characters(b)];
    assert Run(st, one) == Run(Step(st, one[0]), []);
    var st1 := Step(st, two[0]);
    assert two[1..] == [Characters(b)];
    assert Run(st, two) == Run(st1, [Characters(b)]);
    assert Run(st1, [Characters(b)]) == Run(Step(st1, Characters(b)), []);
    if |st.stack| > 0 {
      var top := st.stack[|st.stack| - 1];
      var s1 := ReplaceTop(st.stack, AppendText(top, a));
      assert s1[|s1| - 1] == AppendText(top, a);
      assert s1[..|s1| - 1] == st.stack[..|st.stack| - 1];
      assert top.value.GetOr("") + a + b == top.value.GetOr("") + (a + b);
    }
  }

  /** Without any element there is nothing to decode. */
  lemma NoElementIsCorrupt(evs: seq<Event>)
    requires forall i | 0 <= i < |evs| :: !evs[i].StartElement?
    ensures Parse(Finished(evs)).Failure?
  {
    NoStartKeepsEmpty(StartDocument, evs);
  }

  lemma {:induction false} NoStartKeepsEmpty(st: ParserState, evs: seq<Event>)
    requires st.stack == [] && st.root.None?
    requires forall i | 0 <= i < |evs| :: !evs[i].StartElement?
    ensures Run(st, evs) == st
    decreases |evs|
  {
    if |evs| > 0 {
      NoStartKeepsEmpty(Step(st, evs[0]), evs[1..]);
    }
  }

  /** Text of only whitespace and newlines is dropped when its element closes. */
  lemma BlankTextDropped(s: string)
    requires forall i | 0 <= i < |s| :: IsWhitespaceOrNewline(s[i])
    ensures Settle(Some(s)) == None
  {
    TrimEmptyIffAllTrimmed(s, WhitespacesAndNewlines);
  }
}

=== FILE: coding_tree.dfy ===
/** `_XMLElement` of the current variant (Sources/XMLCoding/XMLStackParser.swift): the
    element tree built from the encoder's `Container`, its `flatten()` into untyped values
    for the decoder, and its rendering to text. */
module CodingTree {
  import opened Wrappers
  import opened Primitives
  import opened XMLText
  import opened EncodingStorage
  import opened FlatValue

  /** The reserved dictionary key whose entries become the element's attributes. */
  const AttributesKey: string := "___ATTRIBUTES"

  /** An element: its tag, optional text, attributes, and its children grouped by tag. */
  datatype Element = Element(
    key: string,
    value: Option<string>,
    attributes: map<string, string>,
    children: map<string, Siblings>)

  /** The children that share one tag, in insertion order. */
  datatype Siblings = Siblings(items: seq<Element>)

  datatype EncodingError =
    | InvalidValue(debugDescription: string)
    /** an error thrown by a value's own `encode(to:)` */
    | Thrown(code: nat)

  /** Text forms the tree needs but the model does not define: `Double.description`,
      and `String(describing:)` of a `Container` used as an attribute value. */
  datatype Describers = Describers(double: DescribeDouble, container: Container -> string)

  /** `description` of a scalar leaf. */
  function ScalarDescription(s: Scalar, ds: Describers): string {
    match s
    case Boolean(b) => BoolDescription(b)
    case Str(t) => t
    case Int64Value(i) => IntDescription(i)
    case UInt64Value(u) => IntDescription(u)
    case Double(d) => ds.double(d)
  }

  function TextElement(key: string, text: string): Element {
    Element(key, Some(text), map[], map[])
  }

  function EmptyElement(key: string): Element {
    Element(key, None, map[], map[])
  }

  // ---------------------------------------------------------------------------
  // From `Container` to elements (`modifyContainerElement` and friends)

  /** The elements a value contributes under `key` to its parent: one element for a
      dictionary, a scalar or null; for an array, the elements of its items spliced into
      the parent one after the other (nested arrays flatten into the same parent). */
  function Project(c: Container, key: string, ds: Describers): (r: seq<Element>)
    ensures forall i | 0 <= i < |r| :: r[i].key == key
    ensures !c.Array? ==> |r| == 1
    ensures c.Leaf? ==> r == [TextElement(key, ScalarDescription(c.scalar, ds))]
    ensures c.Null? ==> r == [EmptyElement(key)]
    ensures c.Dictionary? ==> r == [ElementOf(key, c, ds)]
    decreases c, 3
  {
    match c
    case Dictionary(_) => [ElementOf(key, c, ds)]
    case Array(_) => ProjectItems(c, key, ds, 0)
    case Leaf(s) => [TextElement(key, ScalarDescription(s, ds))]
    case Null => [EmptyElement(key)]
  }

  function ProjectItems(c: Container, key: string, ds: Describers, from: nat): (r: seq<Element>)
    requires c.Array? && from <= |c.items|
    ensures forall i | 0 <= i < |r| :: r[i].key == key
    decreases c, 2, |c.items| - from
  {
    if from == |c.items| then []
    else Project(c.items[from], key, ds) + ProjectItems(c, key, ds, from + 1)
  }

  /** `modifyElement`: attributes from the reserved entry when it holds a dictionary,
      and one group of children per other entry that produced any element. */
  function ElementOf(key: string, c: Container, ds: Describers): (r: Element)
    requires c.Dictionary?
    ensures r.key == key && r.value.None?
    ensures r.attributes == AttributesOf(c.entries, ds)
    ensures forall k :: k in r.children <==>
      k in c.entries && k != AttributesKey && ProjectEntry(c, k, ds) != []
    ensures forall k | k in r.children :: r.children[k].items == ProjectEntry(c, k, ds)
    decreases c, 2
  {
    Element(key, None, AttributesOf(c.entries, ds), ChildrenOf(c, ds))
  }

  function AttributesOf(entries: map<string, Container>, ds: Describers): map<string, string> {
    if AttributesKey in entries && entries[AttributesKey].Dictionary? then
      var a := entries[AttributesKey].entries;
      map k | k in a :: ds.container(a[k])
    else map[]
  }

  function ChildrenOf(c: Container, ds: Describers): map<string, Siblings>
    requires c.Dictionary?
    decreases c, 1
  {
    map k | k in c.entries && k != AttributesKey && ProjectEntry(c, k, ds) != [] ::
      Siblings(ProjectEntry(c, k, ds))
  }

  function ProjectEntry(c: Container, k: string, ds: Describers): seq<Element>
    requires c.Dictionary? && k in c.entries
    decreases c, 0
  {
    assert c.entries[k] in c.entries.Values;
    Project(c.entries[k], k, ds)
  }

  /** `createRootElement`: a dictionary fills the root element itself; an array puts its
      items' elements under the root, each with the root's own tag; anything else is
      rejected as a non-root fragment. */
  function CreateRootElement(rootKey: string, c: Container, ds: Describers): (r: Result<Element, EncodingError>)
    ensures r.Success? <==> c.Dictionary? || c.Array?
    ensures r.Success? ==> r.value.key == rootKey && r.value.value.None?
    ensures c.Dictionary? ==> r == Success(ElementOf(rootKey, c, ds))
    ensures c.Array? ==>
      && r.Success? && r.value.attributes == map[]
      && (forall k :: k in r.value.children <==> k == rootKey && ProjectItems(c, rootKey, ds, 0) != [])
      && (rootKey in r.value.children ==> r.value.children[rootKey].items == ProjectItems(c, rootKey, ds, 0))
  {
    match c
    case Dictionary(_) => Success(ElementOf(rootKey, c, ds))
    case Array(_) =>
      var items := ProjectItems(c, rootKey, ds, 0);
      Success(Element(rootKey, None, map[], if items == [] then map[] else map[rootKey := Siblings(items)]))
    case _ => Failure(InvalidValue("Top-level encoded as non-root XML fragment."))
  }

  // ---------------------------------------------------------------------------
  // `flatten()`

  /** What one child contributes to its parent's entry: its text if it has any, else its
      own flattening if it has children or attributes, else an empty dictionary that is
      only stored when the entry is still absent. */
  function Contribute(child: Element): (r: Contribution)
    ensures child.value.Some? ==> r == Merge(Text(child.value.value))
    ensures child.value.None? && child.children == map[] && child.attributes == map[] ==>
      r == IfAbsent(Dict(map[]))
    ensures r.Merge? || r.IfAbsent?
    decreases child, 4
  {
    if child.value.Some? then Merge(Text(child.value.value))
    else if |child.children| > 0 || |child.attributes| > 0 then Merge(Dict(Flatten(child)))
    else IfAbsent(Dict(map[]))
  }

  function Contributions(e: Element, k: string, from: nat): (r: seq<Contribution>)
    requires k in e.children && from <= |e.children[k].items|
    ensures |r| == |e.children[k].items| - from
    ensures forall i | 0 <= i < |r| :: r[i] == Contribute(e.children[k].items[from + i])
    decreases e, 1, |e.children[k].items| - from
  {
    var items := e.children[k].items;
    assert e.children[k] in e.children.Values;
    if from == |items| then []
    else
      var rest := Contributions(e, k, from + 1);
      var r := [Contribute(items[from])] + rest;
      assert forall i | 0 < i < |r| :: r[i] == rest[i - 1];
      r
  }

  /** The entry under `k`: the attribute of that name if any, merged with the children
      of that tag in order. */
  function FlattenEntry(e: Element, k: string): (r: Option<AnyValue>)
    ensures k in e.attributes ==> r.Some?
    decreases e, 2
  {
    var init := if k in e.attributes then Some(Text(e.attributes[k])) else None;
    if k in e.children then Fold(init, Contributions(e, k, 0)) else init
  }

  /** `flatten()`, entry by entry. */
  function Flatten(e: Element): (r: map<string, AnyValue>)
    ensures forall k :: k in r <==> FlattenEntry(e, k).Some?
    ensures forall k | k in r :: Some(r[k]) == FlattenEntry(e, k)
    decreases e, 3
  {
    map k | k in e.attributes.Keys + e.children.Keys && FlattenEntry(e, k).Some? :: FlattenEntry(e, k).value
  }

  function AttributeValues(e: Element): map<string, AnyValue> {
    map k | k in e.attributes :: Text(e.attributes[k])
  }

  /** Each tag's contributions, in child order. */
  function Groups(e: Element): (g: map<string, seq<Contribution>>)
    ensures forall k :: k in g <==> k in e.children
  {
    map k | k in e.children :: Contributions(e, k, 0)
  }

  /** The source's loop: start from the attributes and fold the child groups in, one tag
      after the other in the given order. */
  function FlattenLoop(e: Element, keys: seq<string>): map<string, AnyValue>
    requires forall i | 0 <= i < |keys| :: keys[i] in e.children
  {
    FoldGroups(AttributeValues(e), Groups(e), keys)
  }

  /** Swift's dictionaries have no fixed order; the flattening does not depend on it:
      running the source's loop over the child tags in ANY order gives `Flatten`. */
  lemma FlattenInAnyOrder(e: Element, keys: seq<string>)
    requires forall i, j | 0 <= i < j < |keys| :: keys[i] != keys[j]
    requires forall k :: k in keys <==> k in e.children
    ensures FlattenLoop(e, keys) == Flatten(e)
  {
    FoldAllGroups(AttributeValues(e), Groups(e), keys);
    forall k ensures Lookup(FlattenLoop(e, keys), k) == Lookup(Flatten(e), k) {
      assert Lookup(AttributeValues(e), k) == (if k in e.attributes then Some(Text(e.attributes[k])) else None);
    }
    MapsAgree(FlattenLoop(e, keys), Flatten(e));
  }

  // ---------------------------------------------------------------------------
  // From containers to flattened values: what the encoder's output reads back as

  /** A record of scalars projects to an element whose flattening holds every field's
      text under the field's name. */
  lemma FlattenRecordOfScalars(rootKey: string, c: Container, ds: Describers)
    requires c.Dictionary? && AttributesKey !in c.entries
    requires forall k | k in c.entries :: c.entries[k].Leaf?
    ensures Flatten(ElementOf(rootKey, c, ds)) ==
      map k | k in c.entries :: Text(ScalarDescription(c.entries[k].scalar, ds))
  {
    var e := ElementOf(rootKey, c, ds);
    var want := map k | k in c.entries :: Text(ScalarDescription(c.entries[k].scalar, ds));
    assert e.attributes == map[];
    forall k ensures Lookup(Flatten(e), k) == Lookup(want, k) {
      if k in c.entries {
        assert ProjectEntry(c, k, ds) == [TextElement(k, ScalarDescription(c.entries[k].scalar, ds))];
        assert k in e.children;
        var cs := Contributions(e, k, 0);
        assert cs == [Merge(Text(ScalarDescription(c.entries[k].scalar, ds)))];
        assert Fold(None, cs) == Fold(Some(Text(ScalarDescription(c.entries[k].scalar, ds))), cs[1..]);
      } else {
        assert k !in e.children;
      }
    }
    MapsAgree(Flatten(e), want);
  }

  /** Null fields become empty elements, which read back as empty dictionaries. */
  lemma FlattenNullField(rootKey: string, c: Container, k: string, ds: Describers)
    requires c.Dictionary? && AttributesKey !in c.entries
    requires k in c.entries && c.entries[k].Null?
    ensures FlattenEntry(ElementOf(rootKey, c, ds), k) == Some(Dict(map[]))
  {
    var e := ElementOf(rootKey, c, ds);
    assert ProjectEntry(c, k, ds) == [EmptyElement(k)];
    assert k in e.children && k !in e.attributes;
    var cs := Contributions(e, k, 0);
    assert cs == [IfAbsent(Dict(map[]))];
    assert Fold(None, cs) == Fold(Some(Dict(map[])), cs[1..]);
  }

  /** Scalar items of an array field each become an element with the field's tag. */
  lemma ProjectScalarItems(c: Container, key: string, ds: Describers, from: nat)
    requires c.Array? && from <= |c.items|
    requires forall i | 0 <= i < |c.items| :: c.items[i].Leaf?
    ensures |ProjectItems(c, key, ds, from)| == |c.items| - from
    ensures forall i | 0 <= i < |c.items| - from ::
      ProjectItems(c, key, ds, from)[i] == TextElement(key, ScalarDescription(c.items[from + i].scalar, ds))
    decreases |c.items| - from
  {
    if from < |c.items| {
      ProjectScalarItems(c, key, ds, from + 1);
    }
  }

  /** The texts of scalar items. */
  function Texts(a: seq<Container>, ds: Describers): (r: seq<AnyValue>)
    requires forall i | 0 <= i < |a| :: a[i].Leaf?
    ensures |r| == |a|
    ensures forall i | 0 <= i < |a| :: r[i] == Text(ScalarDescription(a[i].scalar, ds))
  {
    if |a| == 0 then [] else [Text(ScalarDescription(a[0].scalar, ds))] + Texts(a[1..], ds)
  }

  /** An array field of two or more scalars reads back as a list of their texts, in
      order; an array of exactly one reads back as that one text, not as a list. */
  lemma FlattenScalarArrayField(rootKey: string, c: Container, k: string, ds: Describers)
    requires c.Dictionary? && AttributesKey !in c.entries
    requires k in c.entries && c.entries[k].Array? && |c.entries[k].items| >= 1
    requires forall i | 0 <= i < |c.entries[k].items| :: c.entries[k].items[i].Leaf?
    ensures var t := Texts(c.entries[k].items, ds);
      FlattenEntry(ElementOf(rootKey, c, ds), k) == Some(if |t| == 1 then t[0] else List(t))
  {
    var e := ElementOf(rootKey, c, ds);
    var t := Texts(c.entries[k].items, ds);
    ScalarArrayContributions(rootKey, c, k, ds);
    var cs := Contributions(e, k, 0);
    FoldFresh(cs);
    assert Values(cs) == t;
  }

  lemma ScalarArrayContributions(rootKey: string, c: Container, k: string, ds: Describers)
    requires c.Dictionary? && AttributesKey !in c.entries
    requires k in c.entries && c.entries[k].Array?
    requires forall i | 0 <= i < |c.entries[k].items| :: c.entries[k].items[i].Leaf?
    ensures var e := ElementOf(rootKey, c, ds);
      && k !in e.attributes
      && (|c.entries[k].items| > 0 ==> k in e.children)
      && (k in e.children ==>
        var cs := Contributions(e, k, 0);
        var t := Texts(c.entries[k].items, ds);
        |cs| == |t| && forall i | 0 <= i < |cs| :: cs[i] == Merge(t[i]) && !t[i].List?)
  {
    var e := ElementOf(rootKey, c, ds);
    var items := c.entries[k].items;
    var ps := ProjectItems(c.entries[k], k, ds, 0);
    ProjectScalarItems(c.entries[k], k, ds, 0);
    assert ProjectEntry(c, k, ds) == ps;
    if |items| > 0 {
      assert ps[0] == TextElement(k, ScalarDescription(items[0].scalar, ds));
    }
    if k in e.children {
      var cs := Contributions(e, k, 0);
      var t := Texts(items, ds);
      assert e.children[k].items == ps;
      forall i | 0 <= i < |cs| ensures cs[i] == Merge(t[i]) && !t[i].List? {
        assert cs[i] == Contribute(ps[i]);
        assert ps[i] == TextElement(k, ScalarDescription(items[i].scalar, ds));
      }
    }
  }

  /** A null between two scalars of an array field is lost on the way back: the
      placeholder of the empty element is dropped once the entry exists. */
  lemma FlattenDropsNullInArray(rootKey: string, k: string, x: Scalar, y: Scalar, ds: Describers)
    requires k != AttributesKey
    ensures var c := Dictionary(map[k := Array([Leaf(x), Null, Leaf(y)])]);
      FlattenEntry(ElementOf(rootKey, c, ds), k) ==
        Some(List([Text(ScalarDescription(x, ds)), Text(ScalarDescription(y, ds))]))
  {
    var c := Dictionary(map[k := Array([Leaf(x), Null, Leaf(y)])]);
    var e := ElementOf(rootKey, c, ds);
    var arr := c.entries[k];
    var tx := TextElement(k, ScalarDescription(x, ds));
    var ty := TextElement(k, ScalarDescription(y, ds));
    assert ProjectItems(arr, k, ds, 2) == [ty];
    assert ProjectItems(arr, k, ds, 1) == [EmptyElement(k), ty];
    assert ProjectItems(arr, k, ds, 0) == [tx, EmptyElement(k), ty];
    assert ProjectEntry(c, k, ds) == [tx, EmptyElement(k), ty];
    var cs := Contributions(e, k, 0);
    var vx := Text(ScalarDescription(x, ds));
    var vy := Text(ScalarDescription(y, ds));
    assert cs == [Merge(vx), IfAbsent(Dict(map[])), Merge(vy)];
    assert Fold(None, cs) == Fold(Some(vx), cs[1..]);
    assert Fold(Some(vx), cs[1..]) == Fold(Some(vx), cs[2..]);
    assert Fold(Some(vx), cs[2..]) == Fold(Some(List([vx, vy])), cs[3..]);
  }

  // ---------------------------------------------------------------------------
  // Rendering (`toXMLString` / `_toXMLString`)

  function Indent(level: nat): (r: string)
    ensures |r| == 4 * level
    ensures forall i | 0 <= i < |r| :: r[i] == ' '
  {
    seq(4 * level, _ => ' ')
  }

  /** Element text: wrapped in a CDATA section when the string strategy asks for it,
      escaped otherwise. */
  function Body(text: string, cdata: bool): string {
    if cdata then CData(text) else Escape(text)
  }

  /** ` name="value"` for each attribute, values escaped, in the given order. */
  function RenderAttributes(attrs: map<string, string>, names: seq<string>): string
    requires forall i | 0 <= i < |names| :: names[i] in attrs
  {
    if |names| == 0 then []
    else " " + names[0] + "=\"" + Escape(attrs[names[0]]) + "\"" + RenderAttributes(attrs, names[1..])
  }

  /** One element, indented by four spaces per level: text elements on one line,
      elements with children over several lines with each child on its own line, and
      empty elements self-closed. Attributes and child groups come in the dictionaries'
      iteration order. */
  ghost function Render(e: Element, level: nat, cdata: bool): (r: string)
    ensures Indent(level) + "<" + e.key <= r
    ensures e.value.Some? || |e.children| > 0 ==> EndsWith(r, "</" + e.key + ">")
    ensures e.value.None? && |e.children| == 0 ==> EndsWith(r, " />")
    decreases e, 3
  {
    var o := Open(e, level);
    var c := Close(e, level, cdata);
    Prefix(Indent(level) + "<" + e.key, RenderAttributes(e.attributes, KeyOrder(e.attributes.Keys)));
    Framed(o, c, Indent(level) + "<" + e.key, "</" + e.key + ">");
    Framed(o, c, Indent(level) + "<" + e.key, " />");
    o + c
  }

  /** The indentation, `<`, the tag and the attributes. */
  ghost function Open(e: Element, level: nat): string {
    Indent(level) + "<" + e.key + RenderAttributes(e.attributes, KeyOrder(e.attributes.Keys))
  }

  /** The rest: the text and end tag, the children and end tag, or ` />`. */
  ghost function Close(e: Element, level: nat, cdata: bool): (r: string)
    ensures e.value.Some? || |e.children| > 0 ==> EndsWith(r, "</" + e.key + ">")
    ensures e.value.None? && |e.children| == 0 ==> r == " />"
    decreases e, 2
  {
    var end := "</" + e.key + ">";
    if e.value.Some? then
      EndsWithTail(">" + Body(e.value.value, cdata), end);
      ">" + Body(e.value.value, cdata) + end
    else if |e.children| > 0 then
      var inner := ">\n" + RenderGroups(e, KeyOrder(e.children.Keys), level, cdata) + Indent(level);
      EndsWithTail(inner, end);
      inner + end
    else " />"
  }

  ghost function RenderGroups(e: Element, keys: seq<string>, level: nat, cdata: bool): string
    requires forall i | 0 <= i < |keys| :: keys[i] in e.children
    decreases e, 1, |keys|
  {
    if |keys| == 0 then []
    else RenderSiblings(e, keys[0], 0, level, cdata) + RenderGroups(e, keys[1..], level, cdata)
  }

  ghost function RenderSiblings(e: Element, k: string, from: nat, level: nat, cdata: bool): string
    requires k in e.children && from <= |e.children[k].items|
    decreases e, 0, |e.children[k].items| - from
  {
    assert e.children[k] in e.children.Values;
    if from == |e.children[k].items| then []
    else Render(e.children[k].items[from], level + 1, cdata) + "\n" + RenderSiblings(e, k, from + 1, level, cdata)
  }

  /** Each part followed by the separator, one after another. */
  function Terminated(parts: seq<string>, sep: string): string {
    if |parts| == 0 then [] else parts[0] + sep + Terminated(parts[1..], sep)
  }

  /** The children of the groups named by `keys`, group by group, each group in its own
      order. */
  ghost function ChildrenInOrder(e: Element, keys: seq<string>): seq<Element>
    requires forall i | 0 <= i < |keys| :: keys[i] in e.children
  {
    if |keys| == 0 then [] else e.children[keys[0]].items + ChildrenInOrder(e, keys[1..])
  }

  /** Every element rendered at the same level. */
  ghost function RenderedAt(items: seq<Element>, level: nat, cdata: bool): (r: seq<string>)
    ensures |r| == |items|
  {
    if |items| == 0 then [] else [Render(items[0], level, cdata)] + RenderedAt(items[1..], level, cdata)
  }

  /** The children in group order, each rendered one level deeper and followed by a line
      break. */
  ghost function ChildLines(e: Element, level: nat, cdata: bool): string {
    Terminated(RenderedAt(ChildrenInOrder(e, KeyOrder(e.children.Keys)), level + 1, cdata), "\n")
  }

  /** `toXMLString(with:withCDATA:)`: the declaration, when the header yields one, then
      the root element at level 0. */
  ghost function ToXMLString(e: Element, header: Option<XMLHeader>, cdata: bool, describe: DescribeDouble): (r: string)
    ensures header.None? || IsEmpty(header.value) ==> r == Render(e, 0, cdata)
    ensures header.Some? && !IsEmpty(header.value) ==> "<?xml" <= r
    ensures EndsWith(r, Render(e, 0, cdata))
  {
    var decl := if header.Some? then ToXML(header.value, describe) else None;
    var d := if decl.Some? then decl.value else "";
    EndsWithTail(d, Render(e, 0, cdata));
    if decl.Some? then
      DeclarationLeads(header.value, describe, Render(e, 0, cdata));
      d + Render(e, 0, cdata)
    else
      assert d + Render(e, 0, cdata) == Render(e, 0, cdata);
      d + Render(e, 0, cdata)
  }

  /** The whole of `createRootElement`: the root element's text, or the rejection. */
  ghost function EncodeDocument(rootKey: string, header: Option<XMLHeader>, cdata: bool, c: Container, ds: Describers)
    : (r: Result<string, EncodingError>)
    ensures r.Success? <==> c.Dictionary? || c.Array?
  {
    match CreateRootElement(rootKey, c, ds)
    case Success(e) => Success(ToXMLString(e, header, cdata, ds.double))
    case Failure(err) => Failure(err)
  }

  // ---------------------------------------------------------------------------
  // Markup safety of the rendering

  /** Tags and attribute names free of `<` (the renderer does not escape names). */
  ghost predicate WellNamed(e: Element)
    decreases e
  {
    && '<' !in e.key
    && (forall a | a in e.attributes :: '<' !in a)
    && (forall k, i | k in e.children && 0 <= i < |e.children[k].items| ::
          (assert e.children[k] in e.children.Values; WellNamed(e.children[k].items[i])))
  }

  /** The number of `<` an element's rendering should hold: two for an element with text
      or children (start and end tag) plus its children's, one for a self-closed one. */
  ghost function Tags(e: Element): nat
    decreases e, 2
  {
    if e.value.Some? then 2
    else if |e.children| > 0 then 2 + GroupTags(e, KeyOrder(e.children.Keys))
    else 1
  }

  ghost function GroupTags(e: Element, keys: seq<string>): nat
    requires forall i | 0 <= i < |keys| :: keys[i] in e.children
    decreases e, 1, |keys|
  {
    if |keys| == 0 then 0 else SiblingTags(e, keys[0], 0) + GroupTags(e, keys[1..])
  }

  ghost function SiblingTags(e: Element, k: string, from: nat): nat
    requires k in e.children && from <= |e.children[k].items|
    decreases e, 0, |e.children[k].items| - from
  {
    assert e.children[k] in e.children.Values;
    if from == |e.children[k].items| then 0
    else Tags(e.children[k].items[from]) + SiblingTags(e, k, from + 1)
  }

  function LtCount(s: string): nat {
    multiset(s)['<']
  }

  lemma NoLt(s: string)
    requires '<' !in s
    ensures LtCount(s) == 0
  {
  }

  lemma {:induction false} AttributesHaveNoLt(attrs: map<string, string>, names: seq<string>)
    requires forall i | 0 <= i < |names| :: names[i] in attrs && '<' !in names[i]
    ensures LtCount(RenderAttributes(attrs, names)) == 0
    decreases |names|
  {
    if |names| > 0 {
      AttributesHaveNoLt(attrs, names[1..]);
      EscapedHasNoMarkup(attrs[names[0]]);
      NoLt(Escape(attrs[names[0]]));
      NoLt(names[0]);
    }
  }

  /** With text escaped (no CDATA), every `<` in the output opens a tag: the element
      text and attribute values cannot inject markup. */
  lemma {:induction false} RenderTagCount(e: Element, level: nat)
    requires WellNamed(e)
    ensures LtCount(Render(e, level, false)) == Tags(e)
    decreases e, 3
  {
    OpenTagCount(e, level);
    CloseTagCount(e, level);
  }

  lemma OpenTagCount(e: Element, level: nat)
    requires WellNamed(e)
    ensures LtCount(Open(e, level)) == 1
  {
    var i := Indent(level);
    var at := RenderAttributes(e.attributes, KeyOrder(e.attributes.Keys));
    NoLt(i);
    NoLt(e.key);
    AttributesHaveNoLt(e.attributes, KeyOrder(e.attributes.Keys));
    assert multiset(i + "<" + e.key + at) == multiset(i) + multiset("<") + multiset(e.key) + multiset(at);
  }

  lemma {:induction false} CloseTagCount(e: Element, level: nat)
    requires WellNamed(e)
    ensures LtCount(Close(e, level, false)) == Tags(e) - 1
    decreases e, 2
  {
    if e.value.Some? {
      CloseTextCount(e);
    } else if |e.children| > 0 {
      NoLt(e.key);
      NoLt(Indent(level));
      GroupTagCount(e, KeyOrder(e.children.Keys), level);
    }
  }

  lemma CloseTextCount(e: Element)
    requires '<' !in e.key && e.value.Some?
    ensures LtCount(">" + Body(e.value.value, false) + "</" + e.key + ">") == 1
  {
    EscapedHasNoMarkup(e.value.value);
    NoLt(Escape(e.value.value));
    NoLt(e.key);
  }

  lemma {:induction false} GroupTagCount(e: Element, keys: seq<string>, level: nat)
    requires WellNamed(e)
    requires forall i | 0 <= i < |keys| :: keys[i] in e.children
    ensures LtCount(RenderGroups(e, keys, level, false)) == GroupTags(e, keys)
    decreases e, 1, |keys|
  {
    if |keys| > 0 {
      SiblingTagCount(e, keys[0], 0, level);
      GroupTagCount(e, keys[1..], level);
    }
  }

  lemma {:induction false} SiblingTagCount(e: Element, k: string, from: nat, level: nat)
    requires WellNamed(e)
    requires k in e.children && from <= |e.children[k].items|
    ensures LtCount(RenderSiblings(e, k, from, level, false)) == SiblingTags(e, k, from)
    decreases e, 0, |e.children[k].items| - from
  {
    assert e.children[k] in e.children.Values;
    if from < |e.children[k].items| {
      RenderTagCount(e.children[k].items[from], level + 1);
      SiblingTagCount(e, k, from + 1, level);
    }
  }

  /** A null value renders as a self-closed element. */
  lemma RenderNull(key: string, level: nat, cdata: bool)
    ensures Render(EmptyElement(key), level, cdata) == Indent(level) + "<" + key + " />"
  {
    assert KeyOrder({}) == [];
    assert Open(EmptyElement(key), level) == Indent(level) + "<" + key;
  }

  /** An element with text renders as its start tag, the text, and its end tag. */
  lemma RenderText(e: Element, level: nat, cdata: bool)
    requires e.value.Some?
    ensures Render(e, level, cdata) == Open(e, level) + (">" + Body(e.value.value, cdata) + "</" + e.key + ">")
  {
  }

  /** A scalar renders as one line whose escaped text reads back as the scalar's
      description. */
  lemma RenderScalar(key: string, s: Scalar, ds: Describers, level: nat)
    ensures var text := ScalarDescription(s, ds);
      && Render(Project(Leaf(s), key, ds)[0], level, false)
           == Indent(level) + "<" + key + (">" + Escape(text) + "</" + key + ">")
      && Unescape(Escape(text)) == text
  {
    var e := TextElement(key, ScalarDescription(s, ds));
    assert KeyOrder({}) == [];
    assert Open(e, level) == Indent(level) + "<" + key;
    RenderText(e, level, false);
    UnescapeEscape(ScalarDescription(s, ds));
  }

  /** An element with children renders as its start tag closed by `>` and a line break,
      then every child one level deeper, group by group, each followed by a line break,
      then its own indentation and end tag. */
  lemma RenderChildren(e: Element, level: nat, cdata: bool)
    requires e.value.None? && |e.children| > 0
    ensures Render(e, level, cdata)
      == Open(e, level) + ">\n" + ChildLines(e, level, cdata) + Indent(level) + "</" + e.key + ">"
  {
    RenderSplits(e, level, cdata);
    CloseChildren(e, level, cdata);
    GroupsAreLines(e, KeyOrder(e.children.Keys), level, cdata);
    LaidOut(Render(e, level, cdata), Open(e, level), Close(e, level, cdata), ">\n",
      RenderGroups(e, KeyOrder(e.children.Keys), level, cdata), ChildLines(e, level, cdata),
      Indent(level), "</" + e.key + ">");
  }

  lemma RenderSplits(e: Element, level: nat, cdata: bool)
    ensures Render(e, level, cdata) == Open(e, level) + Close(e, level, cdata)
  {
  }

  lemma CloseChildren(e: Element, level: nat, cdata: bool)
    requires e.value.None? && |e.children| > 0
    ensures Close(e, level, cdata)
      == ">\n" + RenderGroups(e, KeyOrder(e.children.Keys), level, cdata) + Indent(level) + "</" + e.key + ">"
  {
  }

  /** The layout step on plain strings: substituting the groups' text into the element's. */
  lemma LaidOut(rendered: string, open: string, close: string, start: string, groups: string, lines: string, indent: string, end: string)
    requires rendered == open + close && close == start + groups + indent + end && groups == lines
    ensures rendered == open + start + lines + indent + end
  {
    Regroup(open, start, lines, indent, end);
  }

  lemma {:induction false} GroupsAreLines(e: Element, keys: seq<string>, level: nat, cdata: bool)
    requires forall i | 0 <= i < |keys| :: keys[i] in e.children
    ensures RenderGroups(e, keys, level, cdata)
      == Terminated(RenderedAt(ChildrenInOrder(e, keys), level + 1, cdata), "\n")
    decreases |keys|
  {
    if |keys| > 0 {
      var items := e.children[keys[0]].items;
      var rest := ChildrenInOrder(e, keys[1..]);
      GroupsAreLines(e, keys[1..], level, cdata);
      SiblingsAreLines(e, keys[0], 0, level, cdata);
      assert items[0..] == items;
      RenderedAtAppend(items, rest, level + 1, cdata);
      TerminatedAppend(RenderedAt(items, level + 1, cdata), RenderedAt(rest, level + 1, cdata), "\n");
    }
  }

  lemma {:induction false} SiblingsAreLines(e: Element, k: string, from: nat, level: nat, cdata: bool)
    requires k in e.children && from <= |e.children[k].items|
    ensures RenderSiblings(e, k, from, level, cdata)
      == Terminated(RenderedAt(e.children[k].items[from..], level + 1, cdata), "\n")
    decreases |e.children[k].items| - from
  {
    var items := e.children[k].items;
    if from < |items| {
      SiblingsAreLines(e, k, from + 1, level, cdata);
      var parts := RenderedAt(items[from..], level + 1, cdata);
      assert parts[1..] == RenderedAt(items[from + 1..], level + 1, cdata);
    }
  }

  lemma {:induction false} RenderedAtAppend(a: seq<Element>, b: seq<Element>, level: nat, cdata: bool)
    ensures RenderedAt(a + b, level, cdata) == RenderedAt(a, level, cdata) + RenderedAt(b, level, cdata)
    decreases |a|
  {
    if |a| == 0 {
      assert a + b == b;
    } else {
      assert (a + b)[0] == a[0] && (a + b)[1..] == a[1..] + b;
      RenderedAtAppend(a[1..], b, level, cdata);
      ConsAssoc(Render(a[0], level, cdata), RenderedAt(a[1..], level, cdata), RenderedAt(b, level, cdata));
    }
  }

  /** Each element's rendering sits at its index. */
  lemma {:induction false} RenderedAtIndex(items: seq<Element>, level: nat, cdata: bool, i: nat)
    requires i < |items|
    ensures RenderedAt(items, level, cdata)[i] == Render(items[i], level, cdata)
    decreases i
  {
    if i > 0 {
      RenderedAtIndex(items[1..], level, cdata, i - 1);
      assert items[1..][i - 1] == items[i];
    }
  }

  lemma ConsAssoc<T>(h: T, p: seq<T>, q: seq<T>)
    ensures [h] + (p + q) == [h] + p + q
  {
  }

  lemma {:induction false} TerminatedAppend(a: seq<string>, b: seq<string>, sep: string)
    ensures Terminated(a + b, sep) == Terminated(a, sep) + Terminated(b, sep)
    decreases |a|
  {
    if |a| == 0 {
      assert a + b == b;
    } else {
      assert (a + b)[1..] == a[1..] + b;
      TerminatedAppend(a[1..], b, sep);
    }
  }
}

=== FILE: encoder.dfy ===
/** The encoder of the current variant (Sources/XMLCoding/Encoder/XMLEncoder.swift): the
    encoding options, `_XMLEncoder` with its container stack and coding path, the keyed,
    unkeyed and single-value containers, `box`/`box_`, and the top-level `encode`.

    A value's own `encode(to:)` is an abstract callback from encoder state to encoder
    state; Swift's reflection over the value is not modelled. */
module XMLEncoder {
  import opened Wrappers
  import opened Primitives
  import opened EncodingStorage
  import SnakeCase
  import XMLText
  import opened CodingTree

  /** A coding key: its text and, for positions in an unkeyed container, its index. */
  datatype CodingKey = CodingKey(stringValue: string, intValue: Option<int>)

  /** `_XMLKey(index:)`, the key pushed for a position in an unkeyed container. The
      `_XMLKey` type is not part of this model; its text is taken to be "Index n" as in
      Foundation's encoders, and only the index matters below. */
  function IndexKey(index: nat): (k: CodingKey)
    ensures k.intValue == Some(index)
  {
    CodingKey("Index " + NatDigits(index), Some(index))
  }

  // ---------------------------------------------------------------------------
  // Options

  datatype KeyEncodingStrategy =
    | UseDefaultKeys
    | ConvertToSnakeCase
    /** receives the full coding path, the key being written last */
    | CustomKeys(converter: seq<CodingKey> -> CodingKey)

  datatype AttributeEncodingStrategy =
    | DeferredToEncoder
    /** asked with the encoder whose coding path ends in the key being written */
    | CustomAttributes(isAttribute: Encoder -> bool)

  datatype StringEncodingStrategy = DeferredToString | Cdata

  datatype ListEncodingStrategy =
    | PreserveStructure
    /** every list becomes a dictionary whose sole entry, under the tag, holds the items */
    | ExpandListWithItemTag(itemTag: string)

  /** `XMLEncoder._Options`, without the date, data and non-conforming float strategies. */
  datatype Options = Options(
    keyEncoding: KeyEncodingStrategy,
    attributeEncoding: AttributeEncodingStrategy,
    stringEncoding: StringEncodingStrategy,
    listEncoding: ListEncodingStrategy)

  const DefaultOptions: Options := Options(UseDefaultKeys, DeferredToEncoder, DeferredToString, PreserveStructure)

  // ---------------------------------------------------------------------------
  // Encoder state

  /** `_XMLEncoder`: the container stack and the coding path. */
  datatype Encoder = Encoder(storage: Storage, codingPath: seq<CodingKey>)

  /** A value to encode: one of the types `box_` recognises directly, or any other
      `Encodable`, represented by its `encode(to:)`. */
  datatype Value =
    | Primitive(scalar: Scalar)
    | Composite(encodeTo: (Options, Encoder) -> Result<Encoder, EncodingError>)

  /** `_XMLKeyedEncodingContainer`: its coding path and the dictionary it writes into. */
  datatype KeyedContainer = KeyedContainer(codingPath: seq<CodingKey>, handle: Handle)

  /** `_XMLUnkeyedEncodingContainer`: its coding path and the array it appends to. */
  datatype UnkeyedContainer = UnkeyedContainer(codingPath: seq<CodingKey>, handle: Handle)

  /** `canEncodeNewValue`: no container has been requested at this coding path yet. */
  predicate CanEncodeNewValue(enc: Encoder) {
    Count(enc.storage) == |enc.codingPath|
  }

  /** The stack entry on top, if any. */
  function Last(s: Storage): (r: Option<MutableContainer>)
    ensures r.Some? <==> Count(s) > 0
  {
    if Count(s) == 0 then None else Some(s.containers[Count(s) - 1])
  }

  /** Where `container(keyedBy:)` does not trap. */
  predicate KeyedAcquirable(enc: Encoder) {
    CanEncodeNewValue(enc) || (Last(enc.storage).Some? && Last(enc.storage).value.MutableDictionary?)
  }

  /** Where `unkeyedContainer()` does not trap. */
  predicate UnkeyedAcquirable(enc: Encoder) {
    CanEncodeNewValue(enc) || (Last(enc.storage).Some? && Last(enc.storage).value.MutableArray?)
  }

  /** The handle of the top stack entry itself. */
  function TopHandle(s: Storage): Handle
    requires Count(s) > 0
  {
    Handle(Count(s) - 1, [], IdOf(s.containers[Count(s) - 1]).GetOr(0))
  }

  // ---------------------------------------------------------------------------
  // Acquiring containers

  /** `container(keyedBy:)`: a new empty dictionary on the stack when no container was
      requested at this path, otherwise the dictionary already on top; a top that is not
      a dictionary is a precondition failure. */
  function ContainerKeyedBy(enc: Encoder): (r: (Encoder, KeyedContainer))
    requires KeyedAcquirable(enc)
    ensures r.0.codingPath == enc.codingPath && r.1.codingPath == enc.codingPath
    ensures CanEncodeNewValue(enc) ==> r.0.storage == PushKeyedContainer(enc.storage)
    ensures !CanEncodeNewValue(enc) ==> r.0 == enc
    ensures Count(r.0.storage) > 0 && r.1.handle == TopHandle(r.0.storage)
    ensures DictAt(r.0.storage, r.1.handle).Some?
  {
    if CanEncodeNewValue(enc) then
      var s := PushKeyedContainer(enc.storage);
      (Encoder(s, enc.codingPath), KeyedContainer(enc.codingPath, TopHandle(s)))
    else
      (enc, KeyedContainer(enc.codingPath, TopHandle(enc.storage)))
  }

  /** The stack entry `unkeyedContainer()` pushes under the expanding list strategy: a
      dictionary whose sole entry is an array under the item tag. */
  function ExpandedList(dictId: nat, arrayId: nat, itemTag: string, items: seq<MutableContainer>): MutableContainer {
    MutableDictionary(MutableContainerDictionary(dictId, map[itemTag := MutableArray(MutableContainerArray(arrayId, items))]))
  }

  /** `unkeyedContainer()`: when no container was requested at this path, a new empty
      array on the stack, or, when lists are expanded, a new dictionary holding the
      array under the item tag; otherwise the array already on top. */
  function UnkeyedContainerOf(opts: Options, enc: Encoder): (r: (Encoder, UnkeyedContainer))
    requires UnkeyedAcquirable(enc)
    ensures r.0.codingPath == enc.codingPath && r.1.codingPath == enc.codingPath
    ensures CanEncodeNewValue(enc) && opts.listEncoding.PreserveStructure? ==>
      && r.0.storage == PushUnkeyedContainer(enc.storage)
      && r.1.handle == Handle(Count(enc.storage), [], enc.storage.nextId)
    ensures CanEncodeNewValue(enc) && opts.listEncoding.ExpandListWithItemTag? ==>
      var n := enc.storage.nextId;
      && r.0.storage == Storage(enc.storage.containers + [ExpandedList(n, n + 1, opts.listEncoding.itemTag, [])], n + 2)
      && r.1.handle == Handle(Count(enc.storage), [AtKey(opts.listEncoding.itemTag)], n + 1)
    ensures !CanEncodeNewValue(enc) ==> r.0 == enc && r.1.handle == TopHandle(enc.storage)
    ensures ArrayAt(r.0.storage, r.1.handle) == Some(if CanEncodeNewValue(enc) then NewArray(r.1.handle.id) else Last(enc.storage).value.list)
  {
    if CanEncodeNewValue(enc) then
      match opts.listEncoding
      case PreserveStructure =>
        var s := PushUnkeyedContainer(enc.storage);
        (Encoder(s, enc.codingPath), UnkeyedContainer(enc.codingPath, TopHandle(s)))
      case ExpandListWithItemTag(tag) =>
        var n := enc.storage.nextId;
        var s := Storage(enc.storage.containers + [ExpandedList(n, n + 1, tag, [])], n + 2);
        (Encoder(s, enc.codingPath), UnkeyedContainer(enc.codingPath, Handle(Count(enc.storage), [AtKey(tag)], n + 1)))
    else
      (enc, UnkeyedContainer(enc.codingPath, TopHandle(enc.storage)))
  }

  // ---------------------------------------------------------------------------
  // Keyed container

  /** `_converted`: the key as the key strategy rewrites it. A custom converter is
      called with the container's own coding path followed by the key, not with the
      encoder's path. */
  function Converted(opts: Options, c: KeyedContainer, key: CodingKey): (r: CodingKey)
    ensures opts.keyEncoding.UseDefaultKeys? ==> r == key
    ensures opts.keyEncoding.ConvertToSnakeCase? ==>
      && r.intValue == key.intValue
      && r.stringValue == SnakeCase.ConvertToSnakeCase(key.stringValue)
      && forall i | 0 <= i < |r.stringValue| :: !IsUpper(r.stringValue[i])
    ensures opts.keyEncoding.CustomKeys? ==> r == opts.keyEncoding.converter(c.codingPath + [key])
  {
    match opts.keyEncoding
    case UseDefaultKeys => key
    case ConvertToSnakeCase => CodingKey(SnakeCase.ConvertToSnakeCase(key.stringValue), key.intValue)
    case CustomKeys(converter) => converter(c.codingPath + [key])
  }

  /** The dictionary's text key for `key`. */
  function Name(opts: Options, c: KeyedContainer, key: CodingKey): string {
    Converted(opts, c, key).stringValue
  }

  /** Whether the attribute strategy sends a write under `key` to the attributes: the
      predicate sees the encoder with `key` appended to its coding path. */
  predicate RoutesToAttributes(opts: Options, enc: Encoder, key: CodingKey) {
    opts.attributeEncoding.CustomAttributes? &&
    opts.attributeEncoding.isAttribute(Encoder(enc.storage, enc.codingPath + [key]))
  }

  /** The attributes dictionary of a container's dictionary, or a new empty one with
      identity `spare` when the reserved entry is absent or not a dictionary. */
  function AttributesIn(d: MutableContainerDictionary, spare: nat): MutableContainerDictionary {
    if AttributesKey in d.values && d.values[AttributesKey].MutableDictionary? then d.values[AttributesKey].dict
    else NewDictionary(spare)
  }

  /** The dictionary after a write under `name` into its attributes: the existing
      attributes dictionary is reused, or a new one holding just this entry is stored. */
  function WithAttribute(d: MutableContainerDictionary, name: string, v: MutableContainer, spare: nat): MutableContainerDictionary {
    Set(d, AttributesKey, Some(MutableDictionary(Set(AttributesIn(d, spare), name, Some(v)))))
  }

  /** The write into the reserved `___ATTRIBUTES` entry of the dictionary a handle
      designates; one identity is set aside for the attributes dictionary in case it
      has to be made. */
  function WriteAttribute(s: Storage, h: Handle, name: string, v: MutableContainer): (r: Storage)
    ensures OthersUnchanged(Allocate(s), r, h.level)
    ensures DictAt(s, h).Some? ==> DictAt(r, h) == Some(WithAttribute(DictAt(s, h).value, name, v, s.nextId))
    ensures DictAt(s, h).None? ==> r == Allocate(s)
  {
    var s1 := Allocate(s);
    assert DictAt(s1, h) == DictAt(s, h);
    match DictAt(s, h)
    case Some(d) => WriteKey(s1, h, AttributesKey, MutableDictionary(Set(AttributesIn(d, s.nextId), name, Some(v))))
    case None => s1
  }

  /** `encodeNil(forKey:)`: null under the converted key, never routed. */
  function KeyedEncodeNil(opts: Options, enc: Encoder, c: KeyedContainer, key: CodingKey): (r: Encoder)
    ensures r.codingPath == enc.codingPath
    ensures DictAt(enc.storage, c.handle).Some? ==>
      DictAt(r.storage, c.handle) == Some(Set(DictAt(enc.storage, c.handle).value, Name(opts, c, key), Some(MutableNull)))
  {
    Encoder(WriteKey(enc.storage, c.handle, Name(opts, c, key), MutableNull), enc.codingPath)
  }

  /** `encode(_:forKey:)` for `Bool`, the integer types, `String` and `Double`: the value
      goes into the attributes when the attribute strategy says so, and directly under
      the converted key otherwise. */
  function KeyedEncode(opts: Options, enc: Encoder, c: KeyedContainer, key: CodingKey, s: Scalar): (r: Encoder)
    ensures r.codingPath == enc.codingPath
    ensures OthersUnchanged(if RoutesToAttributes(opts, enc, key) then Allocate(enc.storage) else enc.storage, r.storage, c.handle.level)
    ensures DictAt(enc.storage, c.handle).Some? ==> DictAt(r.storage, c.handle) == Some(
      if RoutesToAttributes(opts, enc, key) then WithAttribute(DictAt(enc.storage, c.handle).value, Name(opts, c, key), MutableLeaf(s), enc.storage.nextId)
      else Set(DictAt(enc.storage, c.handle).value, Name(opts, c, key), Some(MutableLeaf(s))))
    ensures DictAt(enc.storage, c.handle).None? ==> r.storage.containers == enc.storage.containers
  {
    var name := Name(opts, c, key);
    if RoutesToAttributes(opts, enc, key) then
      Encoder(WriteAttribute(enc.storage, c.handle, name, MutableLeaf(s)), enc.codingPath)
    else
      Encoder(WriteKey(enc.storage, c.handle, name, MutableLeaf(s)), enc.codingPath)
  }

  /** `encode(_: Float, forKey:)`: widened to a double and stored directly, whatever the
      attribute strategy. The widening is float arithmetic and arrives already done. */
  function KeyedEncodeFloat(opts: Options, enc: Encoder, c: KeyedContainer, key: CodingKey, widened: F64): (r: Encoder)
    ensures r.codingPath == enc.codingPath
    ensures DictAt(enc.storage, c.handle).Some? ==>
      DictAt(r.storage, c.handle) == Some(Set(DictAt(enc.storage, c.handle).value, Name(opts, c, key), Some(MutableLeaf(Double(widened)))))
  {
    Encoder(WriteKey(enc.storage, c.handle, Name(opts, c, key), MutableLeaf(Double(widened))), enc.codingPath)
  }

  /** The generic `encode(_:forKey:)` for a value other than a date: boxed with the key
      on the coding path, then stored directly under the converted key. */
  function KeyedEncodeValue(opts: Options, enc: Encoder, c: KeyedContainer, key: CodingKey, v: Value)
    : (r: Result<Encoder, EncodingError>)
    ensures r.Success? <==> Box(opts, Encoder(enc.storage, enc.codingPath + [key]), v).Success?
    ensures r.Success? ==>
      var (after, boxed) := Box(opts, Encoder(enc.storage, enc.codingPath + [key]), v).value;
      && r.value.codingPath == enc.codingPath
      && (DictAt(after.storage, c.handle).Some? ==>
            DictAt(r.value.storage, c.handle) == Some(Set(DictAt(after.storage, c.handle).value, Name(opts, c, key), Some(boxed))))
  {
    match Box(opts, Encoder(enc.storage, enc.codingPath + [key]), v)
    case Failure(e) => Failure(e)
    case Success((after, boxed)) =>
      Success(Encoder(WriteKey(after.storage, c.handle, Name(opts, c, key), boxed), enc.codingPath))
  }

  /** `nestedContainer(keyedBy:forKey:)`: a new empty dictionary, with a new identity,
      stored under the converted key, and a container writing into it whose coding path
      ends in `key`. Whatever was under that key before is detached. */
  function NestedContainer(opts: Options, enc: Encoder, c: KeyedContainer, key: CodingKey): (r: (Encoder, KeyedContainer))
    ensures r.0.codingPath == enc.codingPath
    ensures r.1.codingPath == c.codingPath + [key]
    ensures r.1.handle.level == c.handle.level
    ensures r.1.handle.id == enc.storage.nextId && r.0.storage.nextId > enc.storage.nextId
    ensures DictAt(enc.storage, c.handle).Some? ==>
      && DictAt(r.0.storage, c.handle) == Some(Set(DictAt(enc.storage, c.handle).value, Name(opts, c, key), Some(MutableDictionary(NewDictionary(r.1.handle.id)))))
      && DictAt(r.0.storage, r.1.handle) == Some(NewDictionary(r.1.handle.id))
    ensures DictAt(enc.storage, c.handle).None? ==> r.0.storage.containers == enc.storage.containers
  {
    var name := Name(opts, c, key);
    var id := enc.storage.nextId;
    var child := MutableDictionary(NewDictionary(id));
    var s0 := Allocate(enc.storage);
    assert DictAt(s0, c.handle) == DictAt(enc.storage, c.handle);
    var s := WriteKey(s0, c.handle, name, child);
    var r := (Encoder(s, enc.codingPath), KeyedContainer(c.codingPath + [key], Handle(c.handle.level, c.handle.path + [AtKey(name)], id)));
    if DictAt(enc.storage, c.handle).Some? then WriteKeyThenResolve(s0, c.handle, name, child); r else r
  }

  /** `nestedUnkeyedContainer(forKey:)`: a new empty array under the converted key. */
  function NestedUnkeyedContainer(opts: Options, enc: Encoder, c: KeyedContainer, key: CodingKey): (r: (Encoder, UnkeyedContainer))
    ensures r.0.codingPath == enc.codingPath
    ensures r.1.codingPath == c.codingPath + [key]
    ensures r.1.handle.level == c.handle.level
    ensures r.1.handle.id == enc.storage.nextId && r.0.storage.nextId > enc.storage.nextId
    ensures DictAt(enc.storage, c.handle).Some? ==>
      && DictAt(r.0.storage, c.handle) == Some(Set(DictAt(enc.storage, c.handle).value, Name(opts, c, key), Some(MutableArray(NewArray(r.1.handle.id)))))
      && ArrayAt(r.0.storage, r.1.handle) == Some(NewArray(r.1.handle.id))
    ensures DictAt(enc.storage, c.handle).None? ==> r.0.storage.containers == enc.storage.containers
  {
    var name := Name(opts, c, key);
    var id := enc.storage.nextId;
    var child := MutableArray(NewArray(id));
    var s0 := Allocate(enc.storage);
    assert DictAt(s0, c.handle) == DictAt(enc.storage, c.handle);
    var s := WriteKey(s0, c.handle, name, child);
    var r := (Encoder(s, enc.codingPath), UnkeyedContainer(c.codingPath + [key], Handle(c.handle.level, c.handle.path + [AtKey(name)], id)));
    if DictAt(enc.storage, c.handle).Some? then WriteKeyThenResolve(s0, c.handle, name, child); r else r
  }

  // ---------------------------------------------------------------------------
  // Unkeyed container

  /** `count`: the number of items appended so far. A container the stack no longer
      holds reads as empty. */
  function UnkeyedCount(enc: Encoder, c: UnkeyedContainer): (r: nat)
    ensures ArrayAt(enc.storage, c.handle).Some? ==> r == |ArrayAt(enc.storage, c.handle).value.values|
    ensures ArrayAt(enc.storage, c.handle).None? ==> r == 0
  {
    match ArrayAt(enc.storage, c.handle)
    case Some(a) => |a.values|
    case None => 0
  }

  /** `encodeNil()`, and `encode(_:)` for `Bool`, the integer types, `String`, `Float`
      (already widened) and `Double`: one more item at the end of the array. */
  function UnkeyedEncode(enc: Encoder, c: UnkeyedContainer, item: MutableContainer): (r: Encoder)
    requires item.MutableLeaf? || item.MutableNull?
    ensures r.codingPath == enc.codingPath
    ensures OthersUnchanged(enc.storage, r.storage, c.handle.level)
    ensures ArrayAt(enc.storage, c.handle).Some? ==>
      ArrayAt(r.storage, c.handle) == Some(Append(ArrayAt(enc.storage, c.handle).value, item))
    ensures ArrayAt(enc.storage, c.handle).None? ==> r == enc
  {
    Encoder(AppendItem(enc.storage, c.handle, item), enc.codingPath)
  }

  /** The generic `encode(_:)`: boxed with the item's index on the coding path, then
      appended. */
  function UnkeyedEncodeValue(opts: Options, enc: Encoder, c: UnkeyedContainer, v: Value): (r: Result<Encoder, EncodingError>)
    ensures r.Success? <==> Box(opts, Encoder(enc.storage, enc.codingPath + [IndexKey(UnkeyedCount(enc, c))]), v).Success?
    ensures r.Success? ==>
      var (after, boxed) := Box(opts, Encoder(enc.storage, enc.codingPath + [IndexKey(UnkeyedCount(enc, c))]), v).value;
      && r.value.codingPath == enc.codingPath
      && (ArrayAt(after.storage, c.handle).Some? ==>
            ArrayAt(r.value.storage, c.handle) == Some(Append(ArrayAt(after.storage, c.handle).value, boxed)))
  {
    match Box(opts, Encoder(enc.storage, enc.codingPath + [IndexKey(UnkeyedCount(enc, c))]), v)
    case Failure(e) => Failure(e)
    case Success((after, boxed)) => Success(Encoder(AppendItem(after.storage, c.handle, boxed), enc.codingPath))
  }

  /** `nestedContainer(keyedBy:)`: a new empty dictionary appended, and a container
      writing into it whose coding path ends in the item's index. */
  function UnkeyedNestedContainer(enc: Encoder, c: UnkeyedContainer): (r: (Encoder, KeyedContainer))
    ensures r.0.codingPath == enc.codingPath
    ensures r.1.codingPath == c.codingPath + [IndexKey(UnkeyedCount(enc, c))]
    ensures r.1.handle.id == enc.storage.nextId && r.0.storage.nextId > enc.storage.nextId
    ensures ArrayAt(enc.storage, c.handle).Some? ==>
      && ArrayAt(r.0.storage, c.handle) == Some(Append(ArrayAt(enc.storage, c.handle).value, MutableDictionary(NewDictionary(r.1.handle.id))))
      && DictAt(r.0.storage, r.1.handle) == Some(NewDictionary(r.1.handle.id))
  {
    var index := UnkeyedCount(enc, c);
    var id := enc.storage.nextId;
    var child := MutableDictionary(NewDictionary(id));
    var s0 := Allocate(enc.storage);
    assert ArrayAt(s0, c.handle) == ArrayAt(enc.storage, c.handle);
    var s := AppendItem(s0, c.handle, child);
    var r := (Encoder(s, enc.codingPath), KeyedContainer(c.codingPath + [IndexKey(index)], Handle(c.handle.level, c.handle.path + [AtIndex(index)], id)));
    if ArrayAt(enc.storage, c.handle).Some? then AppendItemThenResolve(s0, c.handle, child); r else r
  }

  /** `nestedUnkeyedContainer()`: a new empty array appended. */
  function UnkeyedNestedUnkeyedContainer(enc: Encoder, c: UnkeyedContainer): (r: (Encoder, UnkeyedContainer))
    ensures r.0.codingPath == enc.codingPath
    ensures r.1.codingPath == c.codingPath + [IndexKey(UnkeyedCount(enc, c))]
    ensures r.1.handle.id == enc.storage.nextId && r.0.storage.nextId > enc.storage.nextId
    ensures ArrayAt(enc.storage, c.handle).Some? ==>
      && ArrayAt(r.0.storage, c.handle) == Some(Append(ArrayAt(enc.storage, c.handle).value, MutableArray(NewArray(r.1.handle.id))))
      && ArrayAt(r.0.storage, r.1.handle) == Some(NewArray(r.1.handle.id))
  {
    var index := UnkeyedCount(enc, c);
    var id := enc.storage.nextId;
    var child := MutableArray(NewArray(id));
    var s0 := Allocate(enc.storage);
    assert ArrayAt(s0, c.handle) == ArrayAt(enc.storage, c.handle);
    var s := AppendItem(s0, c.handle, child);
    var r := (Encoder(s, enc.codingPath), UnkeyedContainer(c.codingPath + [IndexKey(index)], Handle(c.handle.level, c.handle.path + [AtIndex(index)], id)));
    if ArrayAt(enc.storage, c.handle).Some? then AppendItemThenResolve(s0, c.handle, child); r else r
  }

  // ---------------------------------------------------------------------------
  // Single value container (the encoder itself)

  /** `encodeNil()`, and `encode(_:)` for the scalar types: only allowed while nothing
      was encoded at this path; pushes exactly the value. */
  function SingleEncode(enc: Encoder, item: MutableContainer): (r: Encoder)
    requires CanEncodeNewValue(enc)
    requires item.MutableLeaf? || item.MutableNull?
    ensures r.codingPath == enc.codingPath
    ensures r.storage.containers == enc.storage.containers + [item]
    ensures !CanEncodeNewValue(r)
  {
    Encoder(Push(enc.storage, item), enc.codingPath)
  }

  /** The generic `encode(_:)`: the value is boxed, then pushed. */
  function SingleEncodeValue(opts: Options, enc: Encoder, v: Value): (r: Result<Encoder, EncodingError>)
    requires CanEncodeNewValue(enc)
    ensures r.Success? <==> Box(opts, enc, v).Success?
    ensures r.Success? ==>
      var (after, boxed) := Box(opts, enc, v).value;
      r.value == Encoder(Push(after.storage, boxed), after.codingPath)
  {
    match Box(opts, enc, v)
    case Failure(e) => Failure(e)
    case Success((after, boxed)) => Success(Encoder(Push(after.storage, boxed), after.codingPath))
  }

  // ---------------------------------------------------------------------------
  // box

  /** `box_`: a primitive is boxed without touching the stack; any other value runs
      its `encode(to:)`, and yields nothing when that pushed no new container, and
      otherwise the container it pushed, popped off the stack. */
  function Box_(opts: Options, enc: Encoder, v: Value): (r: Result<(Encoder, Option<MutableContainer>), EncodingError>)
    ensures v.Primitive? ==> r == Success((enc, Some(MutableLeaf(v.scalar))))
    ensures v.Composite? ==> (r.Success? <==> v.encodeTo(opts, enc).Success?)
    ensures v.Composite? && r.Success? ==>
      var after := v.encodeTo(opts, enc).value;
      && (r.value.1.None? <==> Count(after.storage) <= Count(enc.storage))
      && (r.value.1.None? ==> r.value.0 == after)
      && (r.value.1.Some? ==>
            && r.value.0.codingPath == after.codingPath
            && r.value.0.storage.containers + [r.value.1.value] == after.storage.containers)
  {
    match v
    case Primitive(s) => Success((enc, Some(MutableLeaf(s))))
    case Composite(encodeTo) =>
      var depth := Count(enc.storage);
      match encodeTo(opts, enc)
      case Failure(e) => Failure(e)
      case Success(after) =>
        if Count(after.storage) <= depth then Success((after, None))
        else
          var (below, top) := PopContainer(after.storage);
          Success((Encoder(below, after.codingPath), Some(top)))
  }

  /** `box`: as `box_`, with a new empty dictionary in place of nothing. */
  function Box(opts: Options, enc: Encoder, v: Value): (r: Result<(Encoder, MutableContainer), EncodingError>)
    ensures r.Success? <==> Box_(opts, enc, v).Success?
    ensures r.Success? && Box_(opts, enc, v).value.1.Some? ==>
      r.value == (Box_(opts, enc, v).value.0, Box_(opts, enc, v).value.1.value)
    ensures r.Success? && Box_(opts, enc, v).value.1.None? ==>
      var after := Box_(opts, enc, v).value.0;
      r.value == (Encoder(Allocate(after.storage), after.codingPath), MutableDictionary(NewDictionary(after.storage.nextId)))
  {
    match Box_(opts, enc, v)
    case Failure(e) => Failure(e)
    case Success((after, Some(boxed))) => Success((after, boxed))
    case Success((after, None)) =>
      Success((Encoder(Allocate(after.storage), after.codingPath), MutableDictionary(NewDictionary(after.storage.nextId))))
  }

  // ---------------------------------------------------------------------------
  // Top level

  /** A fresh encoder: an empty stack and an empty coding path. */
  const Fresh: Encoder := Encoder(Storage([], 0), [])

  /** The first half of `XMLEncoder.encode`: the boxed top-level value, snapshotted; a
      value that encodes nothing is an error. */
  function EncodeValue(opts: Options, v: Value): (r: Result<Container, EncodingError>)
    ensures r.Success? <==> Box_(opts, Fresh, v).Success? && Box_(opts, Fresh, v).value.1.Some?
    ensures r.Success? ==> r.value == AsContainer(Box_(opts, Fresh, v).value.1.value)
    ensures Box_(opts, Fresh, v).Failure? ==> r == Failure(Box_(opts, Fresh, v).error)
  {
    match Box_(opts, Fresh, v)
    case Failure(e) => Failure(e)
    case Success((_, None)) => Failure(InvalidValue("Top-level value did not encode any values."))
    case Success((_, Some(top))) => Success(AsContainer(top))
  }

  /** `XMLEncoder.encode(_:withRootKey:header:)`: the document text, the CDATA flag
      taken from the string strategy. */
  ghost function Encode(opts: Options, v: Value, rootKey: string, header: Option<XMLText.XMLHeader>, ds: Describers)
    : (r: Result<string, EncodingError>)
    ensures r.Success? <==> EncodeValue(opts, v).Success? && (EncodeValue(opts, v).value.Dictionary? || EncodeValue(opts, v).value.Array?)
  {
    match EncodeValue(opts, v)
    case Failure(e) => Failure(e)
    case Success(c) => EncodeDocument(rootKey, header, opts.stringEncoding.Cdata?, c, ds)
  }
}

=== FILE: encoder_properties.dfy ===
/** Properties of the encoder: the one-container-per-path discipline, where keyed writes
    land, the two list layouts, and what `box_` and the top-level `encode` make of values
    that encode nothing. The example values are the shapes Swift's standard `Encodable`
    conformances give: an array asks for an unkeyed container and encodes each element,
    a record asks for a keyed container and encodes each field. */
module EncoderProperties {
  import opened Wrappers
  import opened Primitives
  import opened EncodingStorage
  import opened CodingTree
  import opened XMLEncoder

  // ---------------------------------------------------------------------------
  // Acquisition

  /** Asking again for the keyed container at the same path gives the same container and
      changes nothing; after the first request no new value can be encoded there. */
  lemma KeyedReacquired(enc: Encoder)
    requires CanEncodeNewValue(enc)
    ensures var (e1, c1) := ContainerKeyedBy(enc);
      && !CanEncodeNewValue(e1)
      && KeyedAcquirable(e1)
      && ContainerKeyedBy(e1) == (e1, c1)
  {
    var (e1, c1) := ContainerKeyedBy(enc);
    assert Last(e1.storage) == Some(MutableDictionary(NewDictionary(enc.storage.nextId)));
  }

  /** The same for the unkeyed container when lists keep their structure. */
  lemma UnkeyedReacquired(opts: Options, enc: Encoder)
    requires CanEncodeNewValue(enc) && opts.listEncoding.PreserveStructure?
    ensures var (e1, c1) := UnkeyedContainerOf(opts, enc);
      && !CanEncodeNewValue(e1)
      && UnkeyedAcquirable(e1)
      && UnkeyedContainerOf(opts, e1) == (e1, c1)
  {
    var (e1, c1) := UnkeyedContainerOf(opts, enc);
    assert Last(e1.storage) == Some(MutableArray(NewArray(enc.storage.nextId)));
  }

  /** When lists are expanded, the stack entry an unkeyed container lives in is a
      dictionary: asking for the unkeyed container a second time at that path is a
      precondition failure, while asking for a keyed one returns that dictionary. */
  lemma ExpandedReacquireTraps(opts: Options, enc: Encoder)
    requires CanEncodeNewValue(enc) && opts.listEncoding.ExpandListWithItemTag?
    ensures var (e1, _) := UnkeyedContainerOf(opts, enc);
      && !UnkeyedAcquirable(e1)
      && KeyedAcquirable(e1)
      && DictAt(ContainerKeyedBy(e1).0.storage, ContainerKeyedBy(e1).1.handle)
           == Some(MutableContainerDictionary(enc.storage.nextId, map[opts.listEncoding.itemTag := MutableArray(NewArray(enc.storage.nextId + 1))]))
  {
    var (e1, _) := UnkeyedContainerOf(opts, enc);
    var n := enc.storage.nextId;
    assert Last(e1.storage) == Some(ExpandedList(n, n + 1, opts.listEncoding.itemTag, []));
  }

  /** One container per path: after a keyed container, an unkeyed one traps ... */
  lemma KeyedThenUnkeyedTraps(enc: Encoder)
    requires CanEncodeNewValue(enc)
    ensures !UnkeyedAcquirable(ContainerKeyedBy(enc).0)
  {
    assert Last(ContainerKeyedBy(enc).0.storage) == Some(MutableDictionary(NewDictionary(enc.storage.nextId)));
  }

  /** ... after an unkeyed container that keeps its structure, a keyed one traps ... */
  lemma UnkeyedThenKeyedTraps(opts: Options, enc: Encoder)
    requires CanEncodeNewValue(enc) && opts.listEncoding.PreserveStructure?
    ensures !KeyedAcquirable(UnkeyedContainerOf(opts, enc).0)
  {
    assert Last(UnkeyedContainerOf(opts, enc).0.storage) == Some(MutableArray(NewArray(enc.storage.nextId)));
  }

  /** ... and after a single value, neither kind of container can be had. */
  lemma SingleThenContainerTraps(enc: Encoder, s: Scalar)
    requires CanEncodeNewValue(enc)
    ensures var e1 := SingleEncode(enc, MutableLeaf(s));
      !KeyedAcquirable(e1) && !UnkeyedAcquirable(e1)
  {
    var e1 := SingleEncode(enc, MutableLeaf(s));
    assert Last(e1.storage) == Some(MutableLeaf(s));
  }

  // ---------------------------------------------------------------------------
  // Where keyed writes land

  /** A routed write: the value appears under its name in the attributes dictionary,
      the dictionary's own entry under that name is untouched, an existing attributes
      dictionary keeps its other entries, a missing one is created holding just this
      entry, and no other entry changes. */
  lemma RoutedWriteGoesToAttributes(opts: Options, enc: Encoder, c: KeyedContainer, key: CodingKey, s: Scalar)
    requires DictAt(enc.storage, c.handle).Some?
    requires RoutesToAttributes(opts, enc, key)
    requires Name(opts, c, key) != AttributesKey
    ensures var d := DictAt(enc.storage, c.handle).value;
      var d2 := DictAt(KeyedEncode(opts, enc, c, key, s).storage, c.handle).value;
      var name := Name(opts, c, key);
      && Get(d2, name) == Get(d, name)
      && (forall k | k != name && k != AttributesKey :: Get(d2, k) == Get(d, k))
      && Get(d2, AttributesKey).Some? && Get(d2, AttributesKey).value.MutableDictionary?
      && Get(Get(d2, AttributesKey).value.dict, name) == Some(MutableLeaf(s))
      && (Get(d, AttributesKey).Some? && Get(d, AttributesKey).value.MutableDictionary? ==>
            forall k | k != name :: Get(Get(d2, AttributesKey).value.dict, k) == Get(Get(d, AttributesKey).value.dict, k))
      && (!(Get(d, AttributesKey).Some? && Get(d, AttributesKey).value.MutableDictionary?) ==>
            Get(d2, AttributesKey).value.dict.values == map[name := MutableLeaf(s)])
  {
    var d := DictAt(enc.storage, c.handle).value;
    var name := Name(opts, c, key);
    var a2 := Set(AttributesIn(d, enc.storage.nextId), name, Some(MutableLeaf(s)));
    assert DictAt(KeyedEncode(opts, enc, c, key, s).storage, c.handle).value == WithAttribute(d, name, MutableLeaf(s), enc.storage.nextId);
    if !(AttributesKey in d.values && d.values[AttributesKey].MutableDictionary?) {
      assert a2.values == map[name := MutableLeaf(s)];
    }
  }

  /** A write that is not routed: the value is under its name, every other entry,
      including the attributes dictionary, is untouched. */
  lemma DirectWriteLeavesAttributes(opts: Options, enc: Encoder, c: KeyedContainer, key: CodingKey, s: Scalar)
    requires DictAt(enc.storage, c.handle).Some?
    requires !RoutesToAttributes(opts, enc, key)
    requires Name(opts, c, key) != AttributesKey
    ensures var d := DictAt(enc.storage, c.handle).value;
      var d2 := DictAt(KeyedEncode(opts, enc, c, key, s).storage, c.handle).value;
      && Get(d2, Name(opts, c, key)) == Some(MutableLeaf(s))
      && Get(d2, AttributesKey) == Get(d, AttributesKey)
      && (forall k | k != Name(opts, c, key) :: Get(d2, k) == Get(d, k))
  {
  }

  /** A `Float` is written as a `Double` would be with attribute routing switched off. */
  lemma FloatNeverRouted(opts: Options, enc: Encoder, c: KeyedContainer, key: CodingKey, widened: F64)
    ensures KeyedEncodeFloat(opts, enc, c, key, widened)
         == KeyedEncode(opts.(attributeEncoding := DeferredToEncoder), enc, c, key, Double(widened))
  {
    assert Name(opts.(attributeEncoding := DeferredToEncoder), c, key) == Name(opts, c, key);
  }

  /** The key strategy decides the name: default keys are kept, snake case is applied to
      the key's text, and writing under a key already in snake case writes under that
      same text. */
  lemma SnakeCaseNames(opts: Options, c: KeyedContainer, key: CodingKey)
    requires opts.keyEncoding.ConvertToSnakeCase?
    ensures Name(opts, c, key) == SnakeCase.ConvertToSnakeCase(key.stringValue)
    ensures Name(opts, c, CodingKey(Name(opts, c, key), key.intValue)) == Name(opts, c, key)
  {
    SnakeCase.ConvertIdempotent(key.stringValue);
  }

  /** A custom key strategy sees the container's coding path: a container nested under
      `outer` hands the converter `outer` followed by the key, while the encoder's own
      path stays as it was, and a direct write stores its value under the converter's
      text. */
  lemma CustomKeySeesContainerPath(opts: Options, enc: Encoder, c: KeyedContainer, outer: CodingKey, key: CodingKey, s: Scalar)
    requires opts.keyEncoding.CustomKeys?
    requires DictAt(enc.storage, c.handle).Some?
    ensures var (e1, inner) := NestedContainer(opts, enc, c, outer);
      var name := opts.keyEncoding.converter(c.codingPath + [outer, key]).stringValue;
      && e1.codingPath == enc.codingPath
      && Name(opts, inner, key) == name
      && (!RoutesToAttributes(opts, e1, key) ==>
            && DictAt(KeyedEncode(opts, e1, inner, key, s).storage, inner.handle).Some?
            && Get(DictAt(KeyedEncode(opts, e1, inner, key, s).storage, inner.handle).value, name) == Some(MutableLeaf(s)))
  {
    assert c.codingPath + [outer] + [key] == c.codingPath + [outer, key];
  }

  /** `count` grows by one with each item appended through the container, so the next
      item's coding-path key is its index; a container the stack no longer holds stays
      at zero. */
  lemma UnkeyedCountCountsAppends(enc: Encoder, c: UnkeyedContainer, item: MutableContainer)
    requires item.MutableLeaf? || item.MutableNull?
    ensures ArrayAt(enc.storage, c.handle).Some? ==>
      && UnkeyedCount(UnkeyedEncode(enc, c, item), c) == UnkeyedCount(enc, c) + 1
      && UnkeyedCount(UnkeyedNestedContainer(enc, c).0, c) == UnkeyedCount(enc, c) + 1
    ensures ArrayAt(enc.storage, c.handle).None? ==> UnkeyedCount(UnkeyedEncode(enc, c, item), c) == 0
  {
  }

  // ---------------------------------------------------------------------------
  // Example values

  /** A field of a record: plain values go through the typed `encode(_:forKey:)`,
      other values through the generic one. */
  datatype Field = Field(key: CodingKey, value: Value)

  /** `encode(to:)` of an array: one unkeyed container, each element through the
      generic `encode(_:)`, the first failure ending it. Requesting a container where
      that would trap is reported as an invalid value. */
  function EncodeArray(items: seq<Value>, opts: Options, enc: Encoder): Result<Encoder, EncodingError> {
    if UnkeyedAcquirable(enc) then
      var (e1, c) := UnkeyedContainerOf(opts, enc);
      EncodeItems(items, opts, e1, c)
    else Failure(InvalidValue("unkeyed container requested twice"))
  }

  function EncodeItems(items: seq<Value>, opts: Options, enc: Encoder, c: UnkeyedContainer): Result<Encoder, EncodingError>
    decreases |items|
  {
    if items == [] then Success(enc)
    else
      match UnkeyedEncodeValue(opts, enc, c, items[0])
      case Failure(e) => Failure(e)
      case Success(e1) => EncodeItems(items[1..], opts, e1, c)
  }

  function ArrayValue(items: seq<Value>): Value {
    Composite((opts, enc) => EncodeArray(items, opts, enc))
  }

  /** `encode(to:)` of a record: one keyed container, each field in turn. */
  function EncodeRecord(fields: seq<Field>, opts: Options, enc: Encoder): Result<Encoder, EncodingError> {
    if KeyedAcquirable(enc) then
      var (e1, c) := ContainerKeyedBy(enc);
      EncodeFields(fields, opts, e1, c)
    else Failure(InvalidValue("keyed container requested over another container"))
  }

  function EncodeFields(fields: seq<Field>, opts: Options, enc: Encoder, c: KeyedContainer): Result<Encoder, EncodingError>
    decreases |fields|
  {
    if fields == [] then Success(enc)
    else
      var f := fields[0];
      match (if f.value.Primitive? then Success(KeyedEncode(opts, enc, c, f.key, f.value.scalar))
             else KeyedEncodeValue(opts, enc, c, f.key, f.value))
      case Failure(e) => Failure(e)
      case Success(e1) => EncodeFields(fields[1..], opts, e1, c)
  }

  function RecordValue(fields: seq<Field>): Value {
    Composite((opts, enc) => EncodeRecord(fields, opts, enc))
  }

  /** The build-tree leaves of a sequence of plain values. */
  function Leaves(ss: seq<Scalar>): (r: seq<MutableContainer>)
    ensures |r| == |ss|
    ensures forall i | 0 <= i < |ss| :: r[i] == MutableLeaf(ss[i])
  {
    if ss == [] then [] else [MutableLeaf(ss[0])] + Leaves(ss[1..])
  }

  function PrimitiveValues(ss: seq<Scalar>): (r: seq<Value>)
    ensures |r| == |ss|
    ensures forall i | 0 <= i < |ss| :: r[i] == Primitive(ss[i])
  {
    if ss == [] then [] else [Primitive(ss[0])] + PrimitiveValues(ss[1..])
  }

  // ---------------------------------------------------------------------------
  // List layouts

  /** Appending plain values one by one to the array held under the item tag of an
      expanded list leaves every other stack entry alone and extends that array. */
  lemma {:induction false} ItemsIntoExpandedList(opts: Options, enc: Encoder, c: UnkeyedContainer, dictId: nat, tag: string, xs: seq<MutableContainer>, ss: seq<Scalar>)
    requires c.handle == Handle(c.handle.level, [AtKey(tag)], c.handle.id) && c.handle.level < Count(enc.storage)
    requires enc.storage.containers[c.handle.level] == ExpandedList(dictId, c.handle.id, tag, xs)
    ensures EncodeItems(PrimitiveValues(ss), opts, enc, c)
         == Success(Encoder(enc.storage.(containers := enc.storage.containers[c.handle.level := ExpandedList(dictId, c.handle.id, tag, xs + Leaves(ss))]), enc.codingPath))
    decreases |ss|
  {
    var n := c.handle.level;
    if ss == [] {
      assert xs + Leaves(ss) == xs;
      assert enc.storage.containers[n := ExpandedList(dictId, c.handle.id, tag, xs)] == enc.storage.containers;
    } else {
      var item := MutableLeaf(ss[0]);
      var e1 := Encoder(enc.storage.(containers := enc.storage.containers[n := ExpandedList(dictId, c.handle.id, tag, xs + [item])]), enc.codingPath);
      ExpandedStep(opts, enc, c, dictId, tag, xs, ss[0]);
      ItemsStep(opts, enc, c, ss, e1);
      ItemsIntoExpandedList(opts, e1, c, dictId, tag, xs + [item], ss[1..]);
      LeavesStep(xs, ss);
      assert e1.storage.containers[n := ExpandedList(dictId, c.handle.id, tag, xs + Leaves(ss))]
          == enc.storage.containers[n := ExpandedList(dictId, c.handle.id, tag, xs + Leaves(ss))];
    }
  }

  /** One item into an expanded list. */
  lemma ExpandedStep(opts: Options, enc: Encoder, c: UnkeyedContainer, dictId: nat, tag: string, xs: seq<MutableContainer>, s: Scalar)
    requires c.handle == Handle(c.handle.level, [AtKey(tag)], c.handle.id) && c.handle.level < Count(enc.storage)
    requires enc.storage.containers[c.handle.level] == ExpandedList(dictId, c.handle.id, tag, xs)
    ensures UnkeyedEncodeValue(opts, enc, c, Primitive(s))
         == Success(Encoder(enc.storage.(containers := enc.storage.containers[c.handle.level := ExpandedList(dictId, c.handle.id, tag, xs + [MutableLeaf(s)])]), enc.codingPath))
  {
    var id := c.handle.id;
    var a := MutableArray(MutableContainerArray(id, xs + [MutableLeaf(s)]));
    var d := MutableContainerDictionary(dictId, map[tag := MutableArray(MutableContainerArray(id, xs))]);
    assert [AtKey(tag)][1..] == [];
    assert ArrayAt(enc.storage, c.handle) == Some(MutableContainerArray(id, xs));
    assert d.values[tag := a] == map[tag := a];
    assert ReplaceAt(ExpandedList(dictId, id, tag, xs), [AtKey(tag)], a) == Some(ExpandedList(dictId, id, tag, xs + [MutableLeaf(s)]));
  }

  /** One item into an array that is a stack entry. */
  lemma ArrayStep(opts: Options, enc: Encoder, c: UnkeyedContainer, xs: seq<MutableContainer>, s: Scalar)
    requires c.handle == Handle(c.handle.level, [], c.handle.id) && c.handle.level < Count(enc.storage)
    requires enc.storage.containers[c.handle.level] == MutableArray(MutableContainerArray(c.handle.id, xs))
    ensures UnkeyedEncodeValue(opts, enc, c, Primitive(s))
         == Success(Encoder(enc.storage.(containers := enc.storage.containers[c.handle.level := MutableArray(MutableContainerArray(c.handle.id, xs + [MutableLeaf(s)]))]), enc.codingPath))
  {
    assert ArrayAt(enc.storage, c.handle) == Some(MutableContainerArray(c.handle.id, xs));
  }

  /** Encoding the items is encoding the first, then the rest. */
  lemma ItemsStep(opts: Options, enc: Encoder, c: UnkeyedContainer, ss: seq<Scalar>, e1: Encoder)
    requires ss != [] && UnkeyedEncodeValue(opts, enc, c, Primitive(ss[0])) == Success(e1)
    ensures EncodeItems(PrimitiveValues(ss), opts, enc, c) == EncodeItems(PrimitiveValues(ss[1..]), opts, e1, c)
  {
    assert PrimitiveValues(ss)[1..] == PrimitiveValues(ss[1..]);
  }

  lemma LeavesStep(xs: seq<MutableContainer>, ss: seq<Scalar>)
    requires ss != []
    ensures xs + [MutableLeaf(ss[0])] + Leaves(ss[1..]) == xs + Leaves(ss)
  {
  }

  /** The same for an array that is itself the stack entry. */
  lemma {:induction false} ItemsIntoArray(opts: Options, enc: Encoder, c: UnkeyedContainer, xs: seq<MutableContainer>, ss: seq<Scalar>)
    requires c.handle == Handle(c.handle.level, [], c.handle.id) && c.handle.level < Count(enc.storage)
    requires enc.storage.containers[c.handle.level] == MutableArray(MutableContainerArray(c.handle.id, xs))
    ensures EncodeItems(PrimitiveValues(ss), opts, enc, c)
         == Success(Encoder(enc.storage.(containers := enc.storage.containers[c.handle.level := MutableArray(MutableContainerArray(c.handle.id, xs + Leaves(ss)))]), enc.codingPath))
    decreases |ss|
  {
    var n := c.handle.level;
    var id := c.handle.id;
    if ss == [] {
      assert xs + Leaves(ss) == xs;
      assert enc.storage.containers[n := MutableArray(MutableContainerArray(id, xs))] == enc.storage.containers;
    } else {
      var item := MutableLeaf(ss[0]);
      var e1 := Encoder(enc.storage.(containers := enc.storage.containers[n := MutableArray(MutableContainerArray(id, xs + [item]))]), enc.codingPath);
      ArrayStep(opts, enc, c, xs, ss[0]);
      ItemsStep(opts, enc, c, ss, e1);
      ItemsIntoArray(opts, e1, c, xs + [item], ss[1..]);
      LeavesStep(xs, ss);
      assert e1.storage.containers[n := MutableArray(MutableContainerArray(id, xs + Leaves(ss)))]
          == enc.storage.containers[n := MutableArray(MutableContainerArray(id, xs + Leaves(ss)))];
    }
  }

  /** The list layout: boxing an array of plain values leaves the stack as it was and
      yields the items, in order, as a new array when lists keep their structure, and
      as a new dictionary whose sole entry under the item tag holds them when lists are
      expanded. */
  lemma BoxArrayLayout(opts: Options, enc: Encoder, ss: seq<Scalar>)
    requires CanEncodeNewValue(enc)
    ensures var n := enc.storage.nextId;
      Box_(opts, enc, ArrayValue(PrimitiveValues(ss))) == Success((
        Encoder(Storage(enc.storage.containers, if opts.listEncoding.PreserveStructure? then n + 1 else n + 2), enc.codingPath),
        Some(match opts.listEncoding
             case PreserveStructure => MutableArray(MutableContainerArray(n, Leaves(ss)))
             case ExpandListWithItemTag(tag) => ExpandedList(n, n + 1, tag, Leaves(ss)))))
  {
    match opts.listEncoding
    case PreserveStructure => BoxPreservedArray(opts, enc, ss);
    case ExpandListWithItemTag(tag) => BoxExpandedArray(opts, enc, tag, ss);
  }

  lemma BoxPreservedArray(opts: Options, enc: Encoder, ss: seq<Scalar>)
    requires CanEncodeNewValue(enc) && opts.listEncoding.PreserveStructure?
    ensures var n := enc.storage.nextId;
      Box_(opts, enc, ArrayValue(PrimitiveValues(ss)))
        == Success((Encoder(Storage(enc.storage.containers, n + 1), enc.codingPath), Some(MutableArray(MutableContainerArray(n, Leaves(ss))))))
  {
    var (e1, c) := UnkeyedContainerOf(opts, enc);
    ItemsIntoArray(opts, e1, c, [], ss);
    assert [] + Leaves(ss) == Leaves(ss);
  }

  lemma BoxExpandedArray(opts: Options, enc: Encoder, tag: string, ss: seq<Scalar>)
    requires CanEncodeNewValue(enc) && opts.listEncoding == ExpandListWithItemTag(tag)
    ensures var n := enc.storage.nextId;
      Box_(opts, enc, ArrayValue(PrimitiveValues(ss)))
        == Success((Encoder(Storage(enc.storage.containers, n + 2), enc.codingPath), Some(ExpandedList(n, n + 1, tag, Leaves(ss)))))
  {
    var n := enc.storage.nextId;
    ExpandedArrayEncodes(opts, enc, tag, ss);
    BoxRestoresStack(opts, enc, ArrayValue(PrimitiveValues(ss)), ExpandedList(n, n + 1, tag, Leaves(ss)));
  }

  /** The scalars of an array, one expanded list on top of the stack. */
  lemma ExpandedArrayEncodes(opts: Options, enc: Encoder, tag: string, ss: seq<Scalar>)
    requires CanEncodeNewValue(enc) && opts.listEncoding == ExpandListWithItemTag(tag)
    ensures var n := enc.storage.nextId;
      EncodeArray(PrimitiveValues(ss), opts, enc)
        == Success(Encoder(Storage(enc.storage.containers + [ExpandedList(n, n + 1, tag, Leaves(ss))], n + 2), enc.codingPath))
  {
    var n, level := enc.storage.nextId, Count(enc.storage);
    var (e1, c) := UnkeyedContainerOf(opts, enc);
    var empty := ExpandedList(n, n + 1, tag, []);
    assert e1.storage == Storage(enc.storage.containers + [empty], n + 2);
    assert c.handle == Handle(level, [AtKey(tag)], n + 1);
    assert e1.storage.containers[level] == empty;
    ItemsIntoExpandedList(opts, e1, c, n, tag, [], ss);
    assert [] + Leaves(ss) == Leaves(ss);
    var top := ExpandedList(n, n + 1, tag, Leaves(ss));
    assert e1.storage.containers[level := top] == enc.storage.containers + [top];
  }

  // ---------------------------------------------------------------------------
  // Values that encode nothing

  /** A value whose `encode(to:)` requests no container: `box_` yields nothing, `box`
      a new empty dictionary, and the top-level `encode` reports an invalid value. */
  lemma NothingEncoded(opts: Options, v: Value)
    requires v.Composite? && v.encodeTo(opts, Fresh) == Success(Fresh)
    ensures Box_(opts, Fresh, v) == Success((Fresh, None))
    ensures Box(opts, Fresh, v) == Success((Encoder(Storage([], 1), []), MutableDictionary(NewDictionary(0))))
    ensures EncodeValue(opts, v).Failure? && EncodeValue(opts, v).error.InvalidValue?
  {
  }

  /** An error thrown by a value's `encode(to:)` reaches the caller of the top-level
      `encode` unchanged. */
  lemma ErrorsPropagate(opts: Options, v: Value, code: nat)
    requires v.Composite? && v.encodeTo(opts, Fresh) == Failure(Thrown(code))
    ensures EncodeValue(opts, v) == Failure(Thrown(code))
  {
  }

  /** A value that pushes exactly one container and leaves the rest of the stack alone:
      `box_` hands back that container and the stack it started from. */
  lemma BoxRestoresStack(opts: Options, enc: Encoder, v: Value, top: MutableContainer)
    requires v.Composite? && v.encodeTo(opts, enc).Success?
    requires v.encodeTo(opts, enc).value.storage.containers == enc.storage.containers + [top]
    requires v.encodeTo(opts, enc).value.codingPath == enc.codingPath
    ensures Box_(opts, enc, v)
         == Success((Encoder(enc.storage.(nextId := v.encodeTo(opts, enc).value.storage.nextId), enc.codingPath), Some(top)))
  {
    var after := v.encodeTo(opts, enc).value;
    assert PopContainer(after.storage) == (enc.storage.(nextId := after.storage.nextId), top);
  }

  /** An empty array encodes as an empty list, a plain value at the top level as its
      leaf, neither of which is an element tree: the document is refused for the
      plain value only. */
  lemma TopLevelPrimitiveIsNotARoot(opts: Options, s: Scalar, rootKey: string, header: Option<XMLText.XMLHeader>, ds: Describers)
    ensures EncodeValue(opts, Primitive(s)) == Success(Leaf(s))
    ensures Encode(opts, Primitive(s), rootKey, header, ds).Failure?
  {
  }

  // ---------------------------------------------------------------------------
  // One value per coding path, and detached containers

  /** `canEncodeNewValue` allows one value per coding path: it holds on a fresh
      encoder; a container request or a single value at the path uses it up; and
      extending the coding path with the key of a nested value makes it hold again for
      that value. */
  lemma OneValuePerPath(opts: Options, enc: Encoder, s: Scalar, key: CodingKey)
    requires CanEncodeNewValue(enc)
    ensures CanEncodeNewValue(Fresh)
    ensures var e1 := ContainerKeyedBy(enc).0;
      !CanEncodeNewValue(e1) && CanEncodeNewValue(Encoder(e1.storage, e1.codingPath + [key]))
    ensures var e1 := UnkeyedContainerOf(opts, enc).0;
      !CanEncodeNewValue(e1) && CanEncodeNewValue(Encoder(e1.storage, e1.codingPath + [key]))
    ensures !CanEncodeNewValue(SingleEncode(enc, MutableLeaf(s)))
  {
  }

  /** Asking a keyed container twice for a nested container under the same key stores
      a second, new dictionary there. The first nested container is detached: it no
      longer designates anything in the stack, and writes through it, or nested
      containers asked of it, change no stack entry; the second one is live. */
  lemma RenestingDetaches(opts: Options, enc: Encoder, c: KeyedContainer, key: CodingKey, key2: CodingKey, s: Scalar)
    requires DictAt(enc.storage, c.handle).Some?
    ensures var (e1, n1) := NestedContainer(opts, enc, c, key);
      var (e2, n2) := NestedContainer(opts, e1, c, key);
      && DictAt(e1.storage, n1.handle).Some?
      && DictAt(e2.storage, n1.handle).None?
      && DictAt(e2.storage, n2.handle) == Some(NewDictionary(n2.handle.id))
      && KeyedEncode(opts, e2, n1, key2, s).storage.containers == e2.storage.containers
      && NestedContainer(opts, e2, n1, key2).0.storage.containers == e2.storage.containers
  {
  }

  /** The same when a plain value is written under the nested container's key. */
  lemma OverwriteDetaches(opts: Options, enc: Encoder, c: KeyedContainer, key: CodingKey, s: Scalar, key2: CodingKey, s2: Scalar)
    requires DictAt(enc.storage, c.handle).Some?
    requires !RoutesToAttributes(opts, NestedContainer(opts, enc, c, key).0, key)
    ensures var (e1, n1) := NestedContainer(opts, enc, c, key);
      var e2 := KeyedEncode(opts, e1, c, key, s);
      && DictAt(e1.storage, n1.handle).Some?
      && DictAt(e2.storage, n1.handle).None?
      && KeyedEncode(opts, e2, n1, key2, s2).storage.containers == e2.storage.containers
  {
    var (e1, n1) := NestedContainer(opts, enc, c, key);
    var e2 := KeyedEncode(opts, e1, c, key, s);
    var name := Name(opts, c, key);
    ResolveAppend(e2.storage.containers[c.handle.level], c.handle.path, AtKey(name));
    assert Resolve(e2.storage.containers[c.handle.level], n1.handle.path) == Some(MutableLeaf(s));
  }

  // ---------------------------------------------------------------------------
  // End to end

  /** A one-field record encoded at the top level: without routing the field is an
      entry of the dictionary, with routing it is an entry of the reserved attributes
      dictionary, and the element tree built from it carries it as an attribute with no
      child element. */
  lemma OneFieldRecord(opts: Options, key: CodingKey, s: Scalar, rootKey: string, ds: Describers)
    requires opts.keyEncoding.UseDefaultKeys? && key.stringValue != AttributesKey
    ensures var routed := RoutesToAttributes(opts, Encoder(PushKeyedContainer(Fresh.storage), []), key);
      var v := RecordValue([Field(key, Primitive(s))]);
      && (!routed ==> EncodeValue(opts, v) == Success(Dictionary(map[key.stringValue := Leaf(s)])))
      && (routed ==> EncodeValue(opts, v) == Success(Dictionary(map[AttributesKey := Dictionary(map[key.stringValue := Leaf(s)])])))
      && (routed ==>
            CreateRootElement(rootKey, EncodeValue(opts, v).value, ds)
              == Success(Element(rootKey, None, map[key.stringValue := ds.container(Leaf(s))], map[])))
  {
    var v := RecordValue([Field(key, Primitive(s))]);
    var e0 := Encoder(PushKeyedContainer(Fresh.storage), []);
    var c := KeyedContainer([], TopHandle(e0.storage));
    var name := key.stringValue;
    assert Name(opts, c, key) == name;
    var e1 := KeyedEncode(opts, e0, c, key, s);
    assert EncodeFields([Field(key, Primitive(s))], opts, e0, c) == Success(e1);
    assert EncodeRecord([Field(key, Primitive(s))], opts, Fresh) == Success(e1);
    var top := e1.storage.containers[0];
    assert Box_(opts, Fresh, v) == Success((Encoder(Storage([], e1.storage.nextId), []), Some(top)));
    if RoutesToAttributes(opts, e0, key) {
      var inner := MutableContainerDictionary(1, map[name := MutableLeaf(s)]);
      assert top == MutableDictionary(MutableContainerDictionary(0, map[AttributesKey := MutableDictionary(inner)]));
      OneEntrySnapshot(AttributesKey, MutableDictionary(inner), 0);
      OneEntrySnapshot(name, MutableLeaf(s), 1);
      var c0 := Dictionary(map[AttributesKey := Dictionary(map[name := Leaf(s)])]);
      assert ChildrenOf(c0, ds) == map[];
      assert AttributesOf(c0.entries, ds) == map[name := ds.container(Leaf(s))];
    } else {
      assert top == MutableDictionary(MutableContainerDictionary(0, map[name := MutableLeaf(s)]));
      OneEntrySnapshot(name, MutableLeaf(s), 0);
    }
  }

  /** The snapshot of a dictionary with one entry. */
  lemma OneEntrySnapshot(k: string, m: MutableContainer, id: nat)
    ensures AsContainer(MutableDictionary(MutableContainerDictionary(id, map[k := m]))) == Dictionary(map[k := AsContainer(m)])
  {
    var d := MutableContainerDictionary(id, map[k := m]);
    assert SnapshotEntry(d, k) == AsContainer(m);
  }
}

=== FILE: encoding_storage.dfy ===
/** The encoder's value trees and container stack (Sources/XMLCoding/Encoder/XMLEncodingStorage.swift).
    `Container` is the finished snapshot; `MutableContainer` is the tree under construction,
    whose dictionaries and arrays the Swift code shares by reference. Here the build tree
    is an immutable value too: each dictionary and array carries an `id` standing for its
    object identity, and an open container is addressed by its position in the stack, a
    path inside that entry and the identity it expects to find there (see `Handle`). */
module EncodingStorage {
  import opened Wrappers
  import opened Primitives

  /** The scalar payloads common to both trees. */
  datatype Scalar =
    | Boolean(b: bool)
    | Str(s: string)
    | Int64Value(i: Int64)
    | UInt64Value(u: UInt64)
    | Double(d: F64)

  /** `Container`: the finished value tree. */
  datatype Container =
    | Dictionary(entries: map<string, Container>)
    | Array(items: seq<Container>)
    | Leaf(scalar: Scalar)
    | Null

  /** `MutableContainer`: the value tree under construction. */
  datatype MutableContainer =
    | MutableDictionary(dict: MutableContainerDictionary)
    | MutableArray(list: MutableContainerArray)
    | MutableLeaf(scalar: Scalar)
    | MutableNull

  /** `MutableContainerDictionary`; `id` is the object's identity. */
  datatype MutableContainerDictionary = MutableContainerDictionary(id: nat, values: map<string, MutableContainer>)

  /** `MutableContainerArray`; `id` is the object's identity. */
  datatype MutableContainerArray = MutableContainerArray(id: nat, values: seq<MutableContainer>)

  /** `MutableContainerDictionary()`: a new, empty dictionary with the given identity. */
  function NewDictionary(id: nat): MutableContainerDictionary {
    MutableContainerDictionary(id, map[])
  }

  /** `MutableContainerArray()`: a new, empty array with the given identity. */
  function NewArray(id: nat): MutableContainerArray {
    MutableContainerArray(id, [])
  }

  // ---------------------------------------------------------------------------
  // MutableContainerDictionary

  /** Subscript read. */
  function Get(d: MutableContainerDictionary, key: string): (r: Option<MutableContainer>)
    ensures r.Some? <==> key in d.values
    ensures r.Some? ==> r.value == d.values[key]
  {
    if key in d.values then Some(d.values[key]) else None
  }

  /** Subscript write; assigning `nil` removes the key. The written key reads back the
      new value, every other key reads as before, and the object stays the same. */
  function Set(d: MutableContainerDictionary, key: string, v: Option<MutableContainer>): (r: MutableContainerDictionary)
    ensures Get(r, key) == v
    ensures forall k | k != key :: Get(r, k) == Get(d, k)
    ensures r.id == d.id
  {
    match v
    case Some(x) => d.(values := d.values[key := x])
    case None => d.(values := d.values - {key})
  }

  /** Writing the same key twice keeps only the second value. */
  lemma SetTwiceLastWins(d: MutableContainerDictionary, key: string, a: Option<MutableContainer>, b: Option<MutableContainer>)
    ensures Set(Set(d, key, a), key, b) == Set(d, key, b)
  {
    var l := Set(Set(d, key, a), key, b);
    var r := Set(d, key, b);
    forall k ensures Get(l, k) == Get(r, k) {
    }
    DictionaryExtensionality(l, r);
  }

  /** Two dictionaries with one identity that read the same at every key are equal. */
  lemma DictionaryExtensionality(a: MutableContainerDictionary, b: MutableContainerDictionary)
    requires a.id == b.id
    requires forall k :: Get(a, k) == Get(b, k)
    ensures a == b
  {
    forall k ensures k in a.values <==> k in b.values {
      assert Get(a, k).Some? <==> Get(b, k).Some?;
    }
    forall k | k in a.values ensures a.values[k] == b.values[k] {
      assert Get(a, k) == Get(b, k);
    }
  }

  // ---------------------------------------------------------------------------
  // MutableContainerArray

  /** Subscript read; an out-of-range index traps in Swift. */
  function At(a: MutableContainerArray, index: nat): (r: MutableContainer)
    requires index < |a.values|
    ensures r in a.values
  {
    a.values[index]
  }

  /** `append`: one more element, placed at the old count; earlier elements unchanged. */
  function Append(a: MutableContainerArray, v: MutableContainer): (r: MutableContainerArray)
    ensures |r.values| == |a.values| + 1
    ensures r.values[|a.values|] == v
    ensures r.values[..|a.values|] == a.values
    ensures r.id == a.id
  {
    a.(values := a.values + [v])
  }

  /** `insert(_:at:)`; an index beyond the count traps in Swift. The new element is at
      `index`, earlier ones stay, later ones move up by one. */
  function Insert(a: MutableContainerArray, v: MutableContainer, index: nat): (r: MutableContainerArray)
    requires index <= |a.values|
    ensures |r.values| == |a.values| + 1
    ensures r.values[index] == v
    ensures r.values[..index] == a.values[..index]
    ensures r.values[index + 1..] == a.values[index..]
    ensures r.id == a.id
  {
    a.(values := a.values[..index] + [v] + a.values[index..])
  }

  /** Reading back what was written: the appended element is at the old count, the
      inserted one at its index, earlier elements keep their index and later ones move
      up by one. */
  lemma ReadAfterWrite(a: MutableContainerArray, v: MutableContainer, index: nat)
    requires index <= |a.values|
    ensures At(Append(a, v), |a.values|) == v
    ensures forall j | 0 <= j < |a.values| :: At(Append(a, v), j) == At(a, j)
    ensures At(Insert(a, v, index), index) == v
    ensures forall j | 0 <= j < index :: At(Insert(a, v, index), j) == At(a, j)
    ensures forall j | index < j <= |a.values| :: At(Insert(a, v, index), j) == At(a, j - 1)
  {
  }

  /** Inserting at the count is appending. */
  lemma InsertAtEndIsAppend(a: MutableContainerArray, v: MutableContainer)
    ensures Insert(a, v, |a.values|) == Append(a, v)
  {
    assert a.values[..|a.values|] == a.values;
  }

  // ---------------------------------------------------------------------------
  // Snapshot

  /** `asContainer()`: the finished copy of a tree under construction. Scalars and null
      keep their case and payload, an array keeps its length, a dictionary its key set. */
  function AsContainer(m: MutableContainer): (c: Container)
    ensures m.MutableLeaf? <==> c.Leaf?
    ensures m.MutableLeaf? ==> c.scalar == m.scalar
    ensures m.MutableNull? <==> c.Null?
    ensures m.MutableArray? <==> c.Array?
    ensures m.MutableArray? ==> |c.items| == |m.list.values|
    ensures m.MutableDictionary? <==> c.Dictionary?
    ensures m.MutableDictionary? ==> c.entries.Keys == m.dict.values.Keys
  {
    match m
    case MutableDictionary(d) => DictionaryAsContainer(d)
    case MutableArray(a) => ArrayAsContainer(a)
    case MutableLeaf(s) => Leaf(s)
    case MutableNull => Null
  }

  /** `MutableContainerDictionary.asContainer()`: each value snapshotted under its key. */
  function DictionaryAsContainer(d: MutableContainerDictionary): (c: Container)
    ensures c.Dictionary? && c.entries.Keys == d.values.Keys
    decreases MutableDictionary(d), 1
  {
    Dictionary(map k | k in d.values :: SnapshotEntry(d, k))
  }

  function SnapshotEntry(d: MutableContainerDictionary, k: string): Container
    requires k in d.values
    decreases MutableDictionary(d), 0
  {
    assert d.values[k] in d.values.Values;
    AsContainer(d.values[k])
  }

  /** `MutableContainerArray.asContainer()`: each element snapshotted, in order. */
  function ArrayAsContainer(a: MutableContainerArray): (c: Container)
    ensures c.Array? && |c.items| == |a.values|
    decreases MutableArray(a), 1
  {
    Array(SnapshotItems(a, 0))
  }

  function SnapshotItems(a: MutableContainerArray, from: nat): (r: seq<Container>)
    requires from <= |a.values|
    ensures |r| == |a.values| - from
    decreases MutableArray(a), 0, |a.values| - from
  {
    if from == |a.values| then []
    else [AsContainer(a.values[from])] + SnapshotItems(a, from + 1)
  }

  /** A fresh build tree holding the same content as a finished one, every container
      with identity 0: the inverse of the snapshot up to identities. */
  function Thaw(c: Container): (m: MutableContainer)
    ensures c.Leaf? <==> m.MutableLeaf?
    ensures c.Null? <==> m.MutableNull?
    ensures c.Array? ==> m.MutableArray? && |m.list.values| == |c.items|
    ensures c.Dictionary? ==> m.MutableDictionary? && m.dict.values.Keys == c.entries.Keys
  {
    match c
    case Dictionary(e) => MutableDictionary(MutableContainerDictionary(0, map k | k in e :: ThawEntry(e, k)))
    case Array(items) => MutableArray(MutableContainerArray(0, ThawItems(c, 0)))
    case Leaf(s) => MutableLeaf(s)
    case Null => MutableNull
  }

  function ThawEntry(e: map<string, Container>, k: string): MutableContainer
    requires k in e
    decreases Dictionary(e), 1
  {
    assert e[k] in e.Values;
    Thaw(e[k])
  }

  function ThawItems(c: Container, from: nat): (r: seq<MutableContainer>)
    requires c.Array? && from <= |c.items|
    ensures |r| == |c.items| - from
    decreases c, 1, |c.items| - from
  {
    if from == |c.items| then []
    else
      assert c.items[from] in c.items;
      [Thaw(c.items[from])] + ThawItems(c, from + 1)
  }

  /** The build tree with every identity replaced by 0: all a snapshot keeps. */
  function Anonymous(m: MutableContainer): (r: MutableContainer)
    ensures m.MutableLeaf? || m.MutableNull? ==> r == m
    decreases m, 2
  {
    match m
    case MutableDictionary(d) =>
      MutableDictionary(MutableContainerDictionary(0, map k | k in d.values :: AnonymousEntry(d, k)))
    case MutableArray(a) => MutableArray(MutableContainerArray(0, AnonymousItems(a, 0)))
    case MutableLeaf(_) => m
    case MutableNull => m
  }

  function AnonymousEntry(d: MutableContainerDictionary, k: string): MutableContainer
    requires k in d.values
    decreases MutableDictionary(d), 1
  {
    assert d.values[k] in d.values.Values;
    Anonymous(d.values[k])
  }

  function AnonymousItems(a: MutableContainerArray, from: nat): (r: seq<MutableContainer>)
    requires from <= |a.values|
    ensures |r| == |a.values| - from
    decreases MutableArray(a), 1, |a.values| - from
  {
    if from == |a.values| then []
    else [Anonymous(a.values[from])] + AnonymousItems(a, from + 1)
  }

  /** The snapshot loses nothing but identities: thawing a snapshot gives the build
      tree back with its identities cleared ... */
  lemma {:induction false} ThawAsContainer(m: MutableContainer)
    ensures Thaw(AsContainer(m)) == Anonymous(m)
    decreases m, 2
  {
    match m
    case MutableDictionary(d) =>
      assert AsContainer(m) == DictionaryAsContainer(d);
      var e := AsContainer(m).entries;
      forall k | k in d.values ensures ThawEntry(e, k) == AnonymousEntry(d, k) {
        assert d.values[k] in d.values.Values;
        assert e[k] == SnapshotEntry(d, k) == AsContainer(d.values[k]);
        ThawAsContainer(d.values[k]);
      }
      assert Thaw(AsContainer(m)).dict.values == Anonymous(m).dict.values;
    case MutableArray(a) =>
      ThawSnapshotItems(a, 0);
    case MutableLeaf(_) =>
    case MutableNull =>
  }

  lemma {:induction false} ThawSnapshotItems(a: MutableContainerArray, from: nat)
    requires from <= |a.values|
    ensures ThawItems(ArrayAsContainer(a), from) == AnonymousItems(a, from)
    decreases MutableArray(a), 1, |a.values| - from
  {
    if from < |a.values| {
      SnapshotItemsAt(a, from);
      assert a.values[from] in a.values;
      ThawAsContainer(a.values[from]);
      ThawSnapshotItems(a, from + 1);
    }
  }

  /** Element `i` of an array snapshot is the snapshot of element `i`. */
  lemma {:induction false} SnapshotItemsAt(a: MutableContainerArray, from: nat)
    requires from < |a.values|
    ensures ArrayAsContainer(a).items[from] == AsContainer(a.values[from])
  {
    SnapshotItemsIndex(a, 0, from);
  }

  lemma {:induction false} SnapshotItemsIndex(a: MutableContainerArray, from: nat, i: nat)
    requires from <= i < |a.values|
    ensures SnapshotItems(a, from)[i - from] == AsContainer(a.values[i])
    decreases i - from
  {
    if from < i {
      SnapshotItemsIndex(a, from + 1, i);
    }
  }

  /** ... and snapshotting a thawed tree gives the finished tree back. */
  lemma {:induction false} AsContainerThaw(c: Container)
    ensures AsContainer(Thaw(c)) == c
    decreases c, 0
  {
    match c
    case Dictionary(e) =>
      var d := Thaw(c).dict;
      forall k | k in e ensures SnapshotEntry(d, k) == e[k] {
        assert e[k] in e.Values;
        assert d.values[k] == ThawEntry(e, k) == Thaw(e[k]);
        AsContainerThaw(e[k]);
      }
      assert AsContainer(Thaw(c)).entries == e;
    case Array(items) =>
      var a := Thaw(c).list;
      forall i | 0 <= i < |items| ensures AsContainer(Thaw(c)).items[i] == items[i] {
        SnapshotItemsAt(a, i);
        ThawItemsAt(c, i);
        assert items[i] in items;
        AsContainerThaw(items[i]);
      }
    case Leaf(_) =>
    case Null =>
  }

  lemma {:induction false} ThawItemsAt(c: Container, i: nat)
    requires c.Array? && i < |c.items|
    ensures ThawItems(c, 0)[i] == Thaw(c.items[i])
  {
    ThawItemsIndex(c, 0, i);
  }

  lemma {:induction false} ThawItemsIndex(c: Container, from: nat, i: nat)
    requires c.Array? && from <= i < |c.items|
    ensures ThawItems(c, from)[i - from] == Thaw(c.items[i])
    decreases i - from
  {
    if from < i {
      ThawItemsIndex(c, from + 1, i);
    }
  }

  // ---------------------------------------------------------------------------
  // _XMLEncodingStorage

  /** The container stack, bottom first. `nextId` is the identity the next new
      dictionary or array receives; it only grows, so a new container is never
      mistaken for one made earlier. */
  datatype Storage = Storage(containers: seq<MutableContainer>, nextId: nat)

  /** `count`: the depth of the stack, zero exactly when it is empty. */
  function Count(s: Storage): (r: nat)
    ensures r == 0 <==> s.containers == []
  {
    |s.containers|
  }

  /** `pushKeyedContainer()`: one more entry, a new empty dictionary, on top; the
      entries below are unchanged. The Swift method also returns the new dictionary;
      here that reference is the top position and the new identity. */
  function PushKeyedContainer(s: Storage): (r: Storage)
    ensures Count(r) == Count(s) + 1
    ensures r.containers[..Count(s)] == s.containers
    ensures r.containers[Count(s)] == MutableDictionary(NewDictionary(s.nextId))
    ensures r.nextId > s.nextId
  {
    Storage(s.containers + [MutableDictionary(NewDictionary(s.nextId))], s.nextId + 1)
  }

  /** `pushUnkeyedContainer()`: one more entry, a new empty array, on top. */
  function PushUnkeyedContainer(s: Storage): (r: Storage)
    ensures Count(r) == Count(s) + 1
    ensures r.containers[..Count(s)] == s.containers
    ensures r.containers[Count(s)] == MutableArray(NewArray(s.nextId))
    ensures r.nextId > s.nextId
  {
    Storage(s.containers + [MutableArray(NewArray(s.nextId))], s.nextId + 1)
  }

  /** The stack after one identity has been handed out for a new container. */
  function Allocate(s: Storage): (r: Storage)
    ensures r.containers == s.containers && r.nextId > s.nextId
  {
    s.(nextId := s.nextId + 1)
  }

  /** `push(container:)`: exactly the given value on top. */
  function Push(s: Storage, c: MutableContainer): (r: Storage)
    ensures Count(r) == Count(s) + 1
    ensures r.containers[..Count(s)] == s.containers
    ensures r.containers[Count(s)] == c
    ensures r.nextId == s.nextId
  {
    Storage(s.containers + [c], s.nextId)
  }

  /** `pushNull()`. */
  function PushNull(s: Storage): (r: Storage)
    ensures Count(r) == Count(s) + 1
    ensures r.containers[..Count(s)] == s.containers
    ensures r.containers[Count(s)] == MutableNull
    ensures r.nextId == s.nextId
  {
    Storage(s.containers + [MutableNull], s.nextId)
  }

  /** `popContainer()`; popping an empty stack is a precondition failure. Returns the top
      and the stack below it. */
  function PopContainer(s: Storage): (r: (Storage, MutableContainer))
    requires Count(s) > 0
    ensures Count(r.0) == Count(s) - 1
    ensures r.0.containers + [r.1] == s.containers
    ensures r.0.nextId == s.nextId
  {
    (Storage(s.containers[..Count(s) - 1], s.nextId), s.containers[Count(s) - 1])
  }

  /** Popping right after a push gives back the pushed value and the earlier stack. */
  lemma PushThenPop(s: Storage, c: MutableContainer)
    ensures PopContainer(Push(s, c)) == (s, c)
  {
  }

  /** Pushing back what was popped restores the stack. */
  lemma PopThenPush(s: Storage)
    requires Count(s) > 0
    ensures Push(PopContainer(s).0, PopContainer(s).1) == s
  {
  }

  // ---------------------------------------------------------------------------
  // Positions inside the stack

  /** One step from a container to one of its children. */
  datatype Step = AtKey(key: string) | AtIndex(index: nat)

  /** Where an open container lives: the stack entry that holds it, the path of keys
      and indices from that entry down to it, and its identity. The Swift encoder holds
      a reference instead; the reference reaches the stack only while the object it
      designates is still at that place. */
  datatype Handle = Handle(level: nat, path: seq<Step>, id: nat)

  /** The identity of a dictionary or an array. */
  function IdOf(m: MutableContainer): (r: Option<nat>)
    ensures r.Some? <==> m.MutableDictionary? || m.MutableArray?
  {
    match m
    case MutableDictionary(d) => Some(d.id)
    case MutableArray(a) => Some(a.id)
    case _ => None
  }

  /** The node a path leads to, if it exists. */
  function Resolve(m: MutableContainer, path: seq<Step>): (r: Option<MutableContainer>)
    ensures path == [] ==> r == Some(m)
    decreases path
  {
    if path == [] then Some(m)
    else
      match (m, path[0])
      case (MutableDictionary(d), AtKey(k)) =>
        if k in d.values then Resolve(d.values[k], path[1..]) else None
      case (MutableArray(a), AtIndex(i)) =>
        if i < |a.values| then Resolve(a.values[i], path[1..]) else None
      case _ => None
  }

  /** The tree with the node at `path` replaced by `v`; `None` when the path leads
      nowhere. */
  function ReplaceAt(m: MutableContainer, path: seq<Step>, v: MutableContainer): (r: Option<MutableContainer>)
    ensures r.Some? <==> Resolve(m, path).Some?
    ensures r.Some? ==> Resolve(r.value, path) == Some(v)
    decreases path
  {
    if path == [] then Some(v)
    else
      match (m, path[0])
      case (MutableDictionary(d), AtKey(k)) =>
        if k in d.values then
          match ReplaceAt(d.values[k], path[1..], v)
          case Some(x) => Some(MutableDictionary(d.(values := d.values[k := x])))
          case None => None
        else None
      case (MutableArray(a), AtIndex(i)) =>
        if i < |a.values| then
          match ReplaceAt(a.values[i], path[1..], v)
          case Some(x) => Some(MutableArray(a.(values := a.values[i := x])))
          case None => None
        else None
      case _ => None
  }

  /** Replacing a node by itself changes nothing. */
  lemma {:induction false} ReplaceWithSelf(m: MutableContainer, path: seq<Step>)
    requires Resolve(m, path).Some?
    ensures ReplaceAt(m, path, Resolve(m, path).value) == Some(m)
    decreases path
  {
    if path != [] {
      match (m, path[0])
      case (MutableDictionary(d), AtKey(k)) =>
        ReplaceWithSelf(d.values[k], path[1..]);
        assert d.values[k := d.values[k]] == d.values;
      case (MutableArray(a), AtIndex(i)) =>
        ReplaceWithSelf(a.values[i], path[1..]);
        assert a.values[i := a.values[i]] == a.values;
    }
  }

  /** The container a handle designates: found only while the object at the handle's
      place is still the one with the handle's identity. */
  function ResolveHandle(s: Storage, h: Handle): (r: Option<MutableContainer>)
    ensures r.Some? <==> h.level < Count(s) && Resolve(s.containers[h.level], h.path).Some?
                         && IdOf(Resolve(s.containers[h.level], h.path).value) == Some(h.id)
    ensures r.Some? ==> r == Resolve(s.containers[h.level], h.path)
  {
    if h.level < Count(s) then
      match Resolve(s.containers[h.level], h.path)
      case Some(m) => if IdOf(m) == Some(h.id) then Some(m) else None
      case None => None
    else None
  }

  /** The stack with the container a handle designates replaced. A handle whose object
      is no longer in the stack writes into a container nobody can reach, so the stack
      is unchanged. */
  function ReplaceHandle(s: Storage, h: Handle, v: MutableContainer): (r: Storage)
    ensures Count(r) == Count(s) && r.nextId == s.nextId
    ensures ResolveHandle(s, h).Some? ==> Resolve(r.containers[h.level], h.path) == Some(v)
    ensures ResolveHandle(s, h).Some? && IdOf(v) == Some(h.id) ==> ResolveHandle(r, h) == Some(v)
    ensures ResolveHandle(s, h).None? ==> r == s
    ensures forall i | 0 <= i < Count(s) && i != h.level :: r.containers[i] == s.containers[i]
  {
    if ResolveHandle(s, h).Some? then
      Storage(s.containers[h.level := ReplaceAt(s.containers[h.level], h.path, v).value], s.nextId)
    else s
  }

  /** A path one step longer resolves through the node the shorter one reaches. */
  lemma {:induction false} ResolveAppend(m: MutableContainer, path: seq<Step>, st: Step)
    ensures Resolve(m, path + [st]) ==
      (if Resolve(m, path).Some? then Resolve(Resolve(m, path).value, [st]) else None)
    decreases path
  {
    if path != [] {
      var p := path + [st];
      assert p[0] == path[0] && p[1..] == path[1..] + [st];
      match (m, path[0])
      case (MutableDictionary(d), AtKey(k)) =>
        if k in d.values { ResolveAppend(d.values[k], path[1..], st); }
      case (MutableArray(a), AtIndex(i)) =>
        if i < |a.values| { ResolveAppend(a.values[i], path[1..], st); }
      case _ =>
    }
  }

  // ---------------------------------------------------------------------------
  // Writes through a container reference

  /** The dictionary a handle designates, if it designates one. */
  function DictAt(s: Storage, h: Handle): (r: Option<MutableContainerDictionary>)
    ensures r.Some? ==> ResolveHandle(s, h) == Some(MutableDictionary(r.value)) && r.value.id == h.id
  {
    match ResolveHandle(s, h)
    case Some(MutableDictionary(d)) => Some(d)
    case _ => None
  }

  /** The array a handle designates, if it designates one. */
  function ArrayAt(s: Storage, h: Handle): (r: Option<MutableContainerArray>)
    ensures r.Some? ==> ResolveHandle(s, h) == Some(MutableArray(r.value)) && r.value.id == h.id
  {
    match ResolveHandle(s, h)
    case Some(MutableArray(a)) => Some(a)
    case _ => None
  }

  /** Stack entries other than the one at `level` are the same in both stacks, and no
      identity was handed out. */
  ghost predicate OthersUnchanged(s: Storage, r: Storage, level: nat) {
    && Count(r) == Count(s) && r.nextId == s.nextId
    && forall i | 0 <= i < Count(s) && i != level :: r.containers[i] == s.containers[i]
  }

  /** `container[key] = v` on the dictionary a handle designates: that dictionary reads
      `v` at `key` and as before elsewhere; a detached handle writes where nobody looks. */
  function WriteKey(s: Storage, h: Handle, key: string, v: MutableContainer): (r: Storage)
    ensures OthersUnchanged(s, r, h.level)
    ensures DictAt(s, h).Some? ==> DictAt(r, h) == Some(Set(DictAt(s, h).value, key, Some(v)))
    ensures DictAt(s, h).None? ==> r == s
  {
    match DictAt(s, h)
    case Some(d) => ReplaceHandle(s, h, MutableDictionary(Set(d, key, Some(v))))
    case None => s
  }

  /** `container.append(v)` on the array a handle designates. */
  function AppendItem(s: Storage, h: Handle, v: MutableContainer): (r: Storage)
    ensures OthersUnchanged(s, r, h.level)
    ensures ArrayAt(s, h).Some? ==> ArrayAt(r, h) == Some(Append(ArrayAt(s, h).value, v))
    ensures ArrayAt(s, h).None? ==> r == s
  {
    match ArrayAt(s, h)
    case Some(a) => ReplaceHandle(s, h, MutableArray(Append(a, v)))
    case None => s
  }

  /** After `container[key] = child`, the handle one key further, carrying the child's
      identity, designates `child`. */
  lemma WriteKeyThenResolve(s: Storage, h: Handle, key: string, child: MutableContainer)
    requires DictAt(s, h).Some? && IdOf(child).Some?
    ensures ResolveHandle(WriteKey(s, h, key, child), Handle(h.level, h.path + [AtKey(key)], IdOf(child).value)) == Some(child)
  {
    var r := WriteKey(s, h, key, child);
    ResolveAppend(r.containers[h.level], h.path, AtKey(key));
  }

  /** After `container.append(child)`, the handle at the old count designates `child`. */
  lemma AppendItemThenResolve(s: Storage, h: Handle, child: MutableContainer)
    requires ArrayAt(s, h).Some? && IdOf(child).Some?
    ensures ResolveHandle(AppendItem(s, h, child), Handle(h.level, h.path + [AtIndex(|ArrayAt(s, h).value.values|)], IdOf(child).value)) == Some(child)
  {
    var r := AppendItem(s, h, child);
    ResolveAppend(r.containers[h.level], h.path, AtIndex(|ArrayAt(s, h).value.values|));
  }

  /** Once another object is stored where a handle's container was, the handle is
      detached: it designates nothing, and writes through it change nothing. */
  lemma OverwrittenIsDetached(s: Storage, h: Handle, key: string, first: MutableContainer, second: MutableContainer, k2: string, v: MutableContainer)
    requires DictAt(s, h).Some? && IdOf(first).Some? && IdOf(first) != IdOf(second)
    ensures var h1 := Handle(h.level, h.path + [AtKey(key)], IdOf(first).value);
      var s2 := WriteKey(WriteKey(s, h, key, first), h, key, second);
      && ResolveHandle(WriteKey(s, h, key, first), h1) == Some(first)
      && ResolveHandle(s2, h1).None?
      && WriteKey(s2, h1, k2, v) == s2
      && AppendItem(s2, h1, v) == s2
  {
    var h1 := Handle(h.level, h.path + [AtKey(key)], IdOf(first).value);
    WriteKeyThenResolve(s, h, key, first);
    var s1 := WriteKey(s, h, key, first);
    var s2 := WriteKey(s1, h, key, second);
    ResolveAppend(s2.containers[h.level], h.path, AtKey(key));
  }
}

=== FILE: flat_value.dfy ===
/** The untyped values both `flatten()` implementations produce (`[String: Any]` whose
    leaves are strings, arrays and nested dictionaries), and the rule by which the
    children sharing a tag are merged into one entry. */
module FlatValue {
  import opened Wrappers

  datatype AnyValue =
    | Text(text: string)
    | List(items: seq<AnyValue>)
    | Dict(entries: map<string, AnyValue>)

  /** What one child element contributes to its parent's entry under the child's tag. */
  datatype Contribution =
    /** merged with what is there: stored bare, then paired, then appended */
    | Merge(value: AnyValue)
    /** stored only when the entry is still absent (an empty child in XMLCoding) */
    | IfAbsent(value: AnyValue)
    /** nothing (a nil-marked empty child in the legacy variant) */
    | Skip

  /** One merge: a first value is stored bare, a second one turns the entry into a
      two-element array, later ones are appended to that array. */
  function MergeValue(existing: Option<AnyValue>, v: AnyValue): AnyValue {
    match existing
    case None => v
    case Some(List(xs)) => List(xs + [v])
    case Some(x) => List([x, v])
  }

  function Step(acc: Option<AnyValue>, c: Contribution): (r: Option<AnyValue>)
    ensures acc.Some? ==> r.Some?
  {
    match c
    case Merge(v) => Some(MergeValue(acc, v))
    case IfAbsent(v) => if acc.None? then Some(v) else acc
    case Skip => acc
  }

  /** The entry after all contributions, in order, starting from `acc`. */
  function Fold(acc: Option<AnyValue>, cs: seq<Contribution>): (r: Option<AnyValue>)
    ensures acc.Some? ==> r.Some?
    decreases |cs|
  {
    if |cs| == 0 then acc else Fold(Step(acc, cs[0]), cs[1..])
  }

  /** Contributions that carry a plain (non-array) merged value. */
  ghost predicate AllPlainMerges(cs: seq<Contribution>) {
    forall i | 0 <= i < |cs| :: cs[i].Merge? && !cs[i].value.List?
  }

  function Values(cs: seq<Contribution>): (vs: seq<AnyValue>)
    requires forall i | 0 <= i < |cs| :: cs[i].Merge?
    ensures |vs| == |cs|
    ensures forall i | 0 <= i < |cs| :: vs[i] == cs[i].value
  {
    if |cs| == 0 then [] else [cs[0].value] + Values(cs[1..])
  }

  /** Merging onto an existing array appends every value in order. */
  lemma {:induction false} FoldOntoList(xs: seq<AnyValue>, cs: seq<Contribution>)
    requires forall i | 0 <= i < |cs| :: cs[i].Merge?
    ensures Fold(Some(List(xs)), cs) == Some(List(xs + Values(cs)))
    decreases |cs|
  {
    if |cs| > 0 {
      FoldOntoList(xs + [cs[0].value], cs[1..]);
      assert xs + [cs[0].value] + Values(cs[1..]) == xs + Values(cs);
    } else {
      assert xs + Values(cs) == xs;
    }
  }

  /** Merging onto a bare value makes an array that starts with it. */
  lemma FoldOntoBare(x: AnyValue, cs: seq<Contribution>)
    requires !x.List? && |cs| >= 1
    requires forall i | 0 <= i < |cs| :: cs[i].Merge?
    ensures Fold(Some(x), cs) == Some(List([x] + Values(cs)))
  {
    var v0 := cs[0].value;
    assert MergeValue(Some(x), v0) == List([x, v0]);
    assert Fold(Some(x), cs) == Fold(Some(List([x, v0])), cs[1..]);
    FoldOntoList([x, v0], cs[1..]);
    var rest := Values(cs[1..]);
    assert Values(cs) == [v0] + rest;
    assert [x, v0] + rest == [x] + ([v0] + rest);
  }

  /** With nothing there before, one plain value is stored bare and two or more become
      an array of all of them, in order. */
  lemma FoldFresh(cs: seq<Contribution>)
    requires |cs| >= 1 && AllPlainMerges(cs)
    ensures Fold(None, cs) == Some(if |cs| == 1 then cs[0].value else List(Values(cs)))
  {
    assert Fold(None, cs) == Fold(Some(cs[0].value), cs[1..]);
    if |cs| > 1 {
      FoldOntoBare(cs[0].value, cs[1..]);
      assert [cs[0].value] + Values(cs[1..]) == Values(cs);
    }
  }

  /** Once the entry exists, `IfAbsent` and `Skip` contributions change nothing: the
      result is that of the merged values alone. */
  lemma {:induction false} FoldIgnoresIfAbsentOnceSet(x: AnyValue, cs: seq<Contribution>)
    ensures Fold(Some(x), cs) == Fold(Some(x), OnlyMerges(cs))
    decreases |cs|
  {
    if |cs| > 0 {
      match cs[0]
      case Merge(v) =>
        FoldIgnoresIfAbsentOnceSet(MergeValue(Some(x), v), cs[1..]);
      case IfAbsent(_) =>
        FoldIgnoresIfAbsentOnceSet(x, cs[1..]);
      case Skip =>
        FoldIgnoresIfAbsentOnceSet(x, cs[1..]);
    }
  }

  function OnlyMerges(cs: seq<Contribution>): (r: seq<Contribution>)
    ensures forall i | 0 <= i < |r| :: r[i].Merge?
    ensures |r| <= |cs|
  {
    if |cs| == 0 then []
    else if cs[0].Merge? then [cs[0]] + OnlyMerges(cs[1..])
    else OnlyMerges(cs[1..])
  }

  /** The entry ends up absent exactly when it started absent and every contribution is
      `Skip`. */
  lemma {:induction false} FoldAbsentIff(acc: Option<AnyValue>, cs: seq<Contribution>)
    ensures Fold(acc, cs).None? <==> acc.None? && forall i | 0 <= i < |cs| :: cs[i].Skip?
    decreases |cs|
  {
    if |cs| > 0 {
      FoldAbsentIff(Step(acc, cs[0]), cs[1..]);
      if Fold(acc, cs).None? {
        forall i | 0 <= i < |cs| ensures cs[i].Skip? {
          if i > 0 { assert cs[1..][i - 1] == cs[i]; }
        }
      }
    }
  }

  /** An empty child followed by a text child: the placeholder is kept and paired. */
  lemma IfAbsentThenMerge(v: AnyValue)
    ensures Fold(None, [IfAbsent(Dict(map[])), Merge(v)]) == Some(List([Dict(map[]), v]))
  {
    var cs := [IfAbsent(Dict(map[])), Merge(v)];
    assert Fold(None, cs) == Fold(Some(Dict(map[])), cs[1..]);
    assert Fold(Some(Dict(map[])), cs[1..]) == Fold(Some(List([Dict(map[]), v])), cs[2..]);
  }

  /** A text child followed by an empty child: the empty child leaves the text intact. */
  lemma MergeThenIfAbsent(v: AnyValue)
    ensures Fold(None, [Merge(v), IfAbsent(Dict(map[]))]) == Some(v)
  {
    var cs := [Merge(v), IfAbsent(Dict(map[]))];
    assert Fold(None, cs) == Fold(Some(v), cs[1..]);
    assert Fold(Some(v), cs[1..]) == Fold(Some(v), cs[2..]);
  }

  // ---------------------------------------------------------------------------
  // The flattening loop

  function Lookup(m: map<string, AnyValue>, k: string): (r: Option<AnyValue>)
    ensures r.Some? <==> k in m
    ensures r.Some? ==> r.value == m[k]
  {
    if k in m then Some(m[k]) else None
  }

  /** Two maps that agree on every lookup are equal. */
  lemma MapsAgree(a: map<string, AnyValue>, b: map<string, AnyValue>)
    requires forall k :: Lookup(a, k) == Lookup(b, k)
    ensures a == b
  {
    forall k | k in a ensures k in b && a[k] == b[k] {
      assert Lookup(a, k) == Lookup(b, k);
    }
    forall k | k in b ensures k in a {
      assert Lookup(a, k) == Lookup(b, k);
    }
  }

  /** The loop both `flatten()` implementations run: start from `node` (the attributes)
      and fold each tag's contributions into the entry under that tag, one tag after the
      other in the order given. */
  function FoldGroups(node: map<string, AnyValue>, groups: map<string, seq<Contribution>>, keys: seq<string>)
    : map<string, AnyValue>
    requires forall i | 0 <= i < |keys| :: keys[i] in groups
    decreases |keys|
  {
    if |keys| == 0 then node
    else
      var v := Fold(Lookup(node, keys[0]), groups[keys[0]]);
      FoldGroups(if v.Some? then node[keys[0] := v.value] else node, groups, keys[1..])
  }

  /** The entry under `k` once the tags in `done` have been folded in. */
  function SettledEntry(node: map<string, AnyValue>, groups: map<string, seq<Contribution>>, done: set<string>, k: string)
    : Option<AnyValue>
  {
    if k in done && k in groups then Fold(Lookup(node, k), groups[k]) else Lookup(node, k)
  }

  /** Each tag is folded in exactly once and only touches its own entry, so the loop's
      result holds, under every tag, the fold of that tag's contributions onto the
      starting entry, whatever the order of the tags. */
  lemma {:induction false} FoldGroupsSettles(node: map<string, AnyValue>, groups: map<string, seq<Contribution>>, keys: seq<string>)
    requires forall i | 0 <= i < |keys| :: keys[i] in groups
    requires forall i, j | 0 <= i < j < |keys| :: keys[i] != keys[j]
    ensures forall k :: Lookup(FoldGroups(node, groups, keys), k) == SettledEntry(node, groups, set i | 0 <= i < |keys| :: keys[i], k)
    decreases |keys|
  {
    if |keys| > 0 {
      var k0 := keys[0];
      var v := Fold(Lookup(node, k0), groups[k0]);
      var node' := if v.Some? then node[k0 := v.value] else node;
      var rest := keys[1..];
      FoldGroupsSettles(node', groups, rest);
      var all := set i | 0 <= i < |keys| :: keys[i];
      var done' := set i | 0 <= i < |rest| :: rest[i];
      assert k0 !in done' by {
        forall i | 0 <= i < |rest| ensures rest[i] != k0 { assert rest[i] == keys[i + 1]; }
      }
      assert all == done' + {k0} by {
        forall x | x in all ensures x == k0 || x in done' {
          var i :| 0 <= i < |keys| && keys[i] == x;
          if i > 0 { assert rest[i - 1] == x; }
        }
        forall x | x in done' ensures x in all {
          var i :| 0 <= i < |rest| && rest[i] == x;
          assert keys[i + 1] == x;
        }
      }
      forall k ensures Lookup(FoldGroups(node, groups, keys), k) == SettledEntry(node, groups, all, k) {
        assert Lookup(FoldGroups(node, groups, keys), k) == SettledEntry(node', groups, done', k);
        if k == k0 {
          assert Lookup(node', k0) == v;
        } else {
          assert Lookup(node', k) == Lookup(node, k);
        }
      }
    }
  }

  /** The loop over every tag, each once, in any order. */
  lemma FoldAllGroups(node: map<string, AnyValue>, groups: map<string, seq<Contribution>>, keys: seq<string>)
    requires forall i, j | 0 <= i < j < |keys| :: keys[i] != keys[j]
    requires forall k :: k in keys <==> k in groups
    ensures forall k :: Lookup(FoldGroups(node, groups, keys), k) == SettledEntry(node, groups, groups.Keys, k)
  {
    FoldGroupsSettles(node, groups, keys);
    var all := set i | 0 <= i < |keys| :: keys[i];
    assert all == groups.Keys by {
      forall x | x in groups ensures x in all {
        assert x in keys;
        var i :| 0 <= i < |keys| && keys[i] == x;
      }
    }
  }
}

=== FILE: legacy_parser.dfy ===
/** `_XMLStackParser` of the legacy variant (Sources/XMLParsing/XMLStackParser.swift): the
    `XMLParserDelegate` that rebuilds an ordered element tree from the tokenizer's
    callbacks, keeps the namespace prefixes in scope, and drops the text of elements
    marked `nil="true"` in the XML Schema instance namespace. The tokenizer itself
    (Foundation's `XMLParser`, with namespace processing on) is not modelled: its
    callbacks are the input. */
module LegacyParser {
  import opened Wrappers
  import opened XMLText
  import opened FlatValue
  import opened OrderedDictionary
  import opened LegacyTree

  /** `XmlNamespace.xsi`. */
  const XSI: string := "http://www.w3.org/2001/XMLSchema-instance"

  /** The delegate callbacks the parser reacts to. */
  datatype Event =
    | StartElement(name: string, attributes: map<string, string>)
    | EndElement(name: string)
    | Characters(text: string)
    /** a CDATA block, `None` when its bytes are not valid UTF-8 */
    | CDATA(block: Option<string>)
    | StartMappingPrefix(prefix: string, uri: string)
    | EndMappingPrefix(prefix: string)

  /** The finished root (if any), the stack of open elements (innermost last) and the
      two namespace tables, URI to prefix and prefix to URI. The source's `currentNode`
      is always the stack's last element (or nil when it is empty), so it is not kept
      separately. */
  datatype ParserState = ParserState(
    root: Option<Element>,
    stack: seq<Element>,
    nsPrefix: map<string, string>,
    prefixNs: map<string, string>)

  /** A parser after `parserDidStartDocument`: no root, nothing open, no prefixes. */
  const StartDocument: ParserState := ParserState(None, [], map[], map[])

  /** The qualified attribute name under the prefix bound to `ns`: the prefix, a colon,
      then the local name, which can be read back from the end. */
  function QualifiedName(attr: string, ns: string, nsPrefix: map<string, string>): (r: string)
    requires ns in nsPrefix
    ensures |r| == |nsPrefix[ns]| + 1 + |attr|
    ensures r[..|nsPrefix[ns]|] == nsPrefix[ns] && r[|nsPrefix[ns]|] == ':'
    ensures r[|r| - |attr|..] == attr
  {
    nsPrefix[ns] + ":" + attr
  }

  /** Under one namespace distinct local names give distinct qualified names; and with
      colon-free prefixes, as XML namespaces require, distinct prefixes do too. */
  lemma QualifiedNamesDiffer(a1: string, ns1: string, a2: string, ns2: string, nsPrefix: map<string, string>)
    requires ns1 in nsPrefix && ns2 in nsPrefix
    ensures ns1 == ns2 && a1 != a2 ==> QualifiedName(a1, ns1, nsPrefix) != QualifiedName(a2, ns2, nsPrefix)
    ensures ':' !in nsPrefix[ns1] && ':' !in nsPrefix[ns2] && nsPrefix[ns1] != nsPrefix[ns2]
      ==> QualifiedName(a1, ns1, nsPrefix) != QualifiedName(a2, ns2, nsPrefix)
  {
  }

  /** `popValueOf(attr:ns:from:)`: nothing when no prefix is bound to the namespace;
      otherwise the attribute under that prefix is removed and its value returned,
      whatever the value. */
  function PopValueOf(attr: string, ns: string, nsPrefix: map<string, string>, dict: map<string, string>)
    : (r: (Option<string>, map<string, string>))
    ensures ns !in nsPrefix ==> r == (None, dict)
    ensures r.0.None? <==> ns !in nsPrefix || QualifiedName(attr, ns, nsPrefix) !in dict
    ensures r.0.None? ==> r.1 == dict
    ensures r.0.Some? ==>
      var name := QualifiedName(attr, ns, nsPrefix);
      name !in r.1 && r.1[name := r.0.value] == dict
  {
    if ns !in nsPrefix then (None, dict)
    else
      var name := QualifiedName(attr, ns, nsPrefix);
      if name in dict then (Some(dict[name]), dict - {name}) else (None, dict)
  }

  /** The element carries `nil="true"` under the prefix bound to the schema-instance
      namespace. */
  predicate NilMarked(e: Element, nsPrefix: map<string, string>): (r: bool)
    ensures r <==> PopValueOf("nil", XSI, nsPrefix, e.attributes).0 == Some("true")
  {
    && XSI in nsPrefix
    && QualifiedName("nil", XSI, nsPrefix) in e.attributes
    && e.attributes[QualifiedName("nil", XSI, nsPrefix)] == "true"
  }

  /** The text of an element that is not nil-marked when it closes: trimmed of
      whitespace and newlines, and empty rather than absent when no character data
      arrived. */
  function Settle(v: Option<string>): (r: Option<string>)
    ensures r.Some?
    ensures v.Some? ==> r.value == Trim(v.value, WhitespacesAndNewlines)
    ensures v.None? ==> r.value == ""
  {
    match v
    case Some(s) => Some(Trim(s, WhitespacesAndNewlines))
    case None => Some("")
  }

  /** The element as it closes: the nil marker removed, and its text absent exactly when
      the marker said `true`. */
  function Finish(e: Element, nsPrefix: map<string, string>): (r: Element)
    ensures r.key == e.key && r.children == e.children
    ensures r.attributes == PopValueOf("nil", XSI, nsPrefix, e.attributes).1
    ensures r.value.None? <==> NilMarked(e, nsPrefix)
    ensures r.value.Some? ==> r.value == Settle(e.value)
  {
    var (nilAttr, attributes) := PopValueOf("nil", XSI, nsPrefix, e.attributes);
    var value := if nilAttr == Some("true") then None else Settle(e.value);
    e.(attributes := attributes, value := value)
  }

  /** Characters are appended to the open element's text. */
  function AppendText(e: Element, s: string): (r: Element)
    ensures r.value == Some(e.value.GetOr("") + s)
    ensures r.key == e.key && r.attributes == e.attributes && r.children == e.children
  {
    e.(value := Some(e.value.GetOr("") + s))
  }

  function ReplaceTop(stack: seq<Element>, top: Element): (r: seq<Element>)
    requires |stack| > 0
    ensures |r| == |stack| && r[..|r| - 1] == stack[..|stack| - 1] && r[|r| - 1] == top
  {
    stack[..|stack| - 1] + [top]
  }

  /** Where a finished element goes: it becomes the root when no element is open,
      otherwise the last child of its tag in the innermost open one. */
  function Deliver(st: ParserState, x: Element): (r: ParserState)
    ensures r.nsPrefix == st.nsPrefix && r.prefixNs == st.prefixNs
    ensures |st.stack| == 0 ==> r.root == Some(x) && r.stack == []
    ensures |st.stack| > 0 ==>
      var top := st.stack[|st.stack| - 1];
      && r.root == st.root
      && r.stack == ReplaceTop(st.stack, top.(children := Attach(top.children, x)))
  {
    if |st.stack| == 0 then st.(root := Some(x), stack := [])
    else
      var top := st.stack[|st.stack| - 1];
      st.(stack := ReplaceTop(st.stack, top.(children := Attach(top.children, x))))
  }

  /** One callback. An end tag closes the innermost open element whatever its name;
      text outside any element is dropped. */
  function Step(st: ParserState, ev: Event): (r: ParserState)
    ensures ev.StartElement? ==> r.root == st.root && |r.stack| == |st.stack| + 1
    ensures ev.EndElement? && |st.stack| > 0 ==> |r.stack| == |st.stack| - 1
    ensures !ev.StartMappingPrefix? && !ev.EndMappingPrefix? ==>
      r.nsPrefix == st.nsPrefix && r.prefixNs == st.prefixNs
    ensures ev.StartMappingPrefix? || ev.EndMappingPrefix? ==> r.root == st.root && r.stack == st.stack
  {
    match ev
    case StartElement(name, attributes) =>
      st.(stack := st.stack + [Element(name, None, attributes, Empty())])
    case EndElement(_) =>
      if |st.stack| == 0 then st
      else Deliver(st.(stack := st.stack[..|st.stack| - 1]), Finish(st.stack[|st.stack| - 1], st.nsPrefix))
    case Characters(text) =>
      if |st.stack| == 0 then st
      else st.(stack := ReplaceTop(st.stack, AppendText(st.stack[|st.stack| - 1], text)))
    case CDATA(block) =>
      if |st.stack| == 0 || block.None? then st
      else st.(stack := ReplaceTop(st.stack, AppendText(st.stack[|st.stack| - 1], block.value)))
    case StartMappingPrefix(prefix, uri) =>
      st.(prefixNs := st.prefixNs[prefix := uri], nsPrefix := st.nsPrefix[uri := prefix])
    case EndMappingPrefix(prefix) =>
      if prefix in st.prefixNs then
        st.(prefixNs := st.prefixNs - {prefix}, nsPrefix := st.nsPrefix - {st.prefixNs[prefix]})
      else st
  }

  function Run(st: ParserState, evs: seq<Event>): ParserState
    decreases |evs|
  {
    if |evs| == 0 then st else Run(Step(st, evs[0]), evs[1..])
  }

  lemma {:induction false} RunConcat(st: ParserState, a: seq<Event>, b: seq<Event>)
    ensures Run(st, a + b) == Run(Run(st, a), b)
    decreases |a|
  {
    if |a| > 0 {
      assert (a + b)[0] == a[0];
      assert (a + b)[1..] == a[1..] + b;
      RunConcat(Step(st, a[0]), a[1..], b);
    } else {
      assert a + b == b;
    }
  }

  /** The root the callbacks leave behind, when the tokenizer finished. */
  function ParseEvents(evs: seq<Event>): Option<Element> {
    Run(StartDocument, evs).root
  }

  /** How the tokenizer ended: it finished the document, or it stopped with or without
      an error of its own. */
  datatype TokenizerOutcome =
    | Finished(events: seq<Event>)
    | Aborted(error: Option<nat>)

  datatype DecodingError =
    | DataCorrupted(debugDescription: string)
    /** the tokenizer's own error, rethrown */
    | ParserError(code: nat)

  /** The static `parse(with:)`: the flattened root, the tokenizer's error, or a
      data-corrupted error when no root element came out. */
  function Parse(outcome: TokenizerOutcome): (r: Result<map<string, AnyValue>, DecodingError>)
    ensures outcome.Aborted? && outcome.error.Some? ==> r == Failure(ParserError(outcome.error.value))
    ensures r.Success? <==> outcome.Finished? && ParseEvents(outcome.events).Some?
    ensures r.Success? ==> r.value == Flatten(ParseEvents(outcome.events).value)
    ensures outcome.Finished? && ParseEvents(outcome.events).None? ==> r.Failure? && r.error.DataCorrupted?
    ensures outcome.Aborted? && outcome.error.None? ==> r.Failure? && r.error.DataCorrupted?
  {
    match outcome
    case Finished(evs) =>
      (match ParseEvents(evs)
       case Some(root) => Success(Flatten(root))
       case None => Failure(DataCorrupted("The given data could not be parsed into XML.")))
    case Aborted(Some(code)) => Failure(ParserError(code))
    case Aborted(None) => Failure(DataCorrupted("The given data could not be parsed into XML."))
  }

  // ---------------------------------------------------------------------------
  // Namespace prefixes

  /** Declaring a fresh prefix for a fresh namespace and ending it leaves both tables as
      they were. */
  lemma PrefixScopeRestores(st: ParserState, prefix: string, uri: string)
    requires prefix !in st.prefixNs && uri !in st.nsPrefix
    ensures Run(st, [StartMappingPrefix(prefix, uri), EndMappingPrefix(prefix)]) == st
  {
    var evs := [StartMappingPrefix(prefix, uri), EndMappingPrefix(prefix)];
    var st1 := Step(st, evs[0]);
    assert Run(st, evs) == Run(st1, evs[1..]);
    assert Run(st1, evs[1..]) == Run(Step(st1, evs[1]), []);
    assert st1.prefixNs - {prefix} == st.prefixNs;
    assert st1.nsPrefix - {uri} == st.nsPrefix;
  }

  /** The URI table keeps one prefix per namespace: when two prefixes are bound to the
      same namespace and the inner one ends, the namespace loses its prefix although the
      outer one is still declared, and `nil` markers under it are no longer seen. */
  lemma InnerPrefixEndUnbindsNamespace(st: ParserState, outer: string, inner: string, uri: string)
    requires outer != inner
    ensures var st' := Run(st, [StartMappingPrefix(outer, uri), StartMappingPrefix(inner, uri), EndMappingPrefix(inner)]);
      && outer in st'.prefixNs && st'.prefixNs[outer] == uri
      && uri !in st'.nsPrefix
  {
    var evs := [StartMappingPrefix(outer, uri), StartMappingPrefix(inner, uri), EndMappingPrefix(inner)];
    var st1 := Step(st, evs[0]);
    var st2 := Step(st1, evs[1]);
    assert Run(st, evs) == Run(st1, evs[1..]);
    assert Run(st1, evs[1..]) == Run(st2, evs[2..]);
    assert Run(st2, evs[2..]) == Run(Step(st2, evs[2]), []);
  }

  // ---------------------------------------------------------------------------
  // Closing an element

  /** A nil-marked element closes with no text and without the marker; any other element
      closes with text, empty when none arrived. */
  lemma NilMarkedClosesEmpty(e: Element, prefix: string, nsPrefix: map<string, string>)
    requires nsPrefix == map[XSI := prefix]
    requires e.attributes == map[prefix + ":nil" := "true"]
    ensures Finish(e, nsPrefix) == e.(value := None, attributes := map[])
  {
    assert QualifiedName("nil", XSI, nsPrefix) == prefix + ":nil";
  }

  /** Without a schema-instance prefix in scope an element keeps all its attributes, and
      its text is settled. */
  lemma NoNamespaceClosesPlainly(e: Element, nsPrefix: map<string, string>)
    requires XSI !in nsPrefix
    ensures Finish(e, nsPrefix) == e.(value := Settle(e.value))
  {
  }

  /** Text split across several callbacks is the same as text in one. */
  lemma CharactersAccumulate(st: ParserState, a: string, b: string)
    ensures Run(st, [Characters(a), Characters(b)]) == Run(st, [Characters(a + b)])
  {
    var one := [Characters(a + b)];
    var two := [Characters(a), Characters(b)];
    assert Run(st, one) == Run(Step(st, one[0]), []);
    var st1 := Step(st, two[0]);
    assert two[1..] == [Characters(b)];
    assert Run(st, two) == Run(st1, [Characters(b)]);
    assert Run(st1, [Characters(b)]) == Run(Step(st1, Characters(b)), []);
    if |st.stack| > 0 {
      var top := st.stack[|st.stack| - 1];
      var s1 := ReplaceTop(st.stack, AppendText(top, a));
      assert s1[|s1| - 1] == AppendText(top, a);
      assert s1[..|s1| - 1] == st.stack[..|st.stack| - 1];
      assert top.value.GetOr("") + a + b == top.value.GetOr("") + (a + b);
    }
  }

  /** Without any element there is nothing to decode. */
  lemma NoElementIsCorrupt(evs: seq<Event>)
    requires forall i | 0 <= i < |evs| :: !evs[i].StartElement?
    ensures Parse(Finished(evs)).Failure?
  {
    NoStartKeepsEmpty(StartDocument, evs);
  }

  lemma {:induction false} NoStartKeepsEmpty(st: ParserState, evs: seq<Event>)
    requires st.stack == [] && st.root.None?
    requires forall i | 0 <= i < |evs| :: !evs[i].StartElement?
    ensures Run(st, evs).stack == [] && Run(st, evs).root.None?
    decreases |evs|
  {
    if |evs| > 0 {
      NoStartKeepsEmpty(Step(st, evs[0]), evs[1..]);
    }
  }

  // ---------------------------------------------------------------------------
  // Partner: the callbacks of a tree, and the tree they rebuild

  /** Ordered children with no empty group, each carrying its group's tag, at every
      depth, as every tree the parser builds does. */
  ghost predicate Grouped(e: Element)
    decreases e
  {
    && Valid(e.children)
    && (forall k | k in e.children.entries :: |e.children.entries[k].items| > 0)
    && (forall k, i | k in e.children.entries && 0 <= i < |e.children.entries[k].items| ::
          (assert e.children.entries[k] in e.children.entries.Values;
           e.children.entries[k].items[i].key == k && Grouped(e.children.entries[k].items[i])))
  }

  /** The callbacks a tokenizer reports for the document of `e` when no namespace is
      declared: start tag, text, each child group in insertion order, end tag. */
  function Events(e: Element): seq<Event>
    requires Grouped(e)
    decreases e, 2
  {
    Head(e) + GroupEvents(e, e.children.order) + [EndElement(e.key)]
  }

  function GroupEvents(e: Element, keys: seq<string>): seq<Event>
    requires Grouped(e)
    requires forall i | 0 <= i < |keys| :: keys[i] in e.children.entries
    decreases e, 1, |keys|
  {
    if |keys| == 0 then [] else SiblingEvents(e, keys[0], 0) + GroupEvents(e, keys[1..])
  }

  function SiblingEvents(e: Element, k: string, from: nat): seq<Event>
    requires Grouped(e)
    requires k in e.children.entries && from <= |e.children.entries[k].items|
    decreases e, 0, |e.children.entries[k].items| - from
  {
    assert e.children.entries[k] in e.children.entries.Values;
    if from == |e.children.entries[k].items| then []
    else Events(e.children.entries[k].items[from]) + SiblingEvents(e, k, from + 1)
  }

  /** The tree the parser gives back: every text settled (empty when there was none),
      the groups and their order kept. */
  function Normalized(e: Element): (r: Element)
    ensures r.key == e.key && r.value == Settle(e.value) && r.attributes == e.attributes
    ensures r.children.order == e.children.order
    ensures forall k :: k in r.children.entries <==> k in e.children.entries
    decreases e, 2
  {
    Element(e.key, Settle(e.value), e.attributes, OrderedDict(e.children.order, NormalEntries(e)))
  }

  function NormalEntries(e: Element): (m: map<string, Siblings>)
    ensures forall k :: k in m <==> k in e.children.entries
    decreases e, 1
  {
    map k | k in e.children.entries :: Siblings(NormalItems(e, k, 0))
  }

  function NormalItems(e: Element, k: string, from: nat): (r: seq<Element>)
    requires k in e.children.entries && from <= |e.children.entries[k].items|
    ensures |r| == |e.children.entries[k].items| - from
    ensures forall i | 0 <= i < |r| :: r[i] == Normalized(e.children.entries[k].items[from + i])
    decreases e, 0, |e.children.entries[k].items| - from
  {
    assert e.children.entries[k] in e.children.entries.Values;
    if from == |e.children.entries[k].items| then []
    else [Normalized(e.children.entries[k].items[from])] + NormalItems(e, k, from + 1)
  }

  /** The entries of `m` for `keys`. */
  function Restrict(m: map<string, Siblings>, keys: seq<string>): map<string, Siblings> {
    map k | k in keys && k in m :: m[k]
  }

  /** The groups for `keys`, normalized. */
  function GroupMap(e: Element, keys: seq<string>): map<string, Siblings> {
    Restrict(NormalEntries(e), keys)
  }

  lemma {:induction false} RunSiblings(st: ParserState, t: Element, e: Element, k: string, from: nat)
    requires Grouped(e) && XSI !in st.nsPrefix
    requires k in e.children.entries && from <= |e.children.entries[k].items|
    ensures Run(st.(stack := st.stack + [t]), SiblingEvents(e, k, from))
      == st.(stack := st.stack + [t.(children := AttachAll(t.children, NormalItems(e, k, from)))])
    decreases e, 0, |e.children.entries[k].items| - from
  {
    assert e.children.entries[k] in e.children.entries.Values;
    if from < |e.children.entries[k].items| {
      var child := e.children.entries[k].items[from];
      var st1 := st.(stack := st.stack + [t]);
      RunConcat(st1, Events(child), SiblingEvents(e, k, from + 1));
      RunElement(st1, child);
      assert (st.stack + [t])[..|st.stack|] == st.stack;
      var t' := t.(children := Attach(t.children, Normalized(child)));
      assert Deliver(st1, Normalized(child)) == st.(stack := st.stack + [t']);
      RunSiblings(st, t', e, k, from + 1);
      assert NormalItems(e, k, from) == [Normalized(child)] + NormalItems(e, k, from + 1);
    } else {
      assert NormalItems(e, k, from) == [];
    }
  }

  lemma {:induction false} RunGroups(st: ParserState, t: Element, e: Element, keys: seq<string>)
    requires Grouped(e) && XSI !in st.nsPrefix && Valid(t.children)
    requires forall i | 0 <= i < |keys| :: keys[i] in e.children.entries && keys[i] !in t.children.entries
    requires forall i, j | 0 <= i < j < |keys| :: keys[i] != keys[j]
    ensures Run(st.(stack := st.stack + [t]), GroupEvents(e, keys)) == st.(stack := st.stack + [WithGroups(t, e, keys)])
    decreases e, 1, |keys|
  {
    if |keys| == 0 {
      NoGroups(t, e, keys);
    } else {
      var k0 := keys[0];
      var rest := keys[1..];
      RunConcat(st.(stack := st.stack + [t]), SiblingEvents(e, k0, 0), GroupEvents(e, rest));
      var t1 := RunFirstGroup(st, t, e, k0);
      RestOfKeys(t, t1, e, keys);
      RunGroups(st, t1, e, rest);
      GroupsStep(t, t1, e, keys);
    }
  }

  /** `t` with the normalized groups for `keys` appended. */
  function WithGroups(t: Element, e: Element, keys: seq<string>): Element {
    t.(children := OrderedDict(t.children.order + keys, t.children.entries + GroupMap(e, keys)))
  }

  lemma NoGroups(t: Element, e: Element, keys: seq<string>)
    requires keys == []
    ensures WithGroups(t, e, keys) == t
  {
    assert t.children.order + keys == t.children.order;
    assert t.children.entries + GroupMap(e, keys) == t.children.entries;
  }

  /** The children with a tag not yet present add one group at the end of the order. */
  lemma RunFirstGroup(st: ParserState, t: Element, e: Element, k: string) returns (t1: Element)
    requires Grouped(e) && XSI !in st.nsPrefix && Valid(t.children)
    requires k in e.children.entries && k !in t.children.entries
    ensures k in NormalEntries(e)
    ensures t1 == t.(children := OrderedDict(t.children.order + [k], t.children.entries[k := NormalEntries(e)[k]]))
    ensures Valid(t1.children) && t1.children.entries.Keys == t.children.entries.Keys + {k}
    ensures Run(st.(stack := st.stack + [t]), SiblingEvents(e, k, 0)) == st.(stack := st.stack + [t1])
    decreases e, 0, |e.children.entries[k].items| + 1
  {
    RunSiblings(st, t, e, k, 0);
    var xs := NormalItems(e, k, 0);
    SameTagItems(e, k);
    AttachFresh(t.children, k, xs);
    t1 := t.(children := AttachAll(t.children, xs));
  }

  lemma SameTagItems(e: Element, k: string)
    requires Grouped(e) && k in e.children.entries
    ensures var xs := NormalItems(e, k, 0);
      |xs| > 0 && forall i | 0 <= i < |xs| :: xs[i].key == k
  {
    assert e.children.entries[k] in e.children.entries.Values;
  }

  /** Elements of a tag not yet present make one new group at the end. */
  lemma AttachFresh(d: OrderedDict<string, Siblings>, k: string, xs: seq<Element>)
    requires Valid(d) && k !in d.entries
    requires |xs| > 0 && forall i | 0 <= i < |xs| :: xs[i].key == k
    ensures AttachAll(d, xs) == OrderedDict(d.order + [k], d.entries[k := Siblings(xs)])
    ensures Valid(AttachAll(d, xs)) && AttachAll(d, xs).entries.Keys == d.entries.Keys + {k}
  {
    AttachAllSameKey(d, k, xs);
    assert Group(d, k) + xs == xs;
  }

  lemma RestOfKeys(t: Element, t1: Element, e: Element, keys: seq<string>)
    requires |keys| > 0
    requires forall i | 0 <= i < |keys| :: keys[i] in e.children.entries && keys[i] !in t.children.entries
    requires forall i, j | 0 <= i < j < |keys| :: keys[i] != keys[j]
    requires t1.children.entries.Keys == t.children.entries.Keys + {keys[0]}
    ensures forall i | 0 <= i < |keys[1..]| :: keys[1..][i] in e.children.entries && keys[1..][i] !in t1.children.entries
    ensures forall i, j | 0 <= i < j < |keys[1..]| :: keys[1..][i] != keys[1..][j]
  {
    forall i | 0 <= i < |keys[1..]|
      ensures keys[1..][i] in e.children.entries && keys[1..][i] !in t1.children.entries
    {
      assert keys[1..][i] == keys[i + 1];
      assert keys[i + 1] != keys[0];
    }
    forall i, j | 0 <= i < j < |keys[1..]| ensures keys[1..][i] != keys[1..][j] {
      assert keys[1..][i] == keys[i + 1] && keys[1..][j] == keys[j + 1];
    }
  }

  lemma GroupsStep(t: Element, t1: Element, e: Element, keys: seq<string>)
    requires |keys| > 0 && keys[0] in NormalEntries(e)
    requires forall i, j | 0 <= i < j < |keys| :: keys[i] != keys[j]
    requires t1 == t.(children := OrderedDict(t.children.order + [keys[0]], t.children.entries[keys[0] := NormalEntries(e)[keys[0]]]))
    ensures WithGroups(t1, e, keys[1..]) == WithGroups(t, e, keys)
  {
    assert t.children.order + [keys[0]] + keys[1..] == t.children.order + keys;
    RestrictStep(t.children.entries, NormalEntries(e), keys);
  }

  /** Adding the first key's entry, then the rest, is adding them all. */
  lemma RestrictStep(c: map<string, Siblings>, m: map<string, Siblings>, keys: seq<string>)
    requires |keys| > 0 && keys[0] in m
    requires forall i, j | 0 <= i < j < |keys| :: keys[i] != keys[j]
    ensures c[keys[0] := m[keys[0]]] + Restrict(m, keys[1..]) == c + Restrict(m, keys)
  {
    var k0 := keys[0];
    var g1 := Restrict(m, keys[1..]);
    assert k0 !in g1 by {
      forall i | 0 <= i < |keys[1..]| ensures keys[1..][i] != k0 {
        assert keys[1..][i] == keys[i + 1];
      }
    }
    assert Restrict(m, keys) == g1[k0 := m[k0]] by {
      forall k ensures k in keys <==> k == k0 || k in keys[1..] {
        if k in keys && k != k0 {
          var i :| 0 <= i < |keys| && keys[i] == k;
          assert keys[1..][i - 1] == k;
        }
      }
    }
  }

  /** The callbacks of one element, fed to a parser with no schema-instance prefix in
      scope, deliver the element, normalized, where `Deliver` puts it. */
  lemma {:induction false} RunElement(st: ParserState, e: Element)
    requires Grouped(e) && XSI !in st.nsPrefix
    ensures Run(st, Events(e)) == Deliver(st, Normalized(e))
    decreases e, 2
  {
    var head := Head(e);
    var groups := GroupEvents(e, e.children.order);
    var close := [EndElement(e.key)];
    RunConcat(st, head + groups, close);
    RunConcat(st, head, groups);
    RunHead(st, e);
    var e1 := Element(e.key, e.value, e.attributes, Empty());
    RunGroups(st, e1, e, e.children.order);
    var e2 := AllGroups(e, e1, st.nsPrefix);
    RunClose(st, e2);
  }

  /** The start tag and the text. */
  function Head(e: Element): (r: seq<Event>)
    ensures |r| >= 1 && r[0] == StartElement(e.key, e.attributes)
  {
    [StartElement(e.key, e.attributes)] + (if e.value.Some? then [Characters(e.value.value)] else [])
  }

  /** All groups added to the opened element give the normalized children. */
  lemma AllGroups(e: Element, e1: Element, nsPrefix: map<string, string>) returns (e2: Element)
    requires Valid(e.children) && XSI !in nsPrefix
    requires e1 == Element(e.key, e.value, e.attributes, Empty())
    ensures e2 == WithGroups(e1, e, e.children.order)
    ensures Finish(e2, nsPrefix) == Normalized(e)
  {
    var keys := e.children.order;
    assert [] + keys == keys;
    assert map[] + GroupMap(e, keys) == NormalEntries(e);
    e2 := e.(children := OrderedDict(keys, NormalEntries(e)));
  }

  /** The start tag and the text open the element with its attributes and raw text. */
  lemma RunHead(st: ParserState, e: Element)
    ensures Run(st, Head(e)) == st.(stack := st.stack + [Element(e.key, e.value, e.attributes, Empty())])
  {
    var open := [StartElement(e.key, e.attributes)];
    var text := if e.value.Some? then [Characters(e.value.value)] else [];
    RunConcat(st, open, text);
    var e0 := Element(e.key, None, e.attributes, Empty());
    var st1 := st.(stack := st.stack + [e0]);
    assert Run(st, open) == Run(st1, []);
    if e.value.Some? {
      assert (st.stack + [e0])[..|st.stack|] == st.stack;
      assert "" + e.value.value == e.value.value;
      assert Run(st1, text) == Run(Step(st1, text[0]), []);
    }
  }

  /** The end tag closes the open element and delivers it. */
  lemma RunClose(st: ParserState, top: Element)
    ensures Run(st.(stack := st.stack + [top]), [EndElement(top.key)]) == Deliver(st, Finish(top, st.nsPrefix))
  {
    var st1 := st.(stack := st.stack + [top]);
    assert (st.stack + [top])[..|st.stack|] == st.stack;
    assert Run(st1, [EndElement(top.key)]) == Run(Step(st1, EndElement(top.key)), []);
  }

  /** The parser rebuilds any tree from its callbacks, groups in the same order, texts
      settled and empty elements given empty text. */
  lemma ParseRoundTrip(e: Element)
    requires Grouped(e)
    ensures ParseEvents(Events(e)) == Some(Normalized(e))
  {
    RunElement(StartDocument, e);
  }

  /** Decoding the callbacks of a tree gives the flattening of its normalized form. */
  lemma ParseFlattens(e: Element)
    requires Grouped(e)
    ensures Parse(Finished(Events(e))) == Success(Flatten(Normalized(e)))
  {
    ParseRoundTrip(e);
  }

  // ---------------------------------------------------------------------------
  // The nil test document

  /** The callbacks for a root that declares a prefix for the schema-instance namespace
      and holds an empty element and a nil-marked one, separated by line breaks. */
  const NilDocument: seq<Event> := [
    StartMappingPrefix("xswhatever", XSI),
    StartElement("root", map[]),
    Characters("\n"),
    StartElement("empty", map[]),
    EndElement("empty"),
    Characters("\n"),
    StartElement("null", map["xswhatever:nil" := "true"]),
    EndElement("null"),
    Characters("\n"),
    EndElement("root"),
    EndMappingPrefix("xswhatever")]

  /** Text for the only open element. */
  lemma TextIntoOnly(st: ParserState, top: Element, text: string)
    requires st.stack == [top]
    ensures Step(st, Characters(text)) == st.(stack := [AppendText(top, text)])
  {
    assert [top][..0] == [];
  }

  /** The end of the inner of two open elements. */
  lemma CloseInner(st: ParserState, parent: Element, child: Element, name: string)
    requires st.stack == [parent, child]
    ensures Step(st, EndElement(name)) == st.(stack := [parent.(children := Attach(parent.children, Finish(child, st.nsPrefix)))])
  {
    assert st.stack[..1] == [parent];
  }

  lemma RunPair(st: ParserState, a: Event, b: Event)
    ensures Run(st, [a, b]) == Step(Step(st, a), b)
  {
    assert [a, b][1..] == [b];
    assert Run(st, [a, b]) == Run(Step(st, a), [b]);
    assert [b][1..] == [];
    assert Run(Step(st, a), [b]) == Run(Step(Step(st, a), b), []);
  }

  /** The callbacks of the nil test document in five runs: the opening, the empty child,
      a line break, the nil-marked child, the closing. */
  lemma NilDocumentParts()
    ensures NilDocument
      == [StartMappingPrefix("xswhatever", XSI), StartElement("root", map[]), Characters("\n")]
      + ([StartElement("empty", map[]), EndElement("empty")]
      + ([Characters("\n")]
      + ([StartElement("null", map["xswhatever:nil" := "true"]), EndElement("null")]
      + [Characters("\n"), EndElement("root"), EndMappingPrefix("xswhatever")])))
  {
  }

  /** A line break for a root with children. */
  lemma NilDocumentBreak(r2: Element, ns: map<string, string>, pn: map<string, string>)
    requires r2.value == Some("\n")
    ensures Run(ParserState(None, [r2], ns, pn), [Characters("\n")])
      == ParserState(None, [r2.(value := Some("\n\n"))], ns, pn)
  {
    TextIntoOnly(ParserState(None, [r2], ns, pn), r2, "\n");
    assert "\n" + "\n" == "\n\n";
    assert [Characters("\n")][1..] == [];
  }

  /** The root opened, with a line break of text, under the declared prefix. */
  lemma NilDocumentOpens()
    ensures Run(StartDocument, [StartMappingPrefix("xswhatever", XSI), StartElement("root", map[]), Characters("\n")])
      == ParserState(None, [Element("root", Some("\n"), map[], Empty())], map[XSI := "xswhatever"], map["xswhatever" := XSI])
  {
    var ns := map[XSI := "xswhatever"];
    var pn := map["xswhatever" := XSI];
    var s1 := ParserState(None, [], ns, pn);
    var r0 := Element("root", None, map[], Empty());
    var s2 := ParserState(None, [r0], ns, pn);
    var evs := [StartMappingPrefix("xswhatever", XSI), StartElement("root", map[]), Characters("\n")];
    assert Step(StartDocument, evs[0]) == s1;
    RunPair(s1, evs[1], evs[2]);
    assert evs[1..] == [evs[1], evs[2]];
    assert Step(s1, evs[1]) == s2;
    TextIntoOnly(s2, r0, "\n");
    assert "" + "\n" == "\n";
  }

  /** A child that arrives and leaves at once, joining a root with no child of its tag. */
  lemma CloseFresh(st: ParserState, parent: Element, name: string, attributes: map<string, string>)
    requires |st.stack| == 1 && st.stack[0] == parent && name !in parent.children.entries
    ensures Run(st, [StartElement(name, attributes), EndElement(name)])
      == st.(stack := [parent.(children := OrderedDict(parent.children.order + [name],
           parent.children.entries[name := Siblings([Finish(Element(name, None, attributes, Empty()), st.nsPrefix)])]))])
  {
    var child := Element(name, None, attributes, Empty());
    var open := st.(stack := [parent, child]);
    RunPair(st, StartElement(name, attributes), EndElement(name));
    assert st.stack == [parent];
    assert Step(st, StartElement(name, attributes)) == open;
    CloseInner(open, parent, child, name);
    var x := Finish(child, st.nsPrefix);
    var d := Attach(parent.children, x);
    assert Group(parent.children, name) + [x] == [x];
    assert d == SetObject(parent.children, Siblings([x]), name);
    assert d.order == parent.children.order + [name];
    assert d.entries == parent.children.entries[name := Siblings([x])];
  }

  /** The empty child closes with empty text and joins the root. */
  lemma NilDocumentEmptyChild(r1: Element, ns: map<string, string>, pn: map<string, string>)
    requires ns == map[XSI := "xswhatever"] && r1.children == Empty()
    ensures Run(ParserState(None, [r1], ns, pn), [StartElement("empty", map[]), EndElement("empty")])
      == ParserState(None, [r1.(children := OrderedDict(["empty"], map["empty" := Siblings([TextElement("empty", "")])]))], ns, pn)
  {
    var e0 := Element("empty", None, map[], Empty());
    CloseFresh(ParserState(None, [r1], ns, pn), r1, "empty", map[]);
    assert QualifiedName("nil", XSI, ns) == "xswhatever:nil";
    assert PopValueOf("nil", XSI, ns, map[]) == (None, map[]);
    assert Finish(e0, ns) == TextElement("empty", "");
    assert [] + ["empty"] == ["empty"];
  }

  /** The nil-marked child closes without text and without its marker. */
  lemma NilDocumentNullChild(r3: Element, ns: map<string, string>, pn: map<string, string>)
    requires ns == map[XSI := "xswhatever"]
    requires r3.children == OrderedDict(["empty"], map["empty" := Siblings([TextElement("empty", "")])])
    ensures Run(ParserState(None, [r3], ns, pn), [StartElement("null", map["xswhatever:nil" := "true"]), EndElement("null")])
      == ParserState(None, [r3.(children := OrderedDict(["empty", "null"],
           map["empty" := Siblings([TextElement("empty", "")]), "null" := Siblings([Bare("null")])]))], ns, pn)
  {
    var n0 := Element("null", None, map["xswhatever:nil" := "true"], Empty());
    CloseFresh(ParserState(None, [r3], ns, pn), r3, "null", map["xswhatever:nil" := "true"]);
    assert Finish(n0, ns) == Bare("null") by {
      assert QualifiedName("nil", XSI, ns) == "xswhatever:nil";
      assert map["xswhatever:nil" := "true"] - {"xswhatever:nil"} == map[];
      assert PopValueOf("nil", XSI, ns, n0.attributes) == (Some("true"), map[]);
    }
    assert r3.children.order + ["null"] == ["empty", "null"];
  }

  /** A line break for the root, the root's end and the prefix's end. */
  lemma NilDocumentCloses(r4: Element, ns: map<string, string>, pn: map<string, string>)
    requires ns == map[XSI := "xswhatever"] && pn == map["xswhatever" := XSI]
    requires r4.attributes == map[]
    ensures var st := Run(ParserState(None, [r4], ns, pn), [Characters("\n"), EndElement("root"), EndMappingPrefix("xswhatever")]);
      && st.root.Some? && st.stack == [] && st.nsPrefix == map[] && st.prefixNs == map[]
      && st.root.value.attributes == map[] && st.root.value.children == r4.children
  {
    var evs := [Characters("\n"), EndElement("root"), EndMappingPrefix("xswhatever")];
    var r5 := AppendText(r4, "\n");
    var s8 := ParserState(None, [r4], ns, pn);
    TextIntoOnly(s8, r4, "\n");
    var s9 := ParserState(None, [r5], ns, pn);
    assert Step(s8, evs[0]) == s9;
    var root := Finish(r5, ns);
    var s10 := ParserState(Some(root), [], ns, pn);
    assert Step(s9, evs[1]) == s10;
    assert Step(s10, evs[2]) == ParserState(Some(root), [], map[], map[]);
    RunPair(s9, evs[1], evs[2]);
    assert evs[1..] == [evs[1], evs[2]];
  }

  /** The empty element comes back with empty text, the nil-marked one with no text and
      without its marker; the prefix is gone again at the end. */
  lemma NilDocumentTree()
    ensures var st := Run(StartDocument, NilDocument);
      && st.root.Some? && st.stack == [] && st.nsPrefix == map[] && st.prefixNs == map[]
      && st.root.value.attributes == map[]
      && st.root.value.children == OrderedDict(["empty", "null"],
           map["empty" := Siblings([TextElement("empty", "")]), "null" := Siblings([Bare("null")])])
  {
    var ns := map[XSI := "xswhatever"];
    var pn := map["xswhatever" := XSI];
    var a := [StartMappingPrefix("xswhatever", XSI), StartElement("root", map[]), Characters("\n")];
    var b := [StartElement("empty", map[]), EndElement("empty")];
    var c := [Characters("\n")];
    var d := [StartElement("null", map["xswhatever:nil" := "true"]), EndElement("null")];
    var f := [Characters("\n"), EndElement("root"), EndMappingPrefix("xswhatever")];
    var r1 := Element("root", Some("\n"), map[], Empty());
    var r2 := r1.(children := OrderedDict(["empty"], map["empty" := Siblings([TextElement("empty", "")])]));
    var r3 := r2.(value := Some("\n\n"));
    var r4 := r3.(children := OrderedDict(["empty", "null"],
      map["empty" := Siblings([TextElement("empty", "")]), "null" := Siblings([Bare("null")])]));
    NilDocumentParts();
    RunConcat(StartDocument, a, b + (c + (d + f)));
    NilDocumentOpens();
    RunConcat(ParserState(None, [r1], ns, pn), b, c + (d + f));
    NilDocumentEmptyChild(r1, ns, pn);
    RunConcat(ParserState(None, [r2], ns, pn), c, d + f);
    NilDocumentBreak(r2, ns, pn);
    RunConcat(ParserState(None, [r3], ns, pn), d, f);
    NilDocumentNullChild(r3, ns, pn);
    NilDocumentCloses(r4, ns, pn);
  }

  /** Decoding the document: the empty element reads back as empty text, and the
      nil-marked one has no entry, so an optional field decodes as absent. */
  lemma NilDocumentDecodes()
    ensures Parse(Finished(NilDocument)) == Success(map["empty" := Text("")])
  {
    NilDocumentTree();
    var root := ParseEvents(NilDocument).value;
    var want := map["empty" := Text("")];
    forall k ensures Lookup(Flatten(root), k) == Lookup(want, k) {
      if k == "empty" {
        assert Contributions(root, k, 0) == [Merge(Text(""))];
        assert Fold(None, [Merge(Text(""))]) == Fold(Some(Text("")), []);
      } else if k == "null" {
        assert Contributions(root, k, 0) == [Skip];
        assert Fold(None, [Skip]) == Fold(None, []);
      }
    }
    MapsAgree(Flatten(root), want);
  }
}

=== FILE: legacy_tree.dfy ===
/** `_XMLElement` of the legacy variant (Sources/XMLParsing/XMLStackParser.swift): an
    element whose children sit in an insertion-ordered dictionary, built from Foundation
    objects, flattened structure-first for the decoder, and rendered with or without
    pretty-printing. */
module LegacyTree {
  import opened Wrappers
  import opened Primitives
  import opened XMLText
  import opened FlatValue
  import opened OrderedDictionary
  import CodingTree

  /** An element: its tag, optional text, attributes, and its children grouped by tag,
      the groups in the order their tags first appeared. */
  datatype Element = Element(
    key: string,
    value: Option<string>,
    attributes: map<string, string>,
    children: OrderedDict<string, Siblings>)

  /** The children that share one tag, in insertion order. */
  datatype Siblings = Siblings(items: seq<Element>)

  /** The ordered dictionary's invariant, at every depth. */
  ghost predicate WellFormed(e: Element)
    decreases e
  {
    && Valid(e.children)
    && (forall k, i | k in e.children.entries && 0 <= i < |e.children.entries[k].items| ::
          (assert e.children.entries[k] in e.children.entries.Values;
           WellFormed(e.children.entries[k].items[i])))
  }

  /** `_XMLElement(key:)`. */
  function Bare(key: string): Element {
    Element(key, None, map[], Empty())
  }

  /** `_XMLElement(key:value:)`. */
  function TextElement(key: string, text: string): Element {
    Element(key, Some(text), map[], Empty())
  }

  /** The children of a group (none when the tag is absent). */
  function Group(d: OrderedDict<string, Siblings>, k: string): seq<Element> {
    if k in d.entries then d.entries[k].items else []
  }

  /** Adding a child element: it joins the end of its tag's group (a group that is
      created when the tag is new), and a new tag goes to the end of the ordering. */
  function Attach(d: OrderedDict<string, Siblings>, child: Element): (r: OrderedDict<string, Siblings>)
    ensures Valid(d) ==> Valid(r)
    ensures Group(r, child.key) == Group(d, child.key) + [child]
    ensures forall k | k != child.key :: Group(r, k) == Group(d, k)
    ensures child.key in d.entries ==> r.order == d.order
    ensures child.key !in d.entries ==> r.order == d.order + [child.key]
  {
    SetObject(d, Siblings(Group(d, child.key) + [child]), child.key)
  }

  function AttachAll(d: OrderedDict<string, Siblings>, xs: seq<Element>): (r: OrderedDict<string, Siblings>)
    ensures Valid(d) ==> Valid(r)
    decreases |xs|
  {
    if |xs| == 0 then d else AttachAll(Attach(d, xs[0]), xs[1..])
  }

  /** Attaching elements of one tag one by one is setting that tag's group once. */
  lemma {:induction false} AttachAllSameKey(d: OrderedDict<string, Siblings>, k: string, xs: seq<Element>)
    requires Valid(d)
    requires forall i | 0 <= i < |xs| :: xs[i].key == k
    ensures |xs| > 0 ==> AttachAll(d, xs) == SetObject(d, Siblings(Group(d, k) + xs), k)
    ensures |xs| == 0 ==> AttachAll(d, xs) == d
    decreases |xs|
  {
    if |xs| > 0 {
      AttachAllSameKey(Attach(d, xs[0]), k, xs[1..]);
      if |xs| > 1 {
        AttachThenSet(d, xs[0], xs[1..]);
        assert [xs[0]] + xs[1..] == xs;
      } else {
        assert xs == [xs[0]];
      }
    }
  }

  /** Attaching one element and then setting its tag's group is setting the group once. */
  lemma AttachThenSet(d: OrderedDict<string, Siblings>, x: Element, rest: seq<Element>)
    requires Valid(d)
    ensures var d' := Attach(d, x);
      SetObject(d', Siblings(Group(d', x.key) + rest), x.key)
        == SetObject(d, Siblings(Group(d, x.key) + ([x] + rest)), x.key)
  {
    var s1 := Siblings(Group(d, x.key) + [x]);
    var s2 := Siblings(Group(d, x.key) + ([x] + rest));
    assert Group(d, x.key) + [x] + rest == Group(d, x.key) + ([x] + rest);
    SetObjectTwiceLastWins(d, s1, s2, x.key);
  }

  // ---------------------------------------------------------------------------
  // From Foundation objects to elements (`createRootElement` and friends)

  /** The Foundation objects the legacy encoder hands over. */
  datatype NSObject =
    | NSDictionary(entries: map<string, NSObject>)
    | NSArray(items: seq<NSObject>)
    | NSString(text: string)
    /** a number, by its `description` */
    | NSNumber(description: string)
    | NSNull
    /** any other object */
    | Other

  /** The elements an object contributes under `key` to its parent: one element for a
      dictionary, a string, a number, null or anything else; for an array, its items'
      elements spliced into the parent one after the other. */
  ghost function Project(o: NSObject, key: string, describe: NSObject -> string): (r: seq<Element>)
    ensures forall i | 0 <= i < |r| :: r[i].key == key
    ensures !o.NSArray? ==> |r| == 1
    ensures o.NSString? ==> r == [TextElement(key, o.text)]
    ensures o.NSNumber? ==> r == [TextElement(key, o.description)]
    ensures o.NSNull? || o.Other? ==> r == [Bare(key)]
    ensures o.NSDictionary? ==> r == [ElementOf(key, o, describe)]
    decreases o, 4
  {
    match o
    case NSDictionary(_) => [ElementOf(key, o, describe)]
    case NSArray(_) => ProjectItems(o, key, describe, 0)
    case NSString(t) => [TextElement(key, t)]
    case NSNumber(d) => [TextElement(key, d)]
    case NSNull => [Bare(key)]
    case Other => [Bare(key)]
  }

  ghost function ProjectItems(o: NSObject, key: string, describe: NSObject -> string, from: nat): (r: seq<Element>)
    requires o.NSArray? && from <= |o.items|
    ensures forall i | 0 <= i < |r| :: r[i].key == key
    decreases o, 3, |o.items| - from
  {
    if from == |o.items| then []
    else Project(o.items[from], key, describe) + ProjectItems(o, key, describe, from + 1)
  }

  ghost function ProjectEntry(o: NSObject, k: string, describe: NSObject -> string): (r: seq<Element>)
    requires o.NSDictionary? && k in o.entries
    ensures forall i | 0 <= i < |r| :: r[i].key == k
    decreases o, 1
  {
    assert o.entries[k] in o.entries.Values;
    Project(o.entries[k], k, describe)
  }

  /** The attributes: the reserved entry's values, described, when it is a dictionary. */
  function AttributesOf(entries: map<string, NSObject>, describe: NSObject -> string): map<string, string> {
    if CodingTree.AttributesKey in entries && entries[CodingTree.AttributesKey].NSDictionary? then
      var a := entries[CodingTree.AttributesKey].entries;
      map k | k in a :: describe(a[k])
    else map[]
  }

  /** The dictionary's other keys, in its iteration order. */
  ghost function ChildKeys(o: NSObject): (r: seq<string>)
    requires o.NSDictionary?
    ensures forall i | 0 <= i < |r| :: r[i] in o.entries && r[i] != CodingTree.AttributesKey
    ensures forall k :: k in r <==> k in o.entries && k != CodingTree.AttributesKey
    ensures forall i, j | 0 <= i < j < |r| :: r[i] != r[j]
  {
    var r := KeyOrder(o.entries.Keys - {CodingTree.AttributesKey});
    assert forall i | 0 <= i < |r| :: r[i] in r;
    r
  }

  /** The keys among `keys` whose objects produce at least one element, in order. */
  ghost function ProducingKeys(o: NSObject, keys: seq<string>, describe: NSObject -> string): seq<string>
    requires o.NSDictionary? && forall i | 0 <= i < |keys| :: keys[i] in o.entries
    decreases o, 2, |keys|, 0
  {
    if |keys| == 0 then []
    else
      var last := keys[|keys| - 1];
      ProducingKeys(o, keys[..|keys| - 1], describe) + (if ProjectEntry(o, last, describe) != [] then [last] else [])
  }

  /** The loop of `modifyElement`: each key's elements attached in turn. */
  ghost function ChildrenFrom(o: NSObject, keys: seq<string>, describe: NSObject -> string): (d: OrderedDict<string, Siblings>)
    requires o.NSDictionary? && forall i | 0 <= i < |keys| :: keys[i] in o.entries
    ensures Valid(d)
    decreases o, 2, |keys|, 0
  {
    if |keys| == 0 then Empty()
    else AttachAll(ChildrenFrom(o, keys[..|keys| - 1], describe), ProjectEntry(o, keys[|keys| - 1], describe))
  }

  /** The loop leaves one group per producing key, holding that key's elements, the
      groups in the order of the keys. */
  lemma {:induction false} ChildrenFromContents(o: NSObject, keys: seq<string>, describe: NSObject -> string)
    requires o.NSDictionary? && forall i | 0 <= i < |keys| :: keys[i] in o.entries
    requires forall i, j | 0 <= i < j < |keys| :: keys[i] != keys[j]
    ensures var d := ChildrenFrom(o, keys, describe);
      && d.order == ProducingKeys(o, keys, describe)
      && (forall k :: k in d.entries <==> k in keys && ProjectEntry(o, k, describe) != [])
      && (forall k | k in d.entries :: d.entries[k].items == ProjectEntry(o, k, describe))
    decreases o, 2, |keys|, 1
  {
    if |keys| > 0 {
      var n := |keys| - 1;
      var prefix := keys[..n];
      var last := keys[n];
      ChildrenFromContents(o, prefix, describe);
      var d0 := ChildrenFrom(o, prefix, describe);
      assert last !in prefix;
      assert forall k :: k in keys <==> k in prefix || k == last;
      var xs := ProjectEntry(o, last, describe);
      AttachAllSameKey(d0, last, xs);
      if xs != [] {
        assert Group(d0, last) + xs == xs;
      }
    }
  }

  /** `modifyElement`: attributes from the reserved entry, and one group of children per
      other key that produced an element, in the dictionary's iteration order. */
  ghost function ElementOf(key: string, o: NSObject, describe: NSObject -> string): (r: Element)
    requires o.NSDictionary?
    ensures r.key == key && r.value.None?
    ensures r.attributes == AttributesOf(o.entries, describe)
    ensures Valid(r.children)
    ensures r.children.order == ProducingKeys(o, ChildKeys(o), describe)
    ensures forall k :: k in r.children.entries <==>
      k in o.entries && k != CodingTree.AttributesKey && ProjectEntry(o, k, describe) != []
    ensures forall k | k in r.children.entries :: r.children.entries[k].items == ProjectEntry(o, k, describe)
    decreases o, 3
  {
    var keys := ChildKeys(o);
    ChildrenFromContents(o, keys, describe);
    Element(key, None, AttributesOf(o.entries, describe), ChildrenFrom(o, keys, describe))
  }

  /** `createRootElement`: a dictionary fills the root element itself, an array puts its
      items' elements under the root with the root's own tag, and anything else leaves a
      bare root element; it never fails. */
  ghost function CreateRootElement(rootKey: string, o: NSObject, describe: NSObject -> string): (r: Element)
    ensures r.key == rootKey && r.value.None? && Valid(r.children)
    ensures o.NSDictionary? ==> r == ElementOf(rootKey, o, describe)
    ensures o.NSArray? ==>
      var xs := ProjectItems(o, rootKey, describe, 0);
      && r.attributes == map[]
      && (forall k :: k in r.children.entries <==> k == rootKey && xs != [])
      && Group(r.children, rootKey) == xs
      && r.children.order == (if xs == [] then [] else [rootKey])
    ensures !o.NSDictionary? && !o.NSArray? ==> r == Bare(rootKey)
  {
    match o
    case NSDictionary(_) => ElementOf(rootKey, o, describe)
    case NSArray(_) =>
      var xs := ProjectItems(o, rootKey, describe, 0);
      SpliceOne(rootKey, xs);
      Element(rootKey, None, map[], AttachAll(Empty(), xs))
    case _ => Bare(rootKey)
  }

  /** Elements of one tag attached to no children form that tag's one group. */
  lemma SpliceOne(k: string, xs: seq<Element>)
    requires forall i | 0 <= i < |xs| :: xs[i].key == k
    ensures var d := AttachAll(Empty(), xs);
      && (forall t :: t in d.entries <==> t == k && xs != [])
      && Group(d, k) == xs
      && d.order == (if xs == [] then [] else [k])
  {
    var e: OrderedDict<string, Siblings> := Empty();
    AttachAllSameKey(e, k, xs);
    if xs != [] {
      assert Group(e, k) + xs == xs;
      SetOnEmpty(k, Siblings(xs));
    }
  }

  /** Setting a key in an empty dictionary gives a dictionary of that one key. */
  lemma SetOnEmpty(k: string, v: Siblings)
    ensures var d := SetObject(Empty(), v, k);
      d.order == [k] && d.entries == map[k := v] && Group(d, k) == v.items
  {
  }

  // ---------------------------------------------------------------------------
  // `flatten()`: structure first

  /** What one child contributes to its parent's entry: its own flattening if it has
      children or attributes, else its text if it has any, else nothing. */
  function Contribute(child: Element): (r: Contribution)
    ensures r.Merge? || r.Skip?
    ensures r.Skip? <==> Count(child.children) == 0 && |child.attributes| == 0 && child.value.None?
    decreases child, 4
  {
    if Count(child.children) > 0 || |child.attributes| > 0 then Merge(Dict(Flatten(child)))
    else if child.value.Some? then Merge(Text(child.value.value))
    else Skip
  }

  function Contributions(e: Element, k: string, from: nat): (r: seq<Contribution>)
    requires k in e.children.entries && from <= |e.children.entries[k].items|
    ensures |r| == |e.children.entries[k].items| - from
    ensures forall i | 0 <= i < |r| :: r[i] == Contribute(e.children.entries[k].items[from + i])
    decreases e, 1, |e.children.entries[k].items| - from
  {
    var items := e.children.entries[k].items;
    assert e.children.entries[k] in e.children.entries.Values;
    if from == |items| then []
    else
      var rest := Contributions(e, k, from + 1);
      var r := [Contribute(items[from])] + rest;
      assert forall i | 0 < i < |r| :: r[i] == rest[i - 1];
      r
  }

  /** The entry under `k`: the attribute of that name if any, merged with the children
      of that tag in order. */
  function FlattenEntry(e: Element, k: string): (r: Option<AnyValue>)
    ensures k in e.attributes ==> r.Some?
    decreases e, 2
  {
    var init := if k in e.attributes then Some(Text(e.attributes[k])) else None;
    if k in e.children.entries then Fold(init, Contributions(e, k, 0)) else init
  }

  /** `flatten()`, entry by entry. */
  function Flatten(e: Element): (r: map<string, AnyValue>)
    ensures forall k :: k in r <==> FlattenEntry(e, k).Some?
    ensures forall k | k in r :: Some(r[k]) == FlattenEntry(e, k)
    decreases e, 3
  {
    map k | k in e.attributes.Keys + e.children.entries.Keys && FlattenEntry(e, k).Some? :: FlattenEntry(e, k).value
  }

  function AttributeValues(e: Element): map<string, AnyValue> {
    map k | k in e.attributes :: Text(e.attributes[k])
  }

  /** Each tag's contributions, in child order. */
  function Groups(e: Element): (g: map<string, seq<Contribution>>)
    ensures forall k :: k in g <==> k in e.children.entries
  {
    map k | k in e.children.entries :: Contributions(e, k, 0)
  }

  /** The source's loop: start from the attributes and fold the child groups in, in the
      order of the tags. */
  function FlattenLoop(e: Element): map<string, AnyValue>
    requires Valid(e.children)
  {
    FoldGroups(AttributeValues(e), Groups(e), e.children.order)
  }

  /** The loop over the ordered children computes `Flatten`. */
  lemma FlattenLoopIsFlatten(e: Element)
    requires Valid(e.children)
    ensures FlattenLoop(e) == Flatten(e)
  {
    FoldAllGroups(AttributeValues(e), Groups(e), e.children.order);
    forall k ensures Lookup(FlattenLoop(e), k) == Lookup(Flatten(e), k) {
      assert Lookup(AttributeValues(e), k) == (if k in e.attributes then Some(Text(e.attributes[k])) else None);
    }
    MapsAgree(FlattenLoop(e), Flatten(e));
  }

  /** A tag has no entry exactly when there is no attribute of that name and every
      child with that tag is bare: no children, no attributes, no text (a nil-marked
      element). */
  lemma FlattenEntryAbsentIff(e: Element, k: string)
    ensures k !in Flatten(e) <==>
      && k !in e.attributes
      && forall i | 0 <= i < |Group(e.children, k)| ::
           var c := Group(e.children, k)[i];
           Count(c.children) == 0 && c.attributes == map[] && c.value.None?
  {
    if k in e.children.entries {
      var init := if k in e.attributes then Some(Text(e.attributes[k])) else None;
      var cs := Contributions(e, k, 0);
      FoldAbsentIff(init, cs);
      var g := Group(e.children, k);
      assert |cs| == |g|;
      forall i | 0 <= i < |g|
        ensures cs[i].Skip? <==> Count(g[i].children) == 0 && g[i].attributes == map[] && g[i].value.None?
      {
        assert cs[i] == Contribute(g[i]);
        assert g[i].attributes == map[] <==> |g[i].attributes| == 0;
      }
      assert FlattenEntry(e, k) == Fold(init, cs);
    }
  }

  /** Where the two variants part: a child with both text and attributes contributes
      its attributes here (the text is lost) but its text in the current variant. */
  lemma StructureBeforeText(k: string, t: string, attrs: map<string, string>)
    requires attrs != map[]
    ensures Contribute(Element(k, Some(t), attrs, Empty())) == Merge(Dict(map a | a in attrs :: Text(attrs[a])))
    ensures CodingTree.Contribute(CodingTree.Element(k, Some(t), attrs, map[])) == Merge(Text(t))
  {
    var c := Element(k, Some(t), attrs, Empty());
    var want := map a | a in attrs :: Text(attrs[a]);
    assert |attrs| > 0 by {
      var a :| a in attrs;
    }
    forall a ensures Lookup(Flatten(c), a) == Lookup(want, a) {
    }
    MapsAgree(Flatten(c), want);
  }

  // ---------------------------------------------------------------------------
  // Rendering (`toXMLString` / `_toXMLString`)

  /** Four spaces per level when pretty-printing, none otherwise. */
  function Indentation(level: nat, pretty: bool): (r: string)
    ensures |r| == (if pretty then 4 * level else 0)
    ensures forall i | 0 <= i < |r| :: r[i] == ' '
  {
    CodingTree.Indent(if pretty then level else 0)
  }

  /** One element: text elements on one line, elements with children with each child
      rendered one level deeper and, when pretty-printing, on its own line; empty
      elements self-closed. Attributes come in the dictionary's iteration order, child
      groups in insertion order. */
  ghost function Render(e: Element, level: nat, cdata: bool, pretty: bool): (r: string)
    requires WellFormed(e)
    ensures Indentation(level, pretty) + "<" + e.key <= r
    ensures e.value.Some? || Count(e.children) > 0 ==> EndsWith(r, "</" + e.key + ">")
    ensures e.value.None? && Count(e.children) == 0 ==> EndsWith(r, " />")
    decreases e, 3
  {
    var o := Open(e, level, pretty);
    var c := Close(e, level, cdata, pretty);
    Prefix(Indentation(level, pretty) + "<" + e.key,
      CodingTree.RenderAttributes(e.attributes, KeyOrder(e.attributes.Keys)));
    Framed(o, c, Indentation(level, pretty) + "<" + e.key, "</" + e.key + ">");
    Framed(o, c, Indentation(level, pretty) + "<" + e.key, " />");
    o + c
  }

  /** The indentation, `<`, the tag and the attributes. */
  ghost function Open(e: Element, level: nat, pretty: bool): string {
    Indentation(level, pretty) + "<" + e.key + CodingTree.RenderAttributes(e.attributes, KeyOrder(e.attributes.Keys))
  }

  /** The rest: the text and end tag, the children and end tag, or ` />`. */
  ghost function Close(e: Element, level: nat, cdata: bool, pretty: bool): (r: string)
    requires WellFormed(e)
    ensures e.value.Some? || Count(e.children) > 0 ==> EndsWith(r, "</" + e.key + ">")
    ensures e.value.None? && Count(e.children) == 0 ==> r == " />"
    decreases e, 2
  {
    var end := "</" + e.key + ">";
    if e.value.Some? then
      EndsWithTail(">" + CodingTree.Body(e.value.value, cdata), end);
      ">" + CodingTree.Body(e.value.value, cdata) + end
    else if Count(e.children) > 0 then
      var inner := (if pretty then ">\n" else ">") + RenderGroups(e, e.children.order, level, cdata, pretty)
        + Indentation(level, pretty);
      EndsWithTail(inner, end);
      inner + end
    else " />"
  }

  ghost function RenderGroups(e: Element, keys: seq<string>, level: nat, cdata: bool, pretty: bool): string
    requires WellFormed(e)
    requires forall i | 0 <= i < |keys| :: keys[i] in e.children.entries
    decreases e, 1, |keys|
  {
    if |keys| == 0 then []
    else RenderSiblings(e, keys[0], 0, level, cdata, pretty) + RenderGroups(e, keys[1..], level, cdata, pretty)
  }

  ghost function RenderSiblings(e: Element, k: string, from: nat, level: nat, cdata: bool, pretty: bool): string
    requires WellFormed(e)
    requires k in e.children.entries && from <= |e.children.entries[k].items|
    decreases e, 0, |e.children.entries[k].items| - from
  {
    assert e.children.entries[k] in e.children.entries.Values;
    if from == |e.children.entries[k].items| then []
    else
      Render(e.children.entries[k].items[from], level + 1, cdata, pretty) + (if pretty then "\n" else "")
      + RenderSiblings(e, k, from + 1, level, cdata, pretty)
  }

  /** What follows each child: a line break when pretty-printing, nothing otherwise. */
  function Separator(pretty: bool): string {
    if pretty then "\n" else ""
  }

  /** The children of the groups named by `keys`, group by group, each group in its
      insertion order. */
  ghost function ChildrenInOrder(e: Element, keys: seq<string>): (r: seq<Element>)
    requires WellFormed(e)
    requires forall i | 0 <= i < |keys| :: keys[i] in e.children.entries
    ensures AllWellFormed(r)
  {
    if |keys| == 0 then []
    else
      var items := e.children.entries[keys[0]].items;
      var rest := ChildrenInOrder(e, keys[1..]);
      assert forall i | 0 <= i < |items| :: WellFormed(items[i]);
      items + rest
  }

  ghost predicate AllWellFormed(items: seq<Element>) {
    forall i | 0 <= i < |items| :: WellFormed(items[i])
  }

  /** Every element rendered at the same level. */
  ghost function RenderedAt(items: seq<Element>, level: nat, cdata: bool, pretty: bool): (r: seq<string>)
    requires AllWellFormed(items)
    ensures |r| == |items|
  {
    if |items| == 0 then []
    else [Render(items[0], level, cdata, pretty)] + RenderedAt(items[1..], level, cdata, pretty)
  }

  /** The children in insertion order, group by group, each rendered one level deeper and
      followed by the separator. */
  ghost function ChildLines(e: Element, level: nat, cdata: bool, pretty: bool): string
    requires WellFormed(e)
  {
    CodingTree.Terminated(RenderedAt(ChildrenInOrder(e, e.children.order), level + 1, cdata, pretty), Separator(pretty))
  }

  /** `toXMLString(with:withCDATA:formatting:)`: the declaration, when the header yields
      one, then the root element at level 0. */
  ghost function ToXMLString(e: Element, header: Option<XMLHeader>, cdata: bool, pretty: bool, describe: DescribeDouble): (r: string)
    requires WellFormed(e)
    ensures header.None? || IsEmpty(header.value) ==> r == Render(e, 0, cdata, pretty)
    ensures header.Some? && !IsEmpty(header.value) ==> "<?xml" <= r
    ensures EndsWith(r, Render(e, 0, cdata, pretty))
  {
    var decl := if header.Some? then ToXML(header.value, describe) else None;
    var d := if decl.Some? then decl.value else "";
    EndsWithTail(d, Render(e, 0, cdata, pretty));
    if decl.Some? then
      DeclarationLeads(header.value, describe, Render(e, 0, cdata, pretty));
      d + Render(e, 0, cdata, pretty)
    else
      assert d + Render(e, 0, cdata, pretty) == Render(e, 0, cdata, pretty);
      d + Render(e, 0, cdata, pretty)
  }

  // ---------------------------------------------------------------------------
  // Layout without pretty-printing

  /** Without pretty-printing the nesting level changes nothing. */
  lemma {:induction false} CompactIgnoresLevel(e: Element, l1: nat, l2: nat, cdata: bool)
    requires WellFormed(e)
    ensures Render(e, l1, cdata, false) == Render(e, l2, cdata, false)
    decreases e, 2
  {
    if e.value.None? && Count(e.children) > 0 {
      CompactGroupsIgnoreLevel(e, e.children.order, l1, l2, cdata);
    }
  }

  lemma {:induction false} CompactGroupsIgnoreLevel(e: Element, keys: seq<string>, l1: nat, l2: nat, cdata: bool)
    requires WellFormed(e)
    requires forall i | 0 <= i < |keys| :: keys[i] in e.children.entries
    ensures RenderGroups(e, keys, l1, cdata, false) == RenderGroups(e, keys, l2, cdata, false)
    decreases e, 1, |keys|
  {
    if |keys| > 0 {
      CompactSiblingsIgnoreLevel(e, keys[0], 0, l1, l2, cdata);
      CompactGroupsIgnoreLevel(e, keys[1..], l1, l2, cdata);
    }
  }

  lemma {:induction false} CompactSiblingsIgnoreLevel(e: Element, k: string, from: nat, l1: nat, l2: nat, cdata: bool)
    requires WellFormed(e)
    requires k in e.children.entries && from <= |e.children.entries[k].items|
    ensures RenderSiblings(e, k, from, l1, cdata, false) == RenderSiblings(e, k, from, l2, cdata, false)
    decreases e, 0, |e.children.entries[k].items| - from
  {
    assert e.children.entries[k] in e.children.entries.Values;
    if from < |e.children.entries[k].items| {
      CompactIgnoresLevel(e.children.entries[k].items[from], l1 + 1, l2 + 1, cdata);
      CompactSiblingsIgnoreLevel(e, k, from + 1, l1, l2, cdata);
    }
  }

  /** No line break in any tag, attribute or text. */
  ghost predicate NewlineFree(e: Element)
    decreases e
  {
    && '\n' !in e.key
    && (forall a | a in e.attributes :: '\n' !in a && '\n' !in e.attributes[a])
    && (e.value.Some? ==> '\n' !in e.value.value)
    && (forall k, i | k in e.children.entries && 0 <= i < |e.children.entries[k].items| ::
          (assert e.children.entries[k] in e.children.entries.Values;
           NewlineFree(e.children.entries[k].items[i])))
  }

  lemma {:induction false} EscapeEachKeepsLines(s: string)
    requires '\n' !in s
    ensures '\n' !in EscapeEach(s)
    decreases |s|
  {
    if |s| > 0 {
      assert s[0] in s;
      assert '\n' !in s[1..] by {
        forall i | 0 <= i < |s[1..]| ensures s[1..][i] != '\n' { assert s[1..][i] == s[i + 1]; }
      }
      EscapeEachKeepsLines(s[1..]);
      assert '\n' !in EscapeChar(s[0]);
    }
  }

  lemma BodyKeepsLines(s: string, cdata: bool)
    requires '\n' !in s
    ensures '\n' !in CodingTree.Body(s, cdata)
  {
    if !cdata {
      EscapeEachKeepsLines(s);
    }
  }

  lemma {:induction false} AttributesKeepLines(attrs: map<string, string>, names: seq<string>)
    requires forall i | 0 <= i < |names| :: names[i] in attrs && '\n' !in names[i] && '\n' !in attrs[names[i]]
    ensures '\n' !in CodingTree.RenderAttributes(attrs, names)
    decreases |names|
  {
    if |names| > 0 {
      AttributesKeepLines(attrs, names[1..]);
      BodyKeepsLines(attrs[names[0]], false);
    }
  }

  /** Without pretty-printing, the output holds no line break of its own: a tree free of
      them renders on one line. */
  lemma {:induction false} CompactIsOneLine(e: Element, level: nat, cdata: bool)
    requires WellFormed(e) && NewlineFree(e)
    ensures '\n' !in Render(e, level, cdata, false)
    decreases e, 3
  {
    OpenOneLine(e, level);
    CloseOneLine(e, level, cdata);
  }

  lemma OpenOneLine(e: Element, level: nat)
    requires NewlineFree(e)
    ensures '\n' !in Open(e, level, false)
  {
    AttributesKeepLines(e.attributes, KeyOrder(e.attributes.Keys));
    assert Indentation(level, false) == [];
  }

  lemma {:induction false} CloseOneLine(e: Element, level: nat, cdata: bool)
    requires WellFormed(e) && NewlineFree(e)
    ensures '\n' !in Close(e, level, cdata, false)
    decreases e, 2
  {
    var end := "</" + e.key + ">";
    assert '\n' !in end;
    if e.value.Some? {
      var b := CodingTree.Body(e.value.value, cdata);
      BodyKeepsLines(e.value.value, cdata);
      assert Close(e, level, cdata, false) == ">" + b + end;
    } else if Count(e.children) > 0 {
      var g := RenderGroups(e, e.children.order, level, cdata, false);
      CompactGroupsOneLine(e, e.children.order, level, cdata);
      assert Indentation(level, false) == [];
      assert Close(e, level, cdata, false) == ">" + g + [] + end;
    }
  }

  lemma {:induction false} CompactGroupsOneLine(e: Element, keys: seq<string>, level: nat, cdata: bool)
    requires WellFormed(e) && NewlineFree(e)
    requires forall i | 0 <= i < |keys| :: keys[i] in e.children.entries
    ensures '\n' !in RenderGroups(e, keys, level, cdata, false)
    decreases e, 1, |keys|
  {
    if |keys| > 0 {
      CompactSiblingsOneLine(e, keys[0], 0, level, cdata);
      CompactGroupsOneLine(e, keys[1..], level, cdata);
    }
  }

  lemma {:induction false} CompactSiblingsOneLine(e: Element, k: string, from: nat, level: nat, cdata: bool)
    requires WellFormed(e) && NewlineFree(e)
    requires k in e.children.entries && from <= |e.children.entries[k].items|
    ensures '\n' !in RenderSiblings(e, k, from, level, cdata, false)
    decreases e, 0, |e.children.entries[k].items| - from
  {
    assert e.children.entries[k] in e.children.entries.Values;
    if from < |e.children.entries[k].items| {
      CompactIsOneLine(e.children.entries[k].items[from], level + 1, cdata);
      CompactSiblingsOneLine(e, k, from + 1, level, cdata);
    }
  }

  // ---------------------------------------------------------------------------
  // Leaf elements

  /** An element with empty text renders as a start tag immediately followed by its end
      tag. */
  lemma RenderEmptyText(key: string, level: nat, pretty: bool)
    ensures WellFormed(TextElement(key, ""))
    ensures Render(TextElement(key, ""), level, false, pretty)
      == Indentation(level, pretty) + "<" + key + "></" + key + ">"
  {
    var e := TextElement(key, "");
    var o := Indentation(level, pretty) + "<" + key;
    assert Open(e, level, pretty) == o by {
      assert KeyOrder({}) == [];
    }
    assert CodingTree.Body("", false) == "" by {
      EscapePlainText("");
    }
    RenderText(e, level, false, pretty);
    EndTagAfterEmpty(o, key);
  }

  lemma EndTagAfterEmpty(o: string, key: string)
    ensures o + (">" + "" + "</" + key + ">") == o + "></" + key + ">"
  {
    assert ">" + "" + "</" == "></";
  }

  /** An element with text renders as its start tag, the text, and its end tag. */
  lemma RenderText(e: Element, level: nat, cdata: bool, pretty: bool)
    requires WellFormed(e) && e.value.Some?
    ensures Render(e, level, cdata, pretty)
      == Open(e, level, pretty) + (">" + CodingTree.Body(e.value.value, cdata) + "</" + e.key + ">")
  {
    var b := ">" + CodingTree.Body(e.value.value, cdata);
    assert Close(e, level, cdata, pretty) == b + ("</" + e.key + ">");
    assert b + ("</" + e.key + ">") == b + "</" + e.key + ">";
  }

  /** An element without text or children renders self-closed. */
  lemma RenderBare(key: string, level: nat, cdata: bool, pretty: bool)
    ensures WellFormed(Bare(key))
    ensures Render(Bare(key), level, cdata, pretty) == Indentation(level, pretty) + "<" + key + " />"
  {
    assert KeyOrder({}) == [];
    assert Open(Bare(key), level, pretty) == Indentation(level, pretty) + "<" + key;
  }

  /** A group of one child: that child one level deeper, then the line break. */
  lemma SiblingsOfOne(e: Element, k: string, x: Element, level: nat, cdata: bool, pretty: bool)
    requires WellFormed(e) && k in e.children.entries && e.children.entries[k].items == [x]
    ensures WellFormed(x)
    ensures RenderSiblings(e, k, 0, level, cdata, pretty)
      == Render(x, level + 1, cdata, pretty) + (if pretty then "\n" else "")
  {
    assert e.children.entries[k].items[0] == x;
    assert RenderSiblings(e, k, 1, level, cdata, pretty) == [];
  }

  /** An element with children renders as its start tag closed by `>` (and a line break
      when pretty-printing), then every child one level deeper in insertion order, group
      by group, each followed by the separator, then its indentation and end tag. */
  lemma RenderChildren(e: Element, level: nat, cdata: bool, pretty: bool)
    requires WellFormed(e) && e.value.None? && Count(e.children) > 0
    ensures Render(e, level, cdata, pretty)
      == Open(e, level, pretty) + (if pretty then ">\n" else ">") + ChildLines(e, level, cdata, pretty)
         + Indentation(level, pretty) + "</" + e.key + ">"
  {
    RenderSplits(e, level, cdata, pretty);
    CloseChildren(e, level, cdata, pretty);
    GroupsAreLines(e, e.children.order, level, cdata, pretty);
    CodingTree.LaidOut(Render(e, level, cdata, pretty), Open(e, level, pretty), Close(e, level, cdata, pretty),
      if pretty then ">\n" else ">", RenderGroups(e, e.children.order, level, cdata, pretty),
      ChildLines(e, level, cdata, pretty), Indentation(level, pretty), "</" + e.key + ">");
  }

  lemma RenderSplits(e: Element, level: nat, cdata: bool, pretty: bool)
    requires WellFormed(e)
    ensures Render(e, level, cdata, pretty) == Open(e, level, pretty) + Close(e, level, cdata, pretty)
  {
  }

  lemma CloseChildren(e: Element, level: nat, cdata: bool, pretty: bool)
    requires WellFormed(e) && e.value.None? && Count(e.children) > 0
    ensures Close(e, level, cdata, pretty)
      == (if pretty then ">\n" else ">") + RenderGroups(e, e.children.order, level, cdata, pretty)
         + Indentation(level, pretty) + "</" + e.key + ">"
  {
  }

  lemma {:induction false} GroupsAreLines(e: Element, keys: seq<string>, level: nat, cdata: bool, pretty: bool)
    requires WellFormed(e)
    requires forall i | 0 <= i < |keys| :: keys[i] in e.children.entries
    ensures RenderGroups(e, keys, level, cdata, pretty)
      == CodingTree.Terminated(RenderedAt(ChildrenInOrder(e, keys), level + 1, cdata, pretty), Separator(pretty))
    decreases |keys|
  {
    if |keys| > 0 {
      var items := e.children.entries[keys[0]].items;
      var rest := ChildrenInOrder(e, keys[1..]);
      assert e.children.entries[keys[0]] in e.children.entries.Values;
      GroupsAreLines(e, keys[1..], level, cdata, pretty);
      SiblingsAreLines(e, keys[0], 0, level, cdata, pretty);
      assert items[0..] == items;
      RenderedAtAppend(items, rest, level + 1, cdata, pretty);
      CodingTree.TerminatedAppend(RenderedAt(items, level + 1, cdata, pretty), RenderedAt(rest, level + 1, cdata, pretty), Separator(pretty));
    }
  }

  lemma {:induction false} SiblingsAreLines(e: Element, k: string, from: nat, level: nat, cdata: bool, pretty: bool)
    requires WellFormed(e)
    requires k in e.children.entries && from <= |e.children.entries[k].items|
    ensures AllWellFormed(e.children.entries[k].items[from..])
    ensures RenderSiblings(e, k, from, level, cdata, pretty)
      == CodingTree.Terminated(RenderedAt(e.children.entries[k].items[from..], level + 1, cdata, pretty), Separator(pretty))
    decreases |e.children.entries[k].items| - from
  {
    var items := e.children.entries[k].items;
    assert e.children.entries[k] in e.children.entries.Values;
    if from < |items| {
      SiblingsAreLines(e, k, from + 1, level, cdata, pretty);
      assert items[from..][1..] == items[from + 1..];
    }
  }

  lemma {:induction false} RenderedAtAppend(a: seq<Element>, b: seq<Element>, level: nat, cdata: bool, pretty: bool)
    requires AllWellFormed(a) && AllWellFormed(b)
    ensures AllWellFormed(a + b)
    ensures RenderedAt(a + b, level, cdata, pretty) == RenderedAt(a, level, cdata, pretty) + RenderedAt(b, level, cdata, pretty)
    decreases |a|
  {
    WellFormedAppend(a, b);
    if |a| == 0 {
      assert a + b == b;
    } else {
      WellFormedAppend(a[1..], b);
      assert (a + b)[0] == a[0] && (a + b)[1..] == a[1..] + b;
      RenderedAtAppend(a[1..], b, level, cdata, pretty);
      CodingTree.ConsAssoc(Render(a[0], level, cdata, pretty), RenderedAt(a[1..], level, cdata, pretty), RenderedAt(b, level, cdata, pretty));
    }
  }

  lemma WellFormedAppend(a: seq<Element>, b: seq<Element>)
    requires AllWellFormed(a) && AllWellFormed(b)
    ensures AllWellFormed(a + b)
    ensures |a| > 0 ==> AllWellFormed(a[1..]) && WellFormed(a[0])
  {
    assert forall i | 0 <= i < |a + b| :: (a + b)[i] == if i < |a| then a[i] else b[i - |a|];
  }

  /** Each element's rendering sits at its index. */
  lemma {:induction false} RenderedAtIndex(items: seq<Element>, level: nat, cdata: bool, pretty: bool, i: nat)
    requires AllWellFormed(items) && i < |items|
    ensures RenderedAt(items, level, cdata, pretty)[i] == Render(items[i], level, cdata, pretty)
    decreases i
  {
    if i > 0 {
      WellFormedAppend(items, []);
      RenderedAtIndex(items[1..], level, cdata, pretty, i - 1);
      assert items[1..][i - 1] == items[i];
    }
  }
}

=== FILE: ordered_dictionary.dfy ===
/** The insertion-ordered dictionary of CHDataStructures (CHOrderedDictionary.h): a map
    whose keys are also kept in a sequence that records the order in which they were
    first inserted. The legacy element tree keeps its children in one of these. */
module OrderedDictionary {
  import opened Wrappers

  /** The exceptions the header documents. */
  datatype Exception = NSRangeException | NSInvalidArgumentException

  /** `order` is the key ordering, `entries` the underlying dictionary. */
  datatype OrderedDict<K(==, !new), V> = OrderedDict(order: seq<K>, entries: map<K, V>)

  /** Every key occurs once in the ordering, and the ordering lists exactly the keys. */
  ghost predicate Valid<K(!new), V>(d: OrderedDict<K, V>) {
    && (forall i, j | 0 <= i < j < |d.order| :: d.order[i] != d.order[j])
    && (forall k :: k in d.entries <==> k in d.order)
  }

  function Empty<K(==, !new), V>(): (d: OrderedDict<K, V>)
    ensures Valid(d) && Count(d) == 0
  {
    OrderedDict([], map[])
  }

  function Count<K(==, !new), V>(d: OrderedDict<K, V>): nat {
    |d.order|
  }

  /** NSDictionary `objectForKey:`: `nil` for an absent key. */
  function ObjectForKey<K(==, !new), V>(d: OrderedDict<K, V>, key: K): (r: Option<V>)
    ensures r.Some? <==> key in d.entries
    ensures r.Some? ==> r.value == d.entries[key]
  {
    if key in d.entries then Some(d.entries[key]) else None
  }

  /** Position of `key` in `s`, or None when it does not occur. */
  function Find<K(==, !new)>(s: seq<K>, key: K): (r: Option<nat>)
    ensures r.None? <==> key !in s
    ensures r.Some? ==> r.value < |s| && s[r.value] == key
    ensures r.Some? ==> forall j | 0 <= j < r.value :: s[j] != key
  {
    if |s| == 0 then None
    else if s[0] == key then Some(0)
    else
      match Find(s[1..], key)
      case None => None
      case Some(i) => Some(i + 1)
  }

  /** `setObject:forKey:`: a new key is added at the end of the ordering; an existing key
      gets the new value and keeps its position. */
  function SetObject<K(==, !new), V>(d: OrderedDict<K, V>, value: V, key: K): (r: OrderedDict<K, V>)
    ensures Valid(d) ==> Valid(r)
    ensures r.entries == d.entries[key := value]
    ensures key in d.entries ==> r.order == d.order
    ensures key !in d.entries ==> r.order == d.order + [key]
  {
    if key in d.entries then OrderedDict(d.order, d.entries[key := value])
    else OrderedDict(d.order + [key], d.entries[key := value])
  }

  /** `firstKey`: nil when empty, otherwise the key at index 0. */
  function FirstKey<K(==, !new), V>(d: OrderedDict<K, V>): (r: Option<K>)
    requires Valid(d)
    ensures r.None? <==> Count(d) == 0
    ensures r.Some? ==> KeyAtIndex(d, 0) == Success(r.value) && r.value in d.entries
  {
    if |d.order| == 0 then None else Some(d.order[0])
  }

  /** `lastKey`: nil when empty, otherwise the key at index count - 1. */
  function LastKey<K(==, !new), V>(d: OrderedDict<K, V>): (r: Option<K>)
    requires Valid(d)
    ensures r.None? <==> Count(d) == 0
    ensures r.Some? ==> KeyAtIndex(d, Count(d) - 1) == Success(r.value) && r.value in d.entries
  {
    if |d.order| == 0 then None else Some(d.order[|d.order| - 1])
  }

  /** `indexOfKey:`: the insertion-order index, or None standing for `NSNotFound`. */
  function IndexOfKey<K(==, !new), V>(d: OrderedDict<K, V>, key: K): (r: Option<nat>)
    requires Valid(d)
    ensures r.None? <==> key !in d.entries
    ensures r.Some? ==> r.value < Count(d) && d.order[r.value] == key
  {
    Find(d.order, key)
  }

  /** `keyAtIndex:`: raises NSRangeException unless `index < count`. */
  function KeyAtIndex<K(==, !new), V>(d: OrderedDict<K, V>, index: nat): (r: Result<K, Exception>)
    ensures r.Failure? <==> index >= Count(d)
    ensures r.Failure? ==> r.error == NSRangeException
    ensures r.Success? ==> r.value == d.order[index]
  {
    if index < |d.order| then Success(d.order[index]) else Failure(NSRangeException)
  }

  /** `objectForKeyAtIndex:`: the value of the key at `index`; raises NSRangeException
      unless `index < count`. */
  function ObjectForKeyAtIndex<K(==, !new), V>(d: OrderedDict<K, V>, index: nat): (r: Result<V, Exception>)
    requires Valid(d)
    ensures r.Failure? <==> index >= Count(d)
    ensures r.Failure? ==> r.error == NSRangeException
    ensures r.Success? ==> r.value == d.entries[d.order[index]]
  {
    if index < |d.order| then Success(d.entries[d.order[index]]) else Failure(NSRangeException)
  }

  /** `exchangeKeyAtIndex:withKeyAtIndex:`: swaps two positions of the ordering; the values
      stay with their keys. */
  function ExchangeKeys<K(==, !new), V>(d: OrderedDict<K, V>, idx1: nat, idx2: nat): (r: Result<OrderedDict<K, V>, Exception>)
    requires Valid(d)
    ensures r.Failure? <==> idx1 >= Count(d) || idx2 >= Count(d)
    ensures r.Failure? ==> r.error == NSRangeException
    ensures r.Success? ==> Valid(r.value) && r.value.entries == d.entries && Count(r.value) == Count(d)
    ensures r.Success? ==> r.value.order[idx1] == d.order[idx2] && r.value.order[idx2] == d.order[idx1]
    ensures r.Success? ==> forall i | 0 <= i < Count(d) && i != idx1 && i != idx2 :: r.value.order[i] == d.order[i]
  {
    if idx1 >= |d.order| || idx2 >= |d.order| then Failure(NSRangeException)
    else
      var o := d.order[idx1 := d.order[idx2]][idx2 := d.order[idx1]];
      assert forall k :: k in d.order <==> k in o by {
        forall k | k in d.order ensures k in o {
          var i :| 0 <= i < |d.order| && d.order[i] == k;
          if i == idx1 { assert o[idx2] == k; }
          else if i == idx2 { assert o[idx1] == k; }
          else { assert o[i] == k; }
        }
      }
      Success(OrderedDict(o, d.entries))
  }

  /** `insertObject:forKey:atIndex:`: a new key is placed at `index` and the keys from
      `index` on shift up by one. `index` may equal the count (insertion at the end);
      a nil key or object raises NSInvalidArgumentException. For a key already present
      the header is silent; the model replaces the value and keeps the key's position,
      as `setObject:forKey:` does. */
  function InsertObject<K(==, !new), V>(d: OrderedDict<K, V>, value: Option<V>, key: Option<K>, index: nat)
    : (r: Result<OrderedDict<K, V>, Exception>)
    requires Valid(d)
    ensures index > Count(d) ==> r == Failure(NSRangeException)
    ensures index <= Count(d) && (value.None? || key.None?) ==> r == Failure(NSInvalidArgumentException)
    ensures r.Success? <==> index <= Count(d) && value.Some? && key.Some?
    ensures r.Success? ==> Valid(r.value) && r.value.entries == d.entries[key.value := value.value]
    ensures r.Success? && key.value !in d.entries ==>
      r.value.order == d.order[..index] + [key.value] + d.order[index..]
    ensures r.Success? && key.value in d.entries ==> r.value.order == d.order
  {
    if index > |d.order| then Failure(NSRangeException)
    else if value.None? || key.None? then Failure(NSInvalidArgumentException)
    else if key.value in d.entries then Success(OrderedDict(d.order, d.entries[key.value := value.value]))
    else
      var o := d.order[..index] + [key.value] + d.order[index..];
      assert d.order == d.order[..index] + d.order[index..];
      assert forall i, j | 0 <= i < j < |o| :: o[i] != o[j] by {
        forall i, j | 0 <= i < j < |o| ensures o[i] != o[j] {
          if i < index && j < index { assert o[i] == d.order[i] && o[j] == d.order[j]; }
          else if i < index && j > index { assert o[i] == d.order[i] && o[j] == d.order[j - 1]; }
          else if i > index { assert o[i] == d.order[i - 1] && o[j] == d.order[j - 1]; }
          else if i == index && j > index { assert o[j] == d.order[j - 1]; assert o[j] in d.order; }
          else { assert j == index && i < index; assert o[i] in d.order; }
        }
      }
      Success(OrderedDict(o, d.entries[key.value := value.value]))
  }

  /** `removeObjectForKeyAtIndex:`: removes the entry at `index`; later keys shift down. */
  function RemoveObjectForKeyAtIndex<K(==, !new), V>(d: OrderedDict<K, V>, index: nat): (r: Result<OrderedDict<K, V>, Exception>)
    requires Valid(d)
    ensures r.Failure? <==> index >= Count(d)
    ensures r.Failure? ==> r.error == NSRangeException
    ensures r.Success? ==> Valid(r.value)
    ensures r.Success? ==> r.value.order == d.order[..index] + d.order[index + 1..]
    ensures r.Success? ==> r.value.entries == d.entries - {d.order[index]}
  {
    if index >= |d.order| then Failure(NSRangeException)
    else
      var k := d.order[index];
      var o := d.order[..index] + d.order[index + 1..];
      RemovedAt(d.order, index);
      Success(OrderedDict(o, d.entries - {k}))
  }

  /** Cutting one position out of a sequence without repeats leaves the others, still
      without repeats. */
  lemma RemovedAt<K>(s: seq<K>, index: nat)
    requires index < |s|
    requires forall i, j | 0 <= i < j < |s| :: s[i] != s[j]
    ensures var o := s[..index] + s[index + 1..];
      && (forall i, j | 0 <= i < j < |o| :: o[i] != o[j])
      && (forall x :: x in o <==> x in s && x != s[index])
  {
    var k := s[index];
    var o := s[..index] + s[index + 1..];
    assert forall i | 0 <= i < |o| :: o[i] == (if i < index then s[i] else s[i + 1]);
    forall i, j | 0 <= i < j < |o| ensures o[i] != o[j] {
      if j < index { } else if i < index { assert o[j] == s[j + 1]; } else { }
    }
    forall x | x in s && x != k ensures x in o {
      var i :| 0 <= i < |s| && s[i] == x;
      if i < index { assert o[i] == x; } else { assert o[i - 1] == x; }
    }
    forall x | x in o ensures x in s && x != k {
      var i :| 0 <= i < |o| && o[i] == x;
    }
  }

  /** `setObject:forKeyAtIndex:`: replaces the value of the key at `index`. */
  function SetObjectForKeyAtIndex<K(==, !new), V>(d: OrderedDict<K, V>, value: Option<V>, index: nat)
    : (r: Result<OrderedDict<K, V>, Exception>)
    requires Valid(d)
    ensures value.None? ==> r == Failure(NSInvalidArgumentException)
    ensures value.Some? && index >= Count(d) ==> r == Failure(NSRangeException)
    ensures r.Success? <==> index < Count(d) && value.Some?
    ensures r.Success? ==> Valid(r.value) && r.value.order == d.order
    ensures r.Success? ==> r.value.entries == d.entries[d.order[index] := value.value]
  {
    if value.None? then Failure(NSInvalidArgumentException)
    else if index >= |d.order| then Failure(NSRangeException)
    else Success(OrderedDict(d.order, d.entries[d.order[index] := value.value]))
  }

  /** `reverseKeyEnumerator`, as the sequence of keys it yields. */
  function ReverseKeys<K>(s: seq<K>): (r: seq<K>)
    ensures |r| == |s|
    ensures forall i | 0 <= i < |s| :: r[i] == s[|s| - 1 - i]
  {
    if |s| == 0 then [] else ReverseKeys(s[1..]) + [s[0]]
  }

  /** `reverseKeyEnumerator`: every key exactly once, last inserted first, so that its
      i-th key is the one `keyAtIndex:` finds counting from the end. */
  function ReverseKeyEnumerator<K(==, !new), V>(d: OrderedDict<K, V>): (r: seq<K>)
    ensures |r| == Count(d)
    ensures forall i | 0 <= i < |r| :: KeyAtIndex(d, Count(d) - 1 - i) == Success(r[i])
    ensures Valid(d) ==> forall k :: k in r <==> k in d.entries
    ensures Valid(d) ==> forall i, j | 0 <= i < j < |r| :: r[i] != r[j]
  {
    var r := ReverseKeys(d.order);
    assert forall k | k in d.order :: k in r by {
      forall k | k in d.order ensures k in r {
        var i :| 0 <= i < |d.order| && d.order[i] == k;
        assert r[|d.order| - 1 - i] == k;
      }
    }
    r
  }

  // ---------------------------------------------------------------------------
  // Properties relating several operations

  /** `keyAtIndex:` and `indexOfKey:` are inverse on present keys and valid indexes. */
  lemma IndexOfKeyKeyAtIndex<K(!new), V>(d: OrderedDict<K, V>, key: K, index: nat)
    requires Valid(d)
    ensures key in d.entries ==> KeyAtIndex(d, IndexOfKey(d, key).value) == Success(key)
    ensures index < Count(d) ==> IndexOfKey(d, KeyAtIndex(d, index).value) == Some(index)
  {
    if index < Count(d) {
      var k := d.order[index];
      assert IndexOfKey(d, k).Some?;
    }
  }

  /** The value reported at an index is the value stored for the key at that index. */
  lemma ObjectAtIndexIsObjectForKey<K(!new), V>(d: OrderedDict<K, V>, index: nat)
    requires Valid(d) && index < Count(d)
    ensures ObjectForKeyAtIndex(d, index).value == ObjectForKey(d, KeyAtIndex(d, index).value).value
  {
  }

  /** Setting a key makes it the one found by its index and leaves every other key's
      position and value alone. */
  lemma SetObjectKeepsOthers<K(!new), V>(d: OrderedDict<K, V>, value: V, key: K, other: K)
    requires Valid(d) && other != key && other in d.entries
    ensures ObjectForKey(SetObject(d, value, key), key) == Some(value)
    ensures ObjectForKey(SetObject(d, value, key), other) == ObjectForKey(d, other)
    ensures IndexOfKey(SetObject(d, value, key), other) == IndexOfKey(d, other)
  {
    var r := SetObject(d, value, key);
    var i := IndexOfKey(d, other).value;
    IndexOfKeyKeyAtIndex(r, other, i);
    assert r.order[i] == other;
  }

  /** Setting a key twice keeps the last value (last writer wins). */
  lemma SetObjectTwiceLastWins<K(!new), V>(d: OrderedDict<K, V>, v1: V, v2: V, key: K)
    requires Valid(d)
    ensures SetObject(SetObject(d, v1, key), v2, key) == SetObject(d, v2, key)
  {
  }

  /** Removing the entry just inserted at an index restores the dictionary. */
  lemma RemoveUndoesInsert<K(!new), V>(d: OrderedDict<K, V>, value: V, key: K, index: nat)
    requires Valid(d) && key !in d.entries && index <= Count(d)
    ensures InsertObject(d, Some(value), Some(key), index).Success?
    ensures RemoveObjectForKeyAtIndex(InsertObject(d, Some(value), Some(key), index).value, index)
            == Success(d)
  {
    var r := InsertObject(d, Some(value), Some(key), index).value;
    assert r.order[index] == key;
    var o := r.order[..index] + r.order[index + 1..];
    assert o == d.order;
    assert r.entries - {key} == d.entries;
  }

  /** Exchanging the same two positions twice is the identity. */
  lemma ExchangeTwiceIdentity<K(!new), V>(d: OrderedDict<K, V>, idx1: nat, idx2: nat)
    requires Valid(d) && idx1 < Count(d) && idx2 < Count(d)
    ensures ExchangeKeys(ExchangeKeys(d, idx1, idx2).value, idx1, idx2) == Success(d)
  {
    var once := ExchangeKeys(d, idx1, idx2).value;
    var twice := ExchangeKeys(once, idx1, idx2).value;
    assert twice.order == d.order;
  }

  /** The reverse enumerator yields the ordering backwards; reversing again gives the
      insertion order back. */
  lemma {:induction false} ReverseReverse<K>(s: seq<K>)
    ensures ReverseKeys(ReverseKeys(s)) == s
  {
    var r := ReverseKeys(ReverseKeys(s));
    assert |r| == |s|;
    forall i | 0 <= i < |s| ensures r[i] == s[i] {
      assert r[i] == ReverseKeys(s)[|s| - 1 - i];
    }
  }
}

=== FILE: primitives.dfy ===
/** Scalar payloads shared by the encoder and the element trees: fixed-width integers,
    opaque doubles, the text Swift's `description` gives them, character classes, and
    an arbitrary fixed iteration order for Swift dictionaries. */
module Primitives {

  /** A Swift `Double`, kept as its IEEE-754 bit pattern. Its text form is floating-point
      formatting and is passed around as an opaque function. */
  datatype F64 = F64(bits: bv64)

  /** Renders a double as text (Swift's `description`); not modelled. */
  type DescribeDouble = F64 -> string

  const Int64Min: int := -0x8000_0000_0000_0000
  const Int64Max: int := 0x7FFF_FFFF_FFFF_FFFF
  const UInt64Max: int := 0xFFFF_FFFF_FFFF_FFFF

  type Int64 = i: int | Int64Min <= i <= Int64Max
  type UInt64 = u: int | 0 <= u <= UInt64Max

  /** Base-10 digits of a natural number. */
  function NatDigits(n: nat): (r: string)
    ensures |r| >= 1
    ensures forall i | 0 <= i < |r| :: '0' <= r[i] <= '9'
    decreases n
  {
    var d := [(('0' as int) + n % 10) as char];
    if n < 10 then d else NatDigits(n / 10) + d
  }

  /** Value of a string of base-10 digits. */
  function DigitsValue(s: string): nat
    requires forall i | 0 <= i < |s| :: '0' <= s[i] <= '9'
  {
    if |s| == 0 then 0
    else 10 * DigitsValue(s[..|s| - 1]) + (s[|s| - 1] as int - '0' as int)
  }

  /** Swift's `description` of an integer: base 10, with a leading `-` when negative. */
  function IntDescription(i: int): string {
    if i < 0 then "-" + NatDigits(-i) else NatDigits(i)
  }

  /** Swift's `description` of a Bool. */
  function BoolDescription(b: bool): string {
    if b then "true" else "false"
  }

  /** Reading the digits back gives the number: the decimal text names the value it
      describes. */
  lemma {:induction false} NatDigitsValue(n: nat)
    ensures DigitsValue(NatDigits(n)) == n
    decreases n
  {
    var d := [(('0' as int) + n % 10) as char];
    if n >= 10 {
      NatDigitsValue(n / 10);
      var s := NatDigits(n / 10) + d;
      assert s[..|s| - 1] == NatDigits(n / 10);
    }
  }

  /** `CharacterSet.whitespaces`, over ASCII: space and tab. */
  predicate IsWhitespace(c: char) {
    c == ' ' || c == '\t'
  }

  /** `CharacterSet.whitespacesAndNewlines`, over ASCII: space, tab, line feed, vertical
      tab, form feed, carriage return. */
  predicate IsWhitespaceOrNewline(c: char) {
    c == ' ' || c == '\t' || c == '\n' || c == '\U{000B}' || c == '\U{000C}' || c == '\r'
  }

  /** `CharacterSet.uppercaseLetters`, over ASCII. */
  predicate IsUpper(c: char) {
    'A' <= c <= 'Z'
  }

  /** `CharacterSet.lowercaseLetters`, over ASCII. */
  predicate IsLower(c: char) {
    'a' <= c <= 'z'
  }

  /** `lowercased()` of one character, over ASCII. */
  function ToLower(c: char): (r: char)
    ensures !IsUpper(r)
    ensures !IsUpper(c) ==> r == c
  {
    if IsUpper(c) then (c as int + 32) as char else c
  }

  function Lowercased(s: string): (r: string)
    ensures |r| == |s|
    ensures forall i | 0 <= i < |s| :: r[i] == ToLower(s[i])
  {
    if |s| == 0 then [] else [ToLower(s[0])] + Lowercased(s[1..])
  }

  /** The keys of a Swift dictionary in its iteration order. Swift leaves that order
      unspecified; the model fixes one arbitrary order and nothing depends on which. */
  ghost function KeyOrder(keys: set<string>): (r: seq<string>)
    ensures |r| == |keys|
    ensures forall k :: k in r <==> k in keys
    ensures forall i, j | 0 <= i < j < |r| :: r[i] != r[j]
    decreases |keys|
  {
    if keys == {} then []
    else
      var k :| k in keys;
      [k] + KeyOrder(keys - {k})
  }

  /** `t` is a suffix of `s`. */
  predicate EndsWith(s: string, t: string) {
    |t| <= |s| && s[|s| - |t|..] == t
  }

  /** What a string starts and ends with survives putting it between others. */
  lemma Framed(x: string, y: string, pre: string, post: string)
    ensures pre <= x ==> pre <= x + y
    ensures EndsWith(y, post) ==> EndsWith(x + y, post)
    ensures EndsWith(x + y, y)
  {
    if EndsWith(y, post) {
      assert (x + y)[|x + y| - |post|..] == y[|y| - |post|..];
    }
    assert (x + y)[|x + y| - |y|..] == y;
  }

  lemma EndsWithTail(x: string, y: string)
    ensures EndsWith(x + y, y)
  {
    assert (x + y)[|x + y| - |y|..] == y;
  }

  lemma Prefix(x: string, y: string)
    ensures x <= x + y
  {
    assert (x + y)[..|x|] == x;
  }

  /** Five pieces concatenated, the last four grouped first. */
  lemma Regroup(a: string, b: string, c: string, d: string, f: string)
    ensures a + (b + c + d + f) == a + b + c + d + f
  {
  }
}

=== FILE: snake_case.dfy ===
/** `KeyEncodingStrategy._convertToSnakeCase` (Sources/XMLCoding/Encoder/XMLEncoder.swift):
    split a camel-case key into words, lowercase them and join them with `_`. Character
    classes are the ASCII approximations of `Primitives`. */
module SnakeCase {
  import opened Wrappers
  import opened Primitives

  /** A half-open index range `[lo, hi)` of the key. */
  datatype Word = Word(lo: nat, hi: nat)

  /** `rangeOfCharacter(from: .uppercaseLetters, range: lo..<end)`: the first uppercase
      position at or after `lo`. */
  function FirstUpper(s: string, lo: nat): (r: Option<nat>)
    requires lo <= |s|
    ensures r.Some? ==> lo <= r.value < |s| && IsUpper(s[r.value])
    ensures r.Some? ==> forall j | lo <= j < r.value :: !IsUpper(s[j])
    ensures r.None? ==> forall j | lo <= j < |s| :: !IsUpper(s[j])
    decreases |s| - lo
  {
    if lo == |s| then None
    else if IsUpper(s[lo]) then Some(lo)
    else FirstUpper(s, lo + 1)
  }

  /** `rangeOfCharacter(from: .lowercaseLetters, range: lo..<end)`. */
  function FirstLower(s: string, lo: nat): (r: Option<nat>)
    requires lo <= |s|
    ensures r.Some? ==> lo <= r.value < |s| && IsLower(s[r.value])
    ensures r.Some? ==> forall j | lo <= j < r.value :: !IsLower(s[j])
    ensures r.None? ==> forall j | lo <= j < |s| :: !IsLower(s[j])
    decreases |s| - lo
  {
    if lo == |s| then None
    else if IsLower(s[lo]) then Some(lo)
    else FirstLower(s, lo + 1)
  }

  /** Consecutive non-empty words tiling `[from, to)`. */
  ghost predicate Tiles(ws: seq<Word>, from: nat, to: nat) {
    && |ws| >= 1
    && ws[0].lo == from
    && ws[|ws| - 1].hi == to
    && (forall i | 0 <= i < |ws| :: from <= ws[i].lo < ws[i].hi <= to)
    && (forall i | 0 <= i < |ws| - 1 :: ws[i].hi == ws[i + 1].lo)
  }

  /** The word loop, from one iteration on: `wordStart` is where the current word began
      and the next uppercase letter is searched for from `searchLo`. A run of capitals
      followed by a lowercase letter becomes its own word, except for its last capital,
      which starts the next word. The words tile `[wordStart, |s|)`: no gaps, no
      overlaps, none empty. */
  function WordsFrom(s: string, wordStart: nat, searchLo: nat): (ws: seq<Word>)
    requires wordStart < searchLo <= |s|
    ensures Tiles(ws, wordStart, |s|)
    decreases |s| - searchLo
  {
    match FirstUpper(s, searchLo)
    case None => [Word(wordStart, |s|)]
    case Some(u) =>
      match FirstLower(s, u)
      case None => [Word(wordStart, u), Word(u, |s|)]
      case Some(l) =>
        if l == u + 1 then
          var rest := WordsFrom(s, u, l + 1);
          TilesCons(Word(wordStart, u), rest, |s|);
          [Word(wordStart, u)] + rest
        else
          var rest := WordsFrom(s, l - 1, l + 1);
          TilesCons2(Word(wordStart, u), Word(u, l - 1), rest, |s|);
          [Word(wordStart, u), Word(u, l - 1)] + rest
  }

  /** A non-empty word in front of a tiling that starts where it ends extends it. */
  lemma TilesCons(w: Word, rest: seq<Word>, to: nat)
    requires w.lo < w.hi && Tiles(rest, w.hi, to)
    ensures Tiles([w] + rest, w.lo, to)
  {
    var ws := [w] + rest;
    assert forall i | 0 < i < |ws| :: ws[i] == rest[i - 1];
  }

  /** Two adjacent non-empty words in front of a tiling that starts where they end. */
  lemma TilesCons2(w1: Word, w2: Word, rest: seq<Word>, to: nat)
    requires w1.lo < w1.hi == w2.lo < w2.hi && Tiles(rest, w2.hi, to)
    ensures Tiles([w1, w2] + rest, w1.lo, to)
  {
    var ws := [w1, w2] + rest;
    assert forall i | 1 < i < |ws| :: ws[i] == rest[i - 2];
  }

  /** Some word of `ws` begins at `i`: the key is split just before position `i`. */
  ghost predicate StartsWord(ws: seq<Word>, i: nat) {
    exists k | 0 <= k < |ws| :: ws[k].lo == i
  }

  /** No word of `ws` but the first starts with a lowercase letter of `s`. */
  ghost predicate LaterWordsStartNonLower(s: string, ws: seq<Word>) {
    forall k | 0 < k < |ws| && ws[k].lo < |s| :: !IsLower(s[ws[k].lo])
  }

  /** The words of a non-empty key. They tile the key; the key is split before every
      capital that follows a lowercase letter, and before the last capital of a run of
      capitals that is followed by a lowercase letter; and no word but the first starts
      with a lowercase letter. */
  function Words(s: string): (ws: seq<Word>)
    requires |s| > 0
    ensures Tiles(ws, 0, |s|)
    ensures forall i | 0 < i < |s| && IsLower(s[i - 1]) && IsUpper(s[i]) :: StartsWord(ws, i)
    ensures forall j | 0 < j && j + 1 < |s| && IsUpper(s[j - 1]) && IsUpper(s[j]) && IsLower(s[j + 1]) :: StartsWord(ws, j)
    ensures LaterWordsStartNonLower(s, ws)
  {
    SplitsAtCaseChanges(s);
    SplitsAtAcronymEnds(s);
    NoWordStartsLower(s, 0, 1);
    WordsFrom(s, 0, 1)
  }

  /** Only where the word loop found a capital, or a character that is not a lowercase
      letter before the next lowercase one, does a new word start. */
  lemma {:induction false} NoWordStartsLower(s: string, wordStart: nat, searchLo: nat)
    requires wordStart < searchLo <= |s|
    ensures LaterWordsStartNonLower(s, WordsFrom(s, wordStart, searchLo))
    decreases |s| - searchLo
  {
    if FirstUpper(s, searchLo).None? {
      NonLowerWithoutCapital(s, wordStart, searchLo);
    } else {
      var u := FirstUpper(s, searchLo).value;
      if FirstLower(s, u).None? {
        NonLowerWithoutLowercase(s, wordStart, searchLo, u);
      } else {
        var l := FirstLower(s, u).value;
        LowerAfterUpper(s, searchLo, u, l);
        NoWordStartsLower(s, Resume(u, l), l + 1);
        NonLowerPast(s, wordStart, searchLo, u, l);
      }
    }
  }

  lemma NonLowerWithoutCapital(s: string, wordStart: nat, searchLo: nat)
    requires wordStart < searchLo <= |s| && FirstUpper(s, searchLo).None?
    ensures LaterWordsStartNonLower(s, WordsFrom(s, wordStart, searchLo))
  {
    WordsFromNoCapital(s, wordStart, searchLo);
  }

  lemma NonLowerWithoutLowercase(s: string, wordStart: nat, searchLo: nat, u: nat)
    requires wordStart < searchLo <= |s| && FirstUpper(s, searchLo) == Some(u) && FirstLower(s, u).None?
    ensures LaterWordsStartNonLower(s, WordsFrom(s, wordStart, searchLo))
  {
    WordsFromNoLower(s, wordStart, searchLo, u);
    var ws := WordsFrom(s, wordStart, searchLo);
    assert ws[1].lo == u && IsUpper(s[u]);
  }

  lemma NonLowerPast(s: string, wordStart: nat, searchLo: nat, u: nat, l: nat)
    requires wordStart < searchLo <= |s|
    requires FirstUpper(s, searchLo) == Some(u) && FirstLower(s, u) == Some(l) && u < l
    requires LaterWordsStartNonLower(s, WordsFrom(s, Resume(u, l), l + 1))
    ensures LaterWordsStartNonLower(s, WordsFrom(s, wordStart, searchLo))
  {
    if l == u + 1 {
      NonLowerPastAdjacent(s, wordStart, searchLo, u);
    } else {
      NonLowerPastApart(s, wordStart, searchLo, u, l);
    }
  }

  lemma NonLowerPastAdjacent(s: string, wordStart: nat, searchLo: nat, u: nat)
    requires wordStart < searchLo <= |s|
    requires FirstUpper(s, searchLo) == Some(u) && FirstLower(s, u) == Some(u + 1)
    requires LaterWordsStartNonLower(s, WordsFrom(s, u, u + 2))
    ensures LaterWordsStartNonLower(s, WordsFrom(s, wordStart, searchLo))
  {
    WordsFromAdjacent(s, wordStart, searchLo, u);
    var rest := WordsFrom(s, u, u + 2);
    assert rest[0].lo == u;
    NonLowerStartsAfter(s, [Word(wordStart, u)], rest);
  }

  lemma NonLowerPastApart(s: string, wordStart: nat, searchLo: nat, u: nat, l: nat)
    requires wordStart < searchLo <= |s|
    requires FirstUpper(s, searchLo) == Some(u) && FirstLower(s, u) == Some(l) && u + 1 < l
    requires LaterWordsStartNonLower(s, WordsFrom(s, l - 1, l + 1))
    ensures LaterWordsStartNonLower(s, WordsFrom(s, wordStart, searchLo))
  {
    WordsFromApart(s, wordStart, searchLo, u, l);
    var rest := WordsFrom(s, l - 1, l + 1);
    assert rest[0].lo == l - 1 && !IsLower(s[l - 1]);
    var prefix := [Word(wordStart, u), Word(u, l - 1)];
    assert prefix[1].lo == u && IsUpper(s[u]);
    NonLowerStartsAfter(s, prefix, rest);
  }

  /** Words put in front of words that start with no lowercase letter, where the
      first of those does not either. */
  lemma NonLowerStartsAfter(s: string, prefix: seq<Word>, rest: seq<Word>)
    requires |rest| > 0 && rest[0].lo < |s| && !IsLower(s[rest[0].lo])
    requires forall k | 0 < k < |prefix| :: prefix[k].lo < |s| && !IsLower(s[prefix[k].lo])
    requires LaterWordsStartNonLower(s, rest)
    ensures LaterWordsStartNonLower(s, prefix + rest)
  {
    var ws := prefix + rest;
    forall k | 0 < k < |ws| && ws[k].lo < |s| ensures !IsLower(s[ws[k].lo]) {
      if k >= |prefix| {
        assert ws[k] == rest[k - |prefix|];
      } else {
        assert ws[k] == prefix[k];
      }
    }
  }

  lemma SplitsAtCaseChanges(s: string)
    requires |s| > 0
    ensures forall i | 0 < i < |s| && IsLower(s[i - 1]) && IsUpper(s[i]) :: StartsWord(WordsFrom(s, 0, 1), i)
  {
    forall i | 0 < i < |s| && IsLower(s[i - 1]) && IsUpper(s[i]) ensures StartsWord(WordsFrom(s, 0, 1), i) {
      CaseChangeStartsWord(s, 0, 1, i);
    }
  }

  lemma SplitsAtAcronymEnds(s: string)
    requires |s| > 0
    ensures forall j | 0 < j && j + 1 < |s| && IsUpper(s[j - 1]) && IsUpper(s[j]) && IsLower(s[j + 1]) :: StartsWord(WordsFrom(s, 0, 1), j)
  {
    forall j | 0 < j && j + 1 < |s| && IsUpper(s[j - 1]) && IsUpper(s[j]) && IsLower(s[j + 1])
      ensures StartsWord(WordsFrom(s, 0, 1), j)
    {
      AcronymEndStartsWord(s, 0, 1, j);
    }
  }

  /** A lowercase letter followed by a capital: the capital starts a word. */
  lemma {:induction false} CaseChangeStartsWord(s: string, wordStart: nat, searchLo: nat, i: nat)
    requires wordStart < searchLo <= i < |s|
    requires IsLower(s[i - 1]) && IsUpper(s[i])
    ensures StartsWord(WordsFrom(s, wordStart, searchLo), i)
    decreases |s| - searchLo
  {
    CapitalFound(s, searchLo, i);
    var u := FirstUpper(s, searchLo).value;
    if u == i {
      FirstCapitalStartsWord(s, wordStart, searchLo, u);
    } else {
      LowercaseFound(s, u, i - 1);
      var l := FirstLower(s, u).value;
      LowerAfterUpper(s, searchLo, u, l);
      CaseChangeStartsWord(s, Resume(u, l), l + 1, i);
      StartsWordPast(s, wordStart, searchLo, u, l, i);
    }
  }

  /** Where the word loop resumes after a capital at `u` and a lowercase letter at `l`:
      at the capital when the two are adjacent, otherwise at the last capital of the
      run. The search resumes after `l` either way. */
  function Resume(u: nat, l: nat): (r: nat)
    requires u < l
    ensures u <= r < l
  {
    if l == u + 1 then u else l - 1
  }

  /** Word starts found by the rest of the loop are word starts of the whole. */
  lemma StartsWordPast(s: string, wordStart: nat, searchLo: nat, u: nat, l: nat, i: nat)
    requires wordStart < searchLo <= |s|
    requires FirstUpper(s, searchLo) == Some(u) && FirstLower(s, u) == Some(l) && u < l
    requires StartsWord(WordsFrom(s, Resume(u, l), l + 1), i)
    ensures StartsWord(WordsFrom(s, wordStart, searchLo), i)
  {
    if l == u + 1 {
      StartsWordPastAdjacent(s, wordStart, searchLo, u, i);
    } else {
      StartsWordPastApart(s, wordStart, searchLo, u, l, i);
    }
  }

  /** Two capitals followed by a lowercase letter: the second capital starts a word. */
  lemma {:induction false} AcronymEndStartsWord(s: string, wordStart: nat, searchLo: nat, j: nat)
    requires wordStart < searchLo <= j && j + 1 < |s|
    requires IsUpper(s[j - 1]) && IsUpper(s[j]) && IsLower(s[j + 1])
    ensures StartsWord(WordsFrom(s, wordStart, searchLo), j)
    decreases |s| - searchLo
  {
    CapitalFound(s, searchLo, j);
    var u := FirstUpper(s, searchLo).value;
    LowercaseFound(s, u, j + 1);
    var l := FirstLower(s, u).value;
    LowerAfterUpper(s, searchLo, u, l);
    if u == j {
      FirstCapitalStartsWord(s, wordStart, searchLo, u);
    } else if l == j + 1 {
      RunEndStartsWord(s, wordStart, searchLo, u, l);
    } else {
      assert l + 1 <= j;
      AcronymEndStartsWord(s, Resume(u, l), l + 1, j);
      StartsWordPast(s, wordStart, searchLo, u, l, j);
    }
  }

  /** A capital at `i` is found by the search from `lo`, at `i` or before. */
  lemma CapitalFound(s: string, lo: nat, i: nat)
    requires lo <= i < |s| && IsUpper(s[i])
    ensures FirstUpper(s, lo).Some? && FirstUpper(s, lo).value <= i
  {
  }

  /** A lowercase letter at `i` is found by the search from `lo`, at `i` or before. */
  lemma LowercaseFound(s: string, lo: nat, i: nat)
    requires lo <= i < |s| && IsLower(s[i])
    ensures FirstLower(s, lo).Some? && FirstLower(s, lo).value <= i
  {
  }

  /** The capital the word loop finds starts a word. */
  lemma FirstCapitalStartsWord(s: string, wordStart: nat, searchLo: nat, u: nat)
    requires wordStart < searchLo <= |s| && FirstUpper(s, searchLo) == Some(u)
    ensures StartsWord(WordsFrom(s, wordStart, searchLo), u)
  {
    SecondWordAtFirstUpper(s, wordStart, searchLo);
    StartsWordAt(WordsFrom(s, wordStart, searchLo), 1);
  }

  /** The last capital of a run followed by a lowercase letter starts a word. */
  lemma RunEndStartsWord(s: string, wordStart: nat, searchLo: nat, u: nat, l: nat)
    requires wordStart < searchLo <= |s|
    requires FirstUpper(s, searchLo) == Some(u) && FirstLower(s, u) == Some(l) && u + 1 < l
    ensures StartsWord(WordsFrom(s, wordStart, searchLo), l - 1)
  {
    WordsFromApart(s, wordStart, searchLo, u, l);
    StartsWordAt(WordsFrom(s, wordStart, searchLo), 2);
  }

  /** Word starts found by the rest of the loop are word starts of the whole. */
  lemma StartsWordPastAdjacent(s: string, wordStart: nat, searchLo: nat, u: nat, i: nat)
    requires wordStart < searchLo <= |s|
    requires FirstUpper(s, searchLo) == Some(u) && FirstLower(s, u) == Some(u + 1)
    requires StartsWord(WordsFrom(s, u, u + 2), i)
    ensures StartsWord(WordsFrom(s, wordStart, searchLo), i)
  {
    WordsFromAdjacent(s, wordStart, searchLo, u);
    StartsWordAfter([Word(wordStart, u)], WordsFrom(s, u, u + 2), i);
  }

  lemma StartsWordPastApart(s: string, wordStart: nat, searchLo: nat, u: nat, l: nat, i: nat)
    requires wordStart < searchLo <= |s|
    requires FirstUpper(s, searchLo) == Some(u) && FirstLower(s, u) == Some(l) && u + 1 < l
    requires StartsWord(WordsFrom(s, l - 1, l + 1), i)
    ensures StartsWord(WordsFrom(s, wordStart, searchLo), i)
  {
    WordsFromApart(s, wordStart, searchLo, u, l);
    StartsWordAfter([Word(wordStart, u), Word(u, l - 1)], WordsFrom(s, l - 1, l + 1), i);
  }

  lemma StartsWordAt(ws: seq<Word>, k: nat)
    requires k < |ws|
    ensures StartsWord(ws, ws[k].lo)
  {
  }

  /** A word start stays one when words are put in front. */
  lemma StartsWordAfter(prefix: seq<Word>, rest: seq<Word>, i: nat)
    requires StartsWord(rest, i)
    ensures StartsWord(prefix + rest, i)
  {
    var k :| 0 <= k < |rest| && rest[k].lo == i;
    assert (prefix + rest)[|prefix| + k] == rest[k];
  }

  /** One step of the word loop, once a capital at `u` and the next lowercase letter
      at `l` are found: the lowercase letter comes after the capital, ... */
  lemma LowerAfterUpper(s: string, searchLo: nat, u: nat, l: nat)
    requires searchLo <= |s|
    requires FirstUpper(s, searchLo) == Some(u) && FirstLower(s, u) == Some(l)
    ensures u < l
  {
  }

  /** ... a capital directly followed by a lowercase letter starts the next word, ... */
  lemma WordsFromAdjacent(s: string, wordStart: nat, searchLo: nat, u: nat)
    requires wordStart < searchLo <= |s|
    requires FirstUpper(s, searchLo) == Some(u) && FirstLower(s, u) == Some(u + 1)
    ensures WordsFrom(s, wordStart, searchLo) == [Word(wordStart, u)] + WordsFrom(s, u, u + 2)
  {
  }

  /** ... and a run of capitals before it is a word of its own, less its last
      capital. */
  lemma WordsFromApart(s: string, wordStart: nat, searchLo: nat, u: nat, l: nat)
    requires wordStart < searchLo <= |s|
    requires FirstUpper(s, searchLo) == Some(u) && FirstLower(s, u) == Some(l) && u + 1 < l
    ensures WordsFrom(s, wordStart, searchLo) == [Word(wordStart, u), Word(u, l - 1)] + WordsFrom(s, l - 1, l + 1)
  {
  }

  /** Without a capital after `searchLo`, the current word runs to the end. */
  lemma WordsFromNoCapital(s: string, wordStart: nat, searchLo: nat)
    requires wordStart < searchLo <= |s| && FirstUpper(s, searchLo).None?
    ensures WordsFrom(s, wordStart, searchLo) == [Word(wordStart, |s|)]
  {
  }

  /** Without a lowercase letter after the capital at `u`, the capital starts the last
      word. */
  lemma WordsFromNoLower(s: string, wordStart: nat, searchLo: nat, u: nat)
    requires wordStart < searchLo <= |s| && FirstUpper(s, searchLo) == Some(u) && FirstLower(s, u).None?
    ensures WordsFrom(s, wordStart, searchLo) == [Word(wordStart, u), Word(u, |s|)]
  {
  }

  /** When a capital is found, the second word starts at it. */
  lemma SecondWordAtFirstUpper(s: string, wordStart: nat, searchLo: nat)
    requires wordStart < searchLo <= |s| && FirstUpper(s, searchLo).Some?
    ensures var ws := WordsFrom(s, wordStart, searchLo);
      |ws| > 1 && ws[1].lo == FirstUpper(s, searchLo).value
  {
  }

  /** The lowercased words joined by `_`. */
  function JoinLowered(s: string, ws: seq<Word>): string
    requires forall i | 0 <= i < |ws| :: ws[i].lo <= ws[i].hi <= |s|
  {
    if |ws| == 0 then []
    else if |ws| == 1 then Lowercased(s[ws[0].lo..ws[0].hi])
    else Lowercased(s[ws[0].lo..ws[0].hi]) + "_" + JoinLowered(s, ws[1..])
  }

  /** `_convertToSnakeCase`: the empty key is returned as is; otherwise the lowercased
      words joined by `_`. */
  function ConvertToSnakeCase(s: string): (r: string)
    ensures |s| == 0 ==> r == s
    ensures |s| > 0 ==> r == JoinLowered(s, Words(s))
    ensures forall i | 0 <= i < |r| :: !IsUpper(r[i])
    ensures |s| > 0 ==> |r| == |s| + |Words(s)| - 1 && Laid(s, Words(s), 0, r)
    ensures |s| > 0 ==> r[0] == ToLower(s[0]) && r[|r| - 1] == ToLower(s[|s| - 1])
    ensures |s| > 0 ==> (r[0] == '_' <==> s[0] == '_') && (r[|r| - 1] == '_' <==> s[|s| - 1] == '_')
  {
    if |s| == 0 then s
    else
      var ws := Words(s);
      JoinLoweredHasNoUpper(s, ws);
      JoinLoweredLayout(s, ws, 0, |s|);
      JoinLoweredEnds(s, ws);
      JoinLowered(s, ws)
  }

  /** Where the words of the key land in the result: word `k` (counting from 0),
      lowercased, begins at position `lo + k`, and separator `k` sits right after it. */
  ghost predicate Laid(s: string, ws: seq<Word>, from: nat, r: string)
    requires forall k | 0 <= k < |ws| :: from <= ws[k].lo <= ws[k].hi <= |s|
  {
    WordsLaid(s, ws, from, r) && SeparatorsLaid(s, ws, from, r)
  }

  ghost predicate WordsLaid(s: string, ws: seq<Word>, from: nat, r: string)
    requires forall k | 0 <= k < |ws| :: from <= ws[k].lo <= ws[k].hi <= |s|
  {
    forall k | 0 <= k < |ws| ::
      && ws[k].hi - from + k <= |r|
      && r[ws[k].lo - from + k .. ws[k].hi - from + k] == Lowercased(s[ws[k].lo..ws[k].hi])
  }

  ghost predicate SeparatorsLaid(s: string, ws: seq<Word>, from: nat, r: string)
    requires forall k | 0 <= k < |ws| :: from <= ws[k].lo <= ws[k].hi <= |s|
  {
    forall k | 0 <= k < |ws| - 1 :: ws[k].hi - from + k < |r| && r[ws[k].hi - from + k] == '_'
  }

  /** The layout of the joined words: one separator between consecutive words, every
      word lowercased and in place. */
  lemma JoinLoweredLayout(s: string, ws: seq<Word>, from: nat, to: nat)
    requires Tiles(ws, from, to) && to <= |s|
    ensures |JoinLowered(s, ws)| == to - from + |ws| - 1
    ensures Laid(s, ws, from, JoinLowered(s, ws))
  {
    JoinLoweredLength(s, ws, from, to);
    LaidWords(s, ws, from, to);
    LaidSeparators(s, ws, from, to);
  }

  /** Dropping the first word leaves a tiling of the rest. */
  lemma TilesTail(ws: seq<Word>, from: nat, to: nat)
    requires Tiles(ws, from, to) && |ws| > 1
    ensures Tiles(ws[1..], ws[0].hi, to)
  {
    var tail := ws[1..];
    forall k | 0 <= k < |tail| ensures tail[k] == ws[k + 1] && ws[0].hi <= tail[k].lo {
      TilesAfter(ws, from, to, k + 1);
    }
  }

  /** Every word after the first starts at or after the end of the first. */
  lemma {:induction false} TilesAfter(ws: seq<Word>, from: nat, to: nat, k: nat)
    requires Tiles(ws, from, to) && 0 < k < |ws|
    ensures ws[0].hi <= ws[k].lo
    decreases k
  {
    if k > 1 {
      TilesAfter(ws, from, to, k - 1);
    }
  }

  lemma {:induction false} JoinLoweredLength(s: string, ws: seq<Word>, from: nat, to: nat)
    requires Tiles(ws, from, to) && to <= |s|
    ensures |JoinLowered(s, ws)| == to - from + |ws| - 1
    decreases |ws|
  {
    if |ws| > 1 {
      TilesTail(ws, from, to);
      JoinLoweredLength(s, ws[1..], ws[0].hi, to);
    }
  }

  /** Two or more words: the first, a separator, the rest. */
  lemma JoinLoweredCons(s: string, ws: seq<Word>)
    requires |ws| > 1 && forall i | 0 <= i < |ws| :: ws[i].lo <= ws[i].hi <= |s|
    ensures JoinLowered(s, ws) == Lowercased(s[ws[0].lo..ws[0].hi]) + "_" + JoinLowered(s, ws[1..])
  {
  }

  /** Past the first word and its separator, the result is the rest joined. */
  lemma SliceAfterSeparator(a: string, r: string, x: nat, y: nat)
    requires x <= y <= |r|
    ensures (a + "_" + r)[|a| + 1 + x .. |a| + 1 + y] == r[x..y]
  {
  }

  lemma {:induction false} LaidWords(s: string, ws: seq<Word>, from: nat, to: nat)
    requires Tiles(ws, from, to) && to <= |s|
    ensures WordsLaid(s, ws, from, JoinLowered(s, ws))
    decreases |ws|
  {
    if |ws| > 1 {
      TilesTail(ws, from, to);
      LaidWords(s, ws[1..], ws[0].hi, to);
    }
    forall k | 0 <= k < |ws|
      ensures ws[k].hi - from + k <= |JoinLowered(s, ws)|
      ensures JoinLowered(s, ws)[ws[k].lo - from + k .. ws[k].hi - from + k] == Lowercased(s[ws[k].lo..ws[k].hi])
    {
      WordLaidStep(s, ws, from, to, k);
    }
  }

  /** Word `k` is in place, given that the words after the first are in place in the
      rest. */
  lemma WordLaidStep(s: string, ws: seq<Word>, from: nat, to: nat, k: nat)
    requires Tiles(ws, from, to) && to <= |s| && k < |ws|
    requires |ws| > 1 ==> Tiles(ws[1..], ws[0].hi, to) && WordsLaid(s, ws[1..], ws[0].hi, JoinLowered(s, ws[1..]))
    ensures ws[k].hi - from + k <= |JoinLowered(s, ws)|
    ensures JoinLowered(s, ws)[ws[k].lo - from + k .. ws[k].hi - from + k] == Lowercased(s[ws[k].lo..ws[k].hi])
  {
    if k == 0 {
      FirstWordLaid(s, ws, from, to);
    } else {
      LaterWordStep(s, ws, from, to, k);
    }
  }

  lemma LaterWordStep(s: string, ws: seq<Word>, from: nat, to: nat, k: nat)
    requires Tiles(ws, from, to) && to <= |s| && 0 < k < |ws|
    requires Tiles(ws[1..], ws[0].hi, to) && WordsLaid(s, ws[1..], ws[0].hi, JoinLowered(s, ws[1..]))
    ensures ws[k].hi - from + k <= |JoinLowered(s, ws)|
    ensures JoinLowered(s, ws)[ws[k].lo - from + k .. ws[k].hi - from + k] == Lowercased(s[ws[k].lo..ws[k].hi])
  {
    TilesAfter(ws, from, to, k);
    WordLaidAt(s, ws[1..], ws[0].hi, JoinLowered(s, ws[1..]), k - 1);
    JoinLoweredCons(s, ws);
    LaterWordLaid(s, ws, from, k, JoinLowered(s, ws), JoinLowered(s, ws[1..]));
  }

  lemma WordLaidAt(s: string, ws: seq<Word>, from: nat, r: string, k: nat)
    requires forall k | 0 <= k < |ws| :: from <= ws[k].lo <= ws[k].hi <= |s|
    requires WordsLaid(s, ws, from, r) && k < |ws|
    ensures ws[k].hi - from + k <= |r|
    ensures r[ws[k].lo - from + k .. ws[k].hi - from + k] == Lowercased(s[ws[k].lo..ws[k].hi])
  {
  }

  lemma FirstWordLaid(s: string, ws: seq<Word>, from: nat, to: nat)
    requires Tiles(ws, from, to) && to <= |s|
    ensures var r := JoinLowered(s, ws);
      ws[0].hi - from <= |r| && r[0 .. ws[0].hi - from] == Lowercased(s[ws[0].lo..ws[0].hi])
  {
    var a := Lowercased(s[ws[0].lo..ws[0].hi]);
    if |ws| > 1 {
      JoinLoweredCons(s, ws);
      assert (a + "_" + JoinLowered(s, ws[1..]))[0..|a|] == a;
    }
  }

  /** The joined words are the first word, the separator, then the rest joined `r'`; a
      word laid out in `r'` is laid out in the whole, shifted past the first word. */
  lemma LaterWordLaid(s: string, ws: seq<Word>, from: nat, k: nat, r: string, r': string)
    requires 0 < k < |ws| && ws[0].lo == from <= ws[0].hi <= ws[k].lo <= ws[k].hi <= |s|
    requires r == Lowercased(s[ws[0].lo..ws[0].hi]) + "_" + r'
    requires var w := ws[1..][k - 1];
      && w.hi - ws[0].hi + (k - 1) <= |r'|
      && r'[w.lo - ws[0].hi + (k - 1) .. w.hi - ws[0].hi + (k - 1)] == Lowercased(s[w.lo..w.hi])
    ensures ws[k].hi - from + k <= |r|
    ensures r[ws[k].lo - from + k .. ws[k].hi - from + k] == Lowercased(s[ws[k].lo..ws[k].hi])
  {
    var w := ws[1..][k - 1];
    assert w == ws[k];
    var a := Lowercased(s[ws[0].lo..ws[0].hi]);
    var x, y := w.lo - ws[0].hi + (k - 1), w.hi - ws[0].hi + (k - 1);
    SliceAfterSeparator(a, r', x, y);
    assert |a| + 1 + x == ws[k].lo - from + k && |a| + 1 + y == ws[k].hi - from + k;
  }

  lemma {:induction false} LaidSeparators(s: string, ws: seq<Word>, from: nat, to: nat)
    requires Tiles(ws, from, to) && to <= |s|
    ensures SeparatorsLaid(s, ws, from, JoinLowered(s, ws))
    decreases |ws|
  {
    if |ws| > 1 {
      TilesTail(ws, from, to);
      LaidSeparators(s, ws[1..], ws[0].hi, to);
    }
    forall k | 0 <= k < |ws| - 1
      ensures ws[k].hi - from + k < |JoinLowered(s, ws)| && JoinLowered(s, ws)[ws[k].hi - from + k] == '_'
    {
      if k == 0 {
        FirstSeparatorLaid(s, ws, from, to);
      } else {
        LaterSeparatorStep(s, ws, from, to, k);
      }
    }
  }

  lemma LaterSeparatorStep(s: string, ws: seq<Word>, from: nat, to: nat, k: nat)
    requires Tiles(ws, from, to) && to <= |s| && 0 < k < |ws| - 1
    requires Tiles(ws[1..], ws[0].hi, to) && SeparatorsLaid(s, ws[1..], ws[0].hi, JoinLowered(s, ws[1..]))
    ensures ws[k].hi - from + k < |JoinLowered(s, ws)| && JoinLowered(s, ws)[ws[k].hi - from + k] == '_'
  {
    TilesAfter(ws, from, to, k);
    SeparatorLaidAt(s, ws[1..], ws[0].hi, JoinLowered(s, ws[1..]), k - 1);
    JoinLoweredCons(s, ws);
    LaterSeparatorLaid(s, ws, from, k, JoinLowered(s, ws), JoinLowered(s, ws[1..]));
  }

  lemma SeparatorLaidAt(s: string, ws: seq<Word>, from: nat, r: string, k: nat)
    requires forall k | 0 <= k < |ws| :: from <= ws[k].lo <= ws[k].hi <= |s|
    requires SeparatorsLaid(s, ws, from, r) && k < |ws| - 1
    ensures ws[k].hi - from + k < |r| && r[ws[k].hi - from + k] == '_'
  {
  }

  lemma FirstSeparatorLaid(s: string, ws: seq<Word>, from: nat, to: nat)
    requires Tiles(ws, from, to) && to <= |s| && |ws| > 1
    ensures var r := JoinLowered(s, ws);
      ws[0].hi - from < |r| && r[ws[0].hi - from] == '_'
  {
    JoinLoweredCons(s, ws);
  }

  /** A separator laid out in the rest joined `r'` is laid out in the whole, shifted
      past the first word. */
  lemma LaterSeparatorLaid(s: string, ws: seq<Word>, from: nat, k: nat, r: string, r': string)
    requires 0 < k < |ws| && ws[0].lo == from <= ws[0].hi <= ws[k].lo <= ws[k].hi <= |s|
    requires r == Lowercased(s[ws[0].lo..ws[0].hi]) + "_" + r'
    requires var w := ws[1..][k - 1];
      ws[0].hi <= w.hi && w.hi - ws[0].hi + (k - 1) < |r'| && r'[w.hi - ws[0].hi + (k - 1)] == '_'
    ensures ws[k].hi - from + k < |r| && r[ws[k].hi - from + k] == '_'
  {
    var w := ws[1..][k - 1];
    assert w == ws[k];
    var a := Lowercased(s[ws[0].lo..ws[0].hi]);
    var y := w.hi - ws[0].hi + (k - 1);
    CharAfterSeparator(a, r', y);
    assert |a| + 1 + y == ws[k].hi - from + k;
  }

  lemma CharAfterSeparator(a: string, r: string, y: nat)
    requires y < |r|
    ensures (a + "_" + r)[|a| + 1 + y] == r[y]
  {
  }

  /** The first and last characters of the result are those of the key, lowercased;
      lowercasing keeps `_` and makes nothing else into `_`. */
  lemma JoinLoweredEnds(s: string, ws: seq<Word>)
    requires |s| > 0 && Tiles(ws, 0, |s|)
    ensures var r := JoinLowered(s, ws);
      && |r| > 0
      && r[0] == ToLower(s[0]) && r[|r| - 1] == ToLower(s[|s| - 1])
      && (r[0] == '_' <==> s[0] == '_') && (r[|r| - 1] == '_' <==> s[|s| - 1] == '_')
  {
    JoinLoweredLength(s, ws, 0, |s|);
    FirstCharacter(s, ws);
    LastCharacter(s, ws);
    LowerUnderscore(s[0]);
    LowerUnderscore(s[|s| - 1]);
  }

  lemma FirstCharacter(s: string, ws: seq<Word>)
    requires |s| > 0 && Tiles(ws, 0, |s|)
    ensures |JoinLowered(s, ws)| > 0 && JoinLowered(s, ws)[0] == ToLower(s[0])
  {
    FirstWordLaid(s, ws, 0, |s|);
    var r := JoinLowered(s, ws);
    assert r[0] == r[0 .. ws[0].hi][0];
  }

  lemma LastCharacter(s: string, ws: seq<Word>)
    requires |s| > 0 && Tiles(ws, 0, |s|)
    ensures var r := JoinLowered(s, ws);
      |r| == |s| + |ws| - 1 && r[|r| - 1] == ToLower(s[|s| - 1])
  {
    JoinLoweredLength(s, ws, 0, |s|);
    JoinLoweredLast(s, ws, 0, |s|);
  }

  /** The joined words end with the last character of the last word, lowercased. */
  lemma {:induction false} JoinLoweredLast(s: string, ws: seq<Word>, from: nat, to: nat)
    requires Tiles(ws, from, to) && to <= |s|
    ensures var r := JoinLowered(s, ws);
      |r| > 0 && r[|r| - 1] == ToLower(s[to - 1])
    decreases |ws|
  {
    var a := Lowercased(s[ws[0].lo..ws[0].hi]);
    if |ws| == 1 {
      assert JoinLowered(s, ws) == a;
      assert a[|a| - 1] == ToLower(s[to - 1]);
    } else {
      TilesTail(ws, from, to);
      JoinLoweredLast(s, ws[1..], ws[0].hi, to);
      JoinLoweredCons(s, ws);
      var r' := JoinLowered(s, ws[1..]);
      assert (a + "_" + r')[|a| + 1 + |r'| - 1] == r'[|r'| - 1];
    }
  }

  /** Lowercasing yields `_` exactly from `_`. */
  lemma LowerUnderscore(c: char)
    ensures ToLower(c) == '_' <==> c == '_'
  {
  }

  /** The lowered words, concatenated without separators. */
  function Unsplit(s: string, ws: seq<Word>): string
    requires forall i | 0 <= i < |ws| :: ws[i].lo <= ws[i].hi <= |s|
  {
    if |ws| == 0 then [] else Lowercased(s[ws[0].lo..ws[0].hi]) + Unsplit(s, ws[1..])
  }

  /** Splitting loses and reorders nothing: the words, lowered and put back together,
      are the lowered key. */
  lemma {:induction false} WordsCoverKey(s: string, ws: seq<Word>, from: nat, to: nat)
    requires Tiles(ws, from, to) && to <= |s|
    ensures Unsplit(s, ws) == Lowercased(s[from..to])
    decreases |ws|
  {
    var mid := ws[0].hi;
    var tail := ws[1..];
    if |ws| == 1 {
      assert tail == [];
    } else {
      TilesTail(ws, from, to);
      WordsCoverKey(s, tail, mid, to);
    }
    LowercasedSplit(s, from, mid, to);
  }

  lemma LowercasedSplit(s: string, from: nat, mid: nat, to: nat)
    requires from <= mid <= to <= |s|
    ensures Lowercased(s[from..mid]) + Lowercased(s[mid..to]) == Lowercased(s[from..to])
  {
  }

  /** All of it for the words of a key. */
  lemma SnakeCaseKeepsLetters(s: string)
    requires |s| > 0
    ensures Unsplit(s, Words(s)) == Lowercased(s)
  {
    WordsCoverKey(s, Words(s), 0, |s|);
    assert s[0..|s|] == s;
  }

  lemma {:induction false} JoinLoweredHasNoUpper(s: string, ws: seq<Word>)
    requires forall i | 0 <= i < |ws| :: ws[i].lo <= ws[i].hi <= |s|
    ensures forall i | 0 <= i < |JoinLowered(s, ws)| :: !IsUpper(JoinLowered(s, ws)[i])
    decreases |ws|
  {
    if |ws| > 1 {
      JoinLoweredHasNoUpper(s, ws[1..]);
      var a := Lowercased(s[ws[0].lo..ws[0].hi]);
      var r := JoinLowered(s, ws);
      assert r == a + "_" + JoinLowered(s, ws[1..]);
      forall i | 0 <= i < |r| ensures !IsUpper(r[i]) {
        if i < |a| { assert r[i] == a[i]; }
        else if i == |a| { assert r[i] == '_'; }
        else { assert r[i] == JoinLowered(s, ws[1..])[i - |a| - 1]; }
      }
    }
  }

  /** A key without capitals is one word: the conversion leaves it unchanged. */
  lemma NoUpperIsFixed(s: string)
    requires forall i | 0 <= i < |s| :: !IsUpper(s[i])
    ensures ConvertToSnakeCase(s) == s
  {
    if |s| > 0 {
      assert FirstUpper(s, 1) == None;
      assert Words(s) == [Word(0, |s|)];
      assert s[0..|s|] == s;
      LowercasedNoUpper(s);
    }
  }

  lemma LowercasedNoUpper(s: string)
    requires forall i | 0 <= i < |s| :: !IsUpper(s[i])
    ensures Lowercased(s) == s
  {
  }

  /** Converting twice is converting once. */
  lemma ConvertIdempotent(s: string)
    ensures ConvertToSnakeCase(ConvertToSnakeCase(s)) == ConvertToSnakeCase(s)
  {
    NoUpperIsFixed(ConvertToSnakeCase(s));
  }

  /** The documented examples (`oneTwoThree` to `one_two_three`, and so on). The
      searches are unfolded one position at a time. */
  lemma ConvertExampleOneTwoThree()
    ensures ConvertToSnakeCase("oneTwoThree") == "one" + "_" + "two" + "_" + "three"
  {
    WordsOneTwoThree();
    LoweredOneTwoThree();
    ConvertThreeWords("oneTwoThree", Word(0, 3), Word(3, 6), Word(6, 11), "one", "two", "three");
  }

  lemma LoweredOneTwoThree()
    ensures var s := "oneTwoThree";
      && Lowercased(s[0..3]) == "one"
      && Lowercased(s[3..6]) == "two"
      && Lowercased(s[6..11]) == "three"
  {
    var s := "oneTwoThree";
    LowerSlice(s, 0, 3, "one");
    LowerSlice(s, 3, 6, "two");
    LowerSlice(s, 6, 11, "three");
  }

  lemma ConvertExampleUnderscores()
    ensures ConvertToSnakeCase("_oneTwoThree_") == "_one" + "_" + "two" + "_" + "three_"
  {
    WordsUnderscores();
    LoweredUnderscores();
    ConvertThreeWords("_oneTwoThree_", Word(0, 4), Word(4, 7), Word(7, 13), "_one", "two", "three_");
  }

  lemma LoweredUnderscores()
    ensures var s := "_oneTwoThree_";
      && Lowercased(s[0..4]) == "_one"
      && Lowercased(s[4..7]) == "two"
      && Lowercased(s[7..13]) == "three_"
  {
    var s := "_oneTwoThree_";
    LowerSlice(s, 0, 4, "_one");
    LowerSlice(s, 4, 7, "two");
    LowerSlice(s, 7, 13, "three_");
  }

  lemma ConvertExampleAcronym()
    ensures ConvertToSnakeCase("myURLProperty") == "my" + "_" + "url" + "_" + "property"
  {
    WordsAcronym();
    LoweredAcronym();
    ConvertThreeWords("myURLProperty", Word(0, 2), Word(2, 5), Word(5, 13), "my", "url", "property");
  }

  lemma LoweredAcronym()
    ensures var s := "myURLProperty";
      && Lowercased(s[0..2]) == "my"
      && Lowercased(s[2..5]) == "url"
      && Lowercased(s[5..13]) == "property"
  {
    var s := "myURLProperty";
    LowerSlice(s, 0, 2, "my");
    LowerSlice(s, 2, 5, "url");
    LowerSlice(s, 5, 13, "property");
  }

  /** A key of three words converts to their lowered forms joined by `_`. */
  lemma ConvertThreeWords(s: string, w0: Word, w1: Word, w2: Word, x0: string, x1: string, x2: string)
    requires |s| > 0 && Words(s) == [w0, w1, w2]
    requires w0.lo <= w0.hi <= |s| && w1.lo <= w1.hi <= |s| && w2.lo <= w2.hi <= |s|
    requires Lowercased(s[w0.lo..w0.hi]) == x0
    requires Lowercased(s[w1.lo..w1.hi]) == x1
    requires Lowercased(s[w2.lo..w2.hi]) == x2
    ensures ConvertToSnakeCase(s) == x0 + "_" + x1 + "_" + x2
  {
    JoinThree(s, w0, w1, w2);
  }

  lemma LowerSlice(s: string, lo: nat, hi: nat, w: string)
    requires lo <= hi <= |s| && |w| == hi - lo
    requires forall i | 0 <= i < |w| :: ToLower(s[lo + i]) == w[i]
    ensures Lowercased(s[lo..hi]) == w
  {
  }

  /** Three words join with two underscores. */
  lemma JoinThree(s: string, w0: Word, w1: Word, w2: Word)
    requires w0.lo <= w0.hi <= |s| && w1.lo <= w1.hi <= |s| && w2.lo <= w2.hi <= |s|
    ensures JoinLowered(s, [w0, w1, w2]) ==
      Lowercased(s[w0.lo..w0.hi]) + "_" + (Lowercased(s[w1.lo..w1.hi]) + "_" + Lowercased(s[w2.lo..w2.hi]))
  {
    assert [w0, w1, w2][1..] == [w1, w2];
    JoinTwo(s, w1, w2);
  }

  lemma JoinTwo(s: string, w1: Word, w2: Word)
    requires w1.lo <= w1.hi <= |s| && w2.lo <= w2.hi <= |s|
    ensures JoinLowered(s, [w1, w2]) == Lowercased(s[w1.lo..w1.hi]) + "_" + Lowercased(s[w2.lo..w2.hi])
  {
    assert [w1, w2][1..] == [w2];
  }

  lemma WordsOneTwoThree()
    ensures Words("oneTwoThree") == [Word(0, 3), Word(3, 6), Word(6, 11)]
  {
    var a := "oneTwoThree";
    assert FirstUpper(a, 3) == Some(3);
    assert FirstUpper(a, 2) == Some(3);
    assert FirstUpper(a, 1) == Some(3);
    assert FirstLower(a, 3) == Some(4);
    assert FirstUpper(a, 6) == Some(6);
    assert FirstUpper(a, 5) == Some(6);
    assert FirstLower(a, 6) == Some(7);
    assert FirstUpper(a, 11) == None;
    assert FirstUpper(a, 10) == None;
    assert FirstUpper(a, 9) == None;
    assert FirstUpper(a, 8) == None;
    var w3 := WordsFrom(a, 6, 8);
    assert w3 == [Word(6, 11)];
    var w2 := WordsFrom(a, 3, 5);
    assert w2 == [Word(3, 6)] + w3;
  }

  lemma WordsUnderscores()
    ensures Words("_oneTwoThree_") == [Word(0, 4), Word(4, 7), Word(7, 13)]
  {
    var b := "_oneTwoThree_";
    assert FirstUpper(b, 4) == Some(4);
    assert FirstUpper(b, 3) == Some(4);
    assert FirstUpper(b, 2) == Some(4);
    assert FirstUpper(b, 1) == Some(4);
    assert FirstLower(b, 4) == Some(5);
    WordsUnderscoresTail();
  }

  lemma WordsUnderscoresTail()
    ensures WordsFrom("_oneTwoThree_", 4, 6) == [Word(4, 7), Word(7, 13)]
  {
    var b := "_oneTwoThree_";
    assert FirstUpper(b, 7) == Some(7);
    assert FirstUpper(b, 6) == Some(7);
    assert FirstLower(b, 7) == Some(8);
    assert FirstUpper(b, 13) == None;
    assert FirstUpper(b, 12) == None;
    assert FirstUpper(b, 11) == None;
    assert FirstUpper(b, 10) == None;
    assert FirstUpper(b, 9) == None;
    var w3 := WordsFrom(b, 7, 9);
    assert w3 == [Word(7, 13)];
  }

  lemma WordsAcronym()
    ensures Words("myURLProperty") == [Word(0, 2), Word(2, 5), Word(5, 13)]
  {
    var c := "myURLProperty";
    assert FirstUpper(c, 2) == Some(2);
    assert FirstUpper(c, 1) == Some(2);
    assert FirstLower(c, 6) == Some(6);
    assert FirstLower(c, 5) == Some(6);
    assert FirstLower(c, 4) == Some(6);
    assert FirstLower(c, 3) == Some(6);
    assert FirstLower(c, 2) == Some(6);
    WordsAcronymTail();
  }

  lemma WordsAcronymTail()
    ensures WordsFrom("myURLProperty", 5, 7) == [Word(5, 13)]
  {
    var c := "myURLProperty";
    assert FirstUpper(c, 13) == None;
    assert FirstUpper(c, 12) == None;
    assert FirstUpper(c, 11) == None;
    assert FirstUpper(c, 10) == None;
    assert FirstUpper(c, 9) == None;
    assert FirstUpper(c, 8) == None;
    assert FirstUpper(c, 7) == None;
  }
}

=== FILE: wrappers.dfy ===
/** Failure-carrying result types used across the model: `Option` for Swift optionals
    and Objective-C `nil` returns, `Result` for thrown errors and raised exceptions. */
module Wrappers {

  datatype Option<+T> = None | Some(value: T) {

    /** The wrapped value, or `default` when absent (Swift's `??`). */
    function GetOr(default: T): T {
      match this
      case Some(v) => v
      case None => default
    }
  }

  datatype Result<+R, +E> = Success(value: R) | Failure(error: E) {

    predicate IsFailure() {
      Failure?
    }

    function PropagateFailure<U>(): Result<U, E>
      requires Failure?
    {
      Failure(error)
    }

    function Extract(): R
      requires Success?
    {
      value
    }
  }
}

=== FILE: xml_text.dfy ===
/** Text utilities of both stack parsers (Sources/XMLCoding/XMLStackParser.swift and its
    legacy twin): whitespace trimming, the escaping table, CDATA wrapping and the XML
    declaration header. */
module XMLText {
  import opened Wrappers
  import opened Primitives

  // ---------------------------------------------------------------------------
  // Trimming (`trimmingCharacters(in:)`)

  /** The two character sets the source trims with. */
  datatype TrimSet = Whitespaces | WhitespacesAndNewlines

  predicate InSet(c: char, t: TrimSet) {
    match t
    case Whitespaces => IsWhitespace(c)
    case WhitespacesAndNewlines => IsWhitespaceOrNewline(c)
  }

  /** Index of the first character at or after `from` that is not trimmed. */
  function FirstKept(s: string, t: TrimSet, from: nat): (i: nat)
    requires from <= |s|
    ensures from <= i <= |s|
    ensures forall j | from <= j < i :: InSet(s[j], t)
    ensures i < |s| ==> !InSet(s[i], t)
    decreases |s| - from
  {
    if from < |s| && InSet(s[from], t) then FirstKept(s, t, from + 1) else from
  }

  /** One past the last character before `hi`, and not before `lo`, that is not trimmed. */
  function LastKept(s: string, t: TrimSet, lo: nat, hi: nat): (j: nat)
    requires lo <= hi <= |s|
    ensures lo <= j <= hi
    ensures forall k | j <= k < hi :: InSet(s[k], t)
    ensures j > lo ==> !InSet(s[j - 1], t)
    decreases hi
  {
    if hi > lo && InSet(s[hi - 1], t) then LastKept(s, t, lo, hi - 1) else hi
  }

  /** `r` is what is left of `s` after dropping `lo` leading and some trailing characters
      of `t`. */
  ghost predicate TrimmedAt(s: string, r: string, t: TrimSet, lo: int) {
    && 0 <= lo <= |s| - |r|
    && r == s[lo..lo + |r|]
    && (forall i | 0 <= i < lo :: InSet(s[i], t))
    && (forall i | lo + |r| <= i < |s| :: InSet(s[i], t))
  }

  /** Removes the characters of `t` from both ends: the result is the infix of `s` left
      after dropping a leading and a trailing run of such characters, and it neither
      starts nor ends with one. */
  function Trim(s: string, t: TrimSet): (r: string)
    ensures |r| <= |s|
    ensures exists lo :: TrimmedAt(s, r, t, lo)
    ensures |r| > 0 ==> !InSet(r[0], t) && !InSet(r[|r| - 1], t)
  {
    var lo := FirstKept(s, t, 0);
    var hi := LastKept(s, t, lo, |s|);
    assert TrimmedAt(s, s[lo..hi], t, lo);
    s[lo..hi]
  }

  /** A string made only of trimmed characters trims to the empty string, and only such
      a string does. */
  lemma TrimEmptyIffAllTrimmed(s: string, t: TrimSet)
    ensures Trim(s, t) == [] <==> forall i | 0 <= i < |s| :: InSet(s[i], t)
  {
    var r := Trim(s, t);
    if r == [] {
      var lo :| TrimmedAt(s, r, t, lo);
      assert forall i | 0 <= i < |s| :: InSet(s[i], t) by {
        forall i | 0 <= i < |s| ensures InSet(s[i], t) {
          if i < lo { } else { }
        }
      }
    } else {
      var lo :| TrimmedAt(s, r, t, lo);
      assert s[lo] == r[0];
    }
  }

  // ---------------------------------------------------------------------------
  // Escaping (`String.escape` with `_XMLElement.escapedCharacterSet`)

  /** The escaping table, in the order it is applied. The ampersand entry has no
      terminating semicolon; the model keeps that. */
  const EscapedCharacterSet: seq<(char, string)> :=
    [('&', "&amp"), ('<', "&lt;"), ('>', "&gt;"), ('\'', "&apos;"), ('"', "&quot;")]

  /** `replacingOccurrences(of:with:options: .literal)` for a one-character pattern. */
  function ReplacingOccurrences(s: string, c: char, with: string): (r: string)
    ensures c !in s ==> r == s
  {
    if |s| == 0 then []
    else (if s[0] == c then with else [s[0]]) + ReplacingOccurrences(s[1..], c, with)
  }

  /** `escape(_:)`: one replacement pass per table entry, in table order. */
  function EscapeWith(s: string, table: seq<(char, string)>): string
    decreases |table|
  {
    if |table| == 0 then s
    else EscapeWith(ReplacingOccurrences(s, table[0].0, table[0].1), table[1..])
  }

  /** `escape(_:)` with the element's table: the five passes, ampersand first, amount
      to replacing every character by its own entity. */
  function Escape(s: string): (r: string)
    ensures r == EscapeEach(s)
  {
    PassesArePerCharacter(s);
    EscapeWith(s, EscapedCharacterSet)
  }

  /** The entity one character escapes to, independently of its neighbours. */
  function EscapeChar(c: char): string {
    match c
    case '&' => "&amp"
    case '<' => "&lt;"
    case '>' => "&gt;"
    case '\'' => "&apos;"
    case '"' => "&quot;"
    case _ => [c]
  }

  /** Escaping character by character: the reference the pass-wise `Escape` is compared
      with. */
  function EscapeEach(s: string): string {
    if |s| == 0 then [] else EscapeChar(s[0]) + EscapeEach(s[1..])
  }

  predicate IsSpecial(c: char) {
    c == '&' || c == '<' || c == '>' || c == '\'' || c == '"'
  }

  lemma {:induction false} ReplacingDistributes(a: string, b: string, c: char, with: string)
    ensures ReplacingOccurrences(a + b, c, with) == ReplacingOccurrences(a, c, with) + ReplacingOccurrences(b, c, with)
    decreases |a|
  {
    if |a| > 0 {
      assert (a + b)[1..] == a[1..] + b;
      ReplacingDistributes(a[1..], b, c, with);
    } else {
      assert a + b == b;
    }
  }

  lemma {:induction false} EscapeWithDistributes(a: string, b: string, table: seq<(char, string)>)
    ensures EscapeWith(a + b, table) == EscapeWith(a, table) + EscapeWith(b, table)
    decreases |table|
  {
    if |table| > 0 {
      ReplacingDistributes(a, b, table[0].0, table[0].1);
      EscapeWithDistributes(ReplacingOccurrences(a, table[0].0, table[0].1),
                            ReplacingOccurrences(b, table[0].0, table[0].1), table[1..]);
    }
  }

  lemma EscapeOneChar(c: char)
    ensures EscapeWith([c], EscapedCharacterSet) == EscapeChar(c)
  {
    var t := EscapedCharacterSet;
    var s0 := [c];
    var s1 := ReplacingOccurrences(s0, '&', "&amp");
    var s2 := ReplacingOccurrences(s1, '<', "&lt;");
    var s3 := ReplacingOccurrences(s2, '>', "&gt;");
    var s4 := ReplacingOccurrences(s3, '\'', "&apos;");
    var s5 := ReplacingOccurrences(s4, '"', "&quot;");
    assert EscapeWith(s0, t) == s5 by {
      assert EscapeWith(s0, t) == EscapeWith(s1, t[1..]);
      assert EscapeWith(s1, t[1..]) == EscapeWith(s2, t[2..]);
      assert EscapeWith(s2, t[2..]) == EscapeWith(s3, t[3..]);
      assert EscapeWith(s3, t[3..]) == EscapeWith(s4, t[4..]);
      assert EscapeWith(s4, t[4..]) == EscapeWith(s5, t[5..]);
    }
    if !IsSpecial(c) {
      assert s1 == s0 && s2 == s0 && s3 == s0 && s4 == s0 && s5 == s0;
    }
  }

  /** No entity introduced by one pass is rewritten by a later one, so the passes act on
      each character separately. */
  lemma {:induction false} PassesArePerCharacter(s: string)
    ensures EscapeWith(s, EscapedCharacterSet) == EscapeEach(s)
    decreases |s|
  {
    if |s| == 0 {
      var t := EscapedCharacterSet;
      assert EscapeWith(s, t) == EscapeWith(s, t[1..]);
      assert EscapeWith(s, t[1..]) == EscapeWith(s, t[2..]);
      assert EscapeWith(s, t[2..]) == EscapeWith(s, t[3..]);
      assert EscapeWith(s, t[3..]) == EscapeWith(s, t[4..]);
      assert EscapeWith(s, t[4..]) == EscapeWith(s, t[5..]);
    } else {
      assert s == [s[0]] + s[1..];
      EscapeWithDistributes([s[0]], s[1..], EscapedCharacterSet);
      EscapeOneChar(s[0]);
      PassesArePerCharacter(s[1..]);
    }
  }

  /** Escaped text contains no `<`, `>`, `'` or `"`, and every `&` in it starts one of the
      table's entities. */
  lemma {:induction false} EscapedHasNoMarkup(s: string)
    ensures forall i | 0 <= i < |Escape(s)| :: Escape(s)[i] !in {'<', '>', '\'', '"'}
  {
    EscapeEachHasNoMarkup(s);
  }

  lemma {:induction false} EscapeEachHasNoMarkup(s: string)
    ensures forall i | 0 <= i < |EscapeEach(s)| :: EscapeEach(s)[i] !in {'<', '>', '\'', '"'}
    decreases |s|
  {
    if |s| > 0 {
      EscapeEachHasNoMarkup(s[1..]);
      var head := EscapeChar(s[0]);
      assert forall i | 0 <= i < |head| :: head[i] !in {'<', '>', '\'', '"'};
    }
  }

  /** Text free of the five special characters is returned unchanged. */
  lemma {:induction false} EscapePlainText(s: string)
    requires forall i | 0 <= i < |s| :: !IsSpecial(s[i])
    ensures Escape(s) == s
    decreases |s|
  {
    EscapeEachPlain(s);
  }

  lemma {:induction false} EscapeEachPlain(s: string)
    requires forall i | 0 <= i < |s| :: !IsSpecial(s[i])
    ensures EscapeEach(s) == s
    decreases |s|
  {
    if |s| > 0 {
      EscapeEachPlain(s[1..]);
    }
  }

  /** Decoder for the table exactly as written (`&amp` without semicolon). */
  function Unescape(s: string): string
    decreases |s|
  {
    if |s| == 0 then []
    else if s[0] != '&' then [s[0]] + Unescape(s[1..])
    else if |s| >= 4 && s[..4] == "&amp" then "&" + Unescape(s[4..])
    else if |s| >= 4 && s[..4] == "&lt;" then "<" + Unescape(s[4..])
    else if |s| >= 4 && s[..4] == "&gt;" then ">" + Unescape(s[4..])
    else if |s| >= 6 && s[..6] == "&apos;" then "'" + Unescape(s[6..])
    else if |s| >= 6 && s[..6] == "&quot;" then "\"" + Unescape(s[6..])
    else [s[0]] + Unescape(s[1..])
  }

  /** Despite the missing semicolon the table is a prefix-free code, so escaping loses no
      information: decoding the escaped text gives the original back. */
  lemma {:induction false} UnescapeEscape(s: string)
    ensures Unescape(Escape(s)) == s
  {
    UnescapeEscapeEach(s);
  }

  lemma {:induction false} UnescapeEscapeEach(s: string)
    ensures Unescape(EscapeEach(s)) == s
    decreases |s|
  {
    if |s| > 0 {
      var rest := EscapeEach(s[1..]);
      assert EscapeEach(s) == EscapeChar(s[0]) + rest;
      UnescapeEscapeEach(s[1..]);
      UnescapeHead(s[0], rest);
      assert s == [s[0]] + s[1..];
    }
  }

  /** Decoding an escaped character followed by anything reads that character back and
      resumes right after its entity. */
  lemma UnescapeHead(c: char, rest: string)
    ensures Unescape(EscapeChar(c) + rest) == [c] + Unescape(rest)
  {
    var head := EscapeChar(c);
    var e := head + rest;
    assert e[..|head|] == head;
    assert e[|head|..] == rest;
    if c == '&' || c == '<' || c == '>' {
      assert e[..4] == head && e[4..] == rest;
    } else if c == '\'' {
      assert e[..6] == head && e[6..] == rest;
      assert e[2] == 'p' && e[1] == 'a';
      assert e[..4] != "&amp" && e[..4] != "&lt;" && e[..4] != "&gt;";
    } else if c == '"' {
      assert e[..6] == head && e[6..] == rest;
      assert e[1] == 'q';
      assert e[..4] != "&amp" && e[..4] != "&lt;" && e[..4] != "&gt;" && e[..6] != "&apos;";
    } else {
      assert e[0] == c && e[1..] == rest;
    }
  }

  // ---------------------------------------------------------------------------
  // CDATA

  function CData(text: string): string {
    "<![CDATA[" + text + "]]>"
  }

  /** The wrapper does not split a `]]>` inside the text, so such text closes the section
      early: the terminator then occurs before the end of the wrapped string. */
  lemma CDataEarlyTerminator(text: string, i: nat)
    requires i + 3 <= |text| && text[i..i + 3] == "]]>"
    ensures var w := CData(text); 9 + i + 3 < |w| && w[9 + i..9 + i + 3] == "]]>"
  {
    var w := CData(text);
    assert w[9..9 + |text|] == text;
    assert w[9 + i..9 + i + 3] == text[i..i + 3];
  }

  // ---------------------------------------------------------------------------
  // XML declaration (`XMLHeader`)

  datatype XMLHeader = XMLHeader(version: Option<F64>, encoding: Option<string>, standalone: Option<string>)

  predicate IsEmpty(h: XMLHeader) {
    h.version.None? && h.encoding.None? && h.standalone.None?
  }

  /** ` name="value"`, one pseudo-attribute of the XMLDecl production (section 2.8 of
      XML 1.0), when the value is set. */
  function DeclField(name: string, value: Option<string>): string {
    if value.Some? then " " + Pseudo(name, value.value) else ""
  }

  /** `name="value"`. */
  function Pseudo(name: string, value: string): string {
    name + "=\"" + value + "\""
  }

  function VersionText(h: XMLHeader, describe: DescribeDouble): Option<string> {
    if h.version.Some? then Some(describe(h.version.value)) else None
  }

  /** The declaration text as the source assembles it: a trailing space after the version
      and encoding fields, none after standalone. */
  function RawDeclaration(h: XMLHeader, describe: DescribeDouble): string {
    var s2 := RawUpToEncoding(h, describe);
    if h.standalone.Some? then s2 + Pseudo("standalone", h.standalone.value) else s2
  }

  function RawUpToEncoding(h: XMLHeader, describe: DescribeDouble): string {
    var s1 := RawUpToVersion(h, describe);
    if h.encoding.Some? then s1 + Pseudo("encoding", h.encoding.value) + " " else s1
  }

  function RawUpToVersion(h: XMLHeader, describe: DescribeDouble): string {
    var s0 := "<?xml ";
    if h.version.Some? then s0 + Pseudo("version", describe(h.version.value)) + " " else s0
  }

  /** The fields of a non-empty header, each preceded by one space. */
  function DeclFields(h: XMLHeader, describe: DescribeDouble): string {
    DeclField("version", VersionText(h, describe)) + DeclField("encoding", h.encoding)
      + DeclField("standalone", h.standalone)
  }

  /** `toXML()`: nil for an empty header; otherwise `<?xml`, then the set fields in the
      order version, encoding, standalone, each preceded by one space, then `?>` and a
      newline. */
  function ToXML(h: XMLHeader, describe: DescribeDouble): (r: Option<string>)
    ensures r.None? <==> IsEmpty(h)
    ensures r.Some? ==>
      r.value == "<?xml" + DeclFields(h, describe) + "?>\n"
  {
    if IsEmpty(h) then None
    else
      RawDeclarationTrims(h, describe);
      Some(Trim(RawDeclaration(h, describe), Whitespaces) + "?>\n")
  }

  /** Whatever follows it, a document with a declaration starts with `<?xml`. */
  lemma DeclarationLeads(h: XMLHeader, describe: DescribeDouble, rest: string)
    requires !IsEmpty(h)
    ensures "<?xml" <= ToXML(h, describe).value + rest
  {
    var f := DeclFields(h, describe);
    Prefix("<?xml", f + "?>\n" + rest);
    PrefixAssoc("<?xml", f, "?>\n", rest);
  }

  lemma PrefixAssoc(a: string, b: string, c: string, d: string)
    ensures a + b + c + d == a + (b + c + d)
  {
  }

  /** Trimming the assembled text removes exactly the one trailing space left by the
      last field. */
  lemma RawDeclarationTrims(h: XMLHeader, describe: DescribeDouble)
    requires !IsEmpty(h)
    ensures Trim(RawDeclaration(h, describe), Whitespaces) == "<?xml" + DeclFields(h, describe)
  {
    var x := "<?xml" + DeclFields(h, describe);
    RawDeclarationShape(h, describe);
    if h.standalone.Some? {
      TrimKeepsTightString(x);
    } else {
      TrimDropsOneSpace(x);
    }
  }

  /** The assembled text is the declaration's fields, with one trailing space exactly
      when standalone is unset; the fields end with a closing quote. */
  lemma RawDeclarationShape(h: XMLHeader, describe: DescribeDouble)
    requires !IsEmpty(h)
    ensures var x := "<?xml" + DeclFields(h, describe);
      && x[0] == '<' && x[|x| - 1] == '"'
      && RawDeclaration(h, describe) == if h.standalone.Some? then x else x + " "
  {
    var f1 := DeclField("version", VersionText(h, describe));
    var f2 := DeclField("encoding", h.encoding);
    var f3 := DeclField("standalone", h.standalone);
    var p1 := "<?xml" + f1;
    var p2 := p1 + f2;
    var x := p2 + f3;
    assert x == "<?xml" + DeclFields(h, describe);
    UpToEncodingShape(h, describe);
    assert x[0] == '<';
    if h.standalone.Some? {
      LastFieldStep(p2, "standalone", h.standalone.value);
    } else if h.encoding.Some? {
      LastFieldStep(p1, "encoding", h.encoding.value);
    } else {
      LastFieldStep("<?xml", "version", describe(h.version.value));
    }
  }

  /** Up to the encoding field the assembled text is the set fields and one space. */
  lemma UpToEncodingShape(h: XMLHeader, describe: DescribeDouble)
    ensures RawUpToEncoding(h, describe)
      == "<?xml" + DeclField("version", VersionText(h, describe)) + DeclField("encoding", h.encoding) + " "
  {
    var p1 := "<?xml" + DeclField("version", VersionText(h, describe));
    assert RawUpToVersion(h, describe) == p1 + " " by {
      if h.version.Some? { FieldStep("<?xml", "version", describe(h.version.value)); }
    }
    if h.encoding.Some? { FieldStep(p1, "encoding", h.encoding.value); }
  }

  /** Appending a field followed by a space. */
  lemma FieldStep(p: string, name: string, v: string)
    ensures p + " " + Pseudo(name, v) + " " == p + DeclField(name, Some(v)) + " "
  {
  }

  /** Appending a field with no space after it; the text then ends with a quote. */
  lemma LastFieldStep(p: string, name: string, v: string)
    ensures p + " " + Pseudo(name, v) == p + DeclField(name, Some(v))
    ensures var x := p + DeclField(name, Some(v)); x[|x| - 1] == '"'
  {
  }

  lemma TrimKeepsTightString(x: string)
    requires |x| > 0 && !InSet(x[0], Whitespaces) && !InSet(x[|x| - 1], Whitespaces)
    ensures Trim(x, Whitespaces) == x
  {
    assert FirstKept(x, Whitespaces, 0) == 0;
    assert LastKept(x, Whitespaces, 0, |x|) == |x|;
  }

  lemma TrimDropsOneSpace(x: string)
    requires |x| > 0 && !InSet(x[0], Whitespaces) && !InSet(x[|x| - 1], Whitespaces)
    ensures Trim(x + " ", Whitespaces) == x
  {
    var s := x + " ";
    assert FirstKept(s, Whitespaces, 0) == 0;
    assert LastKept(s, Whitespaces, 0, |x|) == |x|;
    assert LastKept(s, Whitespaces, 0, |s|) == |x|;
    assert s[0..|x|] == x;
  }
}
